=== FILE: README.md ===
# CPU telemetry scripts of the power-measurement harness, in Dafny

This project models the logic inside the Python scripts that run a GPU
benchmark with CPU-side monitors. The scripts do three things:

- They split the machine's logical CPUs between the benchmark and the monitors.
- They read hardware counters from the text that `perf`, `e_smi_tool` and resctrl print.
- They write the collected samples to CSV.

Once the subprocesses, clocks and liveness checks are taken out, everything
left is a function over strings, sequences and reals. Those functions are
modelled here, each with the properties the scripts rely on.

Modules, one per concern:

- `Wrappers` (wrappers.dfy): `Option` and `Result`.
- `Text` (text.dfy): Python's `str.split`, `str.join`, `str.strip`,
  `str.replace` of one character, `in` on strings, `str()` of an int, and
  the decimal subset of `int()` and `float()`.
- `Sorting` (sorting.dfy): `sorted(xs)` and `sorted(set(xs))`.
- `CpuList` (cpulist.dfy): `expand_cpu_list` and the comma-joined lists
  handed to `taskset -c`.
- `Topology` (topology.dfy): the module-level CPU partition of
  `exp_solo.py`.
- `Series` (series.dfy): sample series, CSV rows, and the positional
  alignment that all three writers share.
- `ImcReader` (imc.dfy): `read_cpu_metrics.py`. This covers the Intel IMC
  reader, the resctrl MBM monitor and `write_throughput_csv`.
- `PerfCsv` (perfcsv.dfy): `read_cpu_metrics2.py`. This covers the
  instructions / LLC-miss reader over `perf stat -x ,` rows and
  `write_ips_llc_csv`.
- `SocketPower` (socketpower.dfy): `read_cpu_power_amd.py`. This covers the
  socket-power table parser, the energy integral and the two output modes.
- `AmdDram` (amddram.dfy): `read_cpu_metrics_amd-checkpoint.py`. This covers
  the instruction picker, the demand-fill DRAM reader and
  `write_synchronized_data`.

How the scripts' moving parts appear in the model:

- **Subprocess output:**
  - A long-running subprocess's stderr is a `seq<string>` of lines.
  - A one-shot command's output is a `string` or an `Option<seq<string>>`.
  - `readline()` past the end gives `""`.
- **Sampling loops:**
  - `while psutil.pid_exists(pid)` becomes a sequence with one element per iteration.
  - That element holds the elapsed time read in the iteration, plus the tool output the iteration consumed when the tool is re-run each time.
- **Exceptions:**
  - An uncaught exception is an `Err` value. This covers `float()` of a matched `1.2.3`, a malformed cpulist, a core without SMT, and an interval of 0.
  - A caught exception is modelled as the fallback value the script returns.

Facts about the code that a reader of the scripts might not expect:

- **IMC conversion:** a 100.5 MiB read line and a 50.25 MiB write line give
  (100.5 + 50.25) × 1.04858 = 158.073435 MB, which
  `ImcReader.TwoCounterExample` proves.
- **IMC interval size:** one interval consumes lines until 16 of them match
  the pattern. Two counter lines are one interval only when the stream ends
  after them.
- **Malformed lines:** the block reader skips lines the pattern does not
  match, but a matched value that `float()` rejects raises.
  `ImcReader.ScanImcFails` states this.
- **Online CPUs:** the code never checks that the reserved sibling sets lie
  inside the online set. The model proves only what the code guarantees:
  `allowed` lies inside the online set, and is disjoint from every
  reserved set.

## Model

| member | source | states |
|---|---|---|
| Text.Split | GPGPU/script/exp_solo.py:15 | `s.split(sep)` yields at least one piece, and no piece holds the separator |
| Text.SplitJoin | GPGPU/script/exp_solo.py:46 | splitting a join of separator-free pieces gives the pieces back |
| Text.JoinSplit | GPGPU/script/exp_solo.py:15 | joining the pieces of a split gives the text back |
| Text.Strip | GPGPU/script/exp_solo.py:24 | `strip()` returns a slice of the text with only whitespace cut from either end, and no whitespace left at either end |
| Text.StripUnchanged | GPGPU/script/exp_solo.py:24 | text with no whitespace at its ends is left unchanged by `strip()` |
| Text.StripSurrounded | GPGPU/script/power_util/.ipynb_checkpoints/read_cpu_metrics_amd-checkpoint.py:15 | `strip()` removes exactly the whitespace around a text that neither starts nor ends with whitespace |
| Text.SplitCount | GPGPU/script/power_util/read_cpu_metrics2.py:34 | `split(",")` gives one more piece than there are commas |
| Text.RemoveOne | GPGPU/script/power_util/read_cpu_metrics2.py:38 | `replace(" ", "")` on text holding one blank joins the two sides |
| Text.RemoveChar | GPGPU/script/power_util/read_cpu_metrics2.py:38 | `replace(" ", "")` leaves no occurrence of the character, and every other character occurs in the result exactly when it occurs in the input |
| Text.FirstContaining | GPGPU/script/power_util/read_cpu_power_amd.py:15-16 | the index of the first line containing the text, no line before it containing it, or none when no line does |
| Text.FirstContainingAt | GPGPU/script/power_util/read_cpu_power_amd.py:15-16 | the first line containing the text is found wherever it stands, and lines after it are not looked at |
| Text.NatToString | GPGPU/script/exp_solo.py:46 | `str(n)` is a digit string without leading zero that spells `n` |
| Text.ParseIntNatToString | GPGPU/script/exp_solo.py:18-20 | `int()` reads back what `str()` prints |
| Text.ParseDecimalNatToString | GPGPU/script/power_util/read_cpu_power_amd.py:19-20 | `float()` reads back the numeral of a non-negative int |
| Text.RejectsNonNumeral | GPGPU/script/power_util/read_cpu_metrics2.py:40-43 | `float()` rejects text that starts with neither a digit, a sign nor a '.' |
| Text.ParseDecimalFraction | GPGPU/script/power_util/read_cpu_metrics.py:42 | `float("x.y")` is x plus y over 10 to the number of digits of y |
| Sorting.Sort | GPGPU/script/exp_solo.py:28 | `sorted()` returns an ascending permutation of its input |
| Sorting.SortedSet | GPGPU/script/exp_solo.py:44 | `sorted(set(xs))` is strictly ascending and has exactly the elements of `xs` |
| Sorting.StrictlySortedUnique | GPGPU/script/exp_solo.py:44 | two strictly ascending sequences with the same elements are equal |
| Sorting.Without | GPGPU/script/exp_solo.py:44 | set difference: the elements of the list minus the dropped set |
| CpuList.Range | GPGPU/script/exp_solo.py:18 | `range(lo, hi)` is lo, lo+1, ..., hi-1, and empty when lo >= hi |
| CpuList.ExpandPart | GPGPU/script/exp_solo.py:16-20 | a part that parses yields no negative id: a leading '-' makes the part a malformed range, never a negative number |
| CpuList.Expand | GPGPU/script/exp_solo.py:13-21 | a cpulist that parses yields only non-negative ids |
| CpuList.SinglePart | GPGPU/script/exp_solo.py:19-20 | a part without '-' is the single id `[int(part)]` |
| CpuList.RangePart | GPGPU/script/exp_solo.py:16-18 | a part `a-b` is a, a+1, ..., b inclusive, and nothing when a > b |
| CpuList.ExpandConcatenates | GPGPU/script/exp_solo.py:14-21 | `x,y` expands to the expansion of x followed by that of y, and fails when either fails |
| CpuList.JoinIdsRoundTrip | GPGPU/script/exp_solo.py:46-47 | a non-empty list of ids joined with commas parses back to the same ids |
| Topology.ThreadSiblings | GPGPU/script/exp_solo.py:26-28 | the sibling list is the expansion sorted ascending, a permutation of it, and fails exactly when the expansion fails |
| Topology.ComputePartition | GPGPU/script/exp_solo.py:33-47 | on success: sib0/1/2 are the three sorted sibling lists, `t_mem`/`t_ips` are the first two of sib2, `allowed` is strictly ascending with exactly the elements online minus sib0, sib1 and sib2, and the two strings are their comma joins |
| Topology.PartitionFailure | GPGPU/script/exp_solo.py:38-39 | the partition fails if and only if a list is malformed or core 2 has fewer than two threads, and a short core 2 is reported before the online list is read |
| Topology.MonitorThreadsOrdered | GPGPU/script/exp_solo.py:40-41 | `t_mem <= t_ips`, both are core 2's CPUs, and they are equal only if core 2's list names that CPU twice |
| Topology.AllowedIsolated | GPGPU/script/exp_solo.py:43-44 | every benchmark CPU is online and outside sib0, sib1 and sib2, so `t_mem` and `t_ips` are not benchmark CPUs |
| Topology.AllowedIsSortedSet | GPGPU/script/exp_solo.py:44 | any strictly ascending listing of online minus the reserved sets is `allowed` |
| Topology.TasksetListsRoundTrip | GPGPU/script/exp_solo.py:46-47 | `allowed_str` and `sib1_str`, when not empty, parse back to `allowed` and `sib1` |
| Series.AlignRows | GPGPU/script/power_util/read_cpu_metrics2.py:67-72 | as many aligned rows as the shorter series has samples |
| Series.AlignRowsTruncates | GPGPU/script/power_util/.ipynb_checkpoints/read_cpu_metrics_amd-checkpoint.py:84-86 | only the common prefix of the two series is used |
| Series.AlignRowsExtends | GPGPU/script/power_util/.ipynb_checkpoints/read_cpu_metrics_amd-checkpoint.py:84-93 | later samples only add rows at the end; rows already produced do not change |
| ImcReader.ImcEvents | GPGPU/script/power_util/read_cpu_metrics.py:11-16 | 16 events: unit u's read CAS event at 2u and its write CAS event at 2u+1, for u = 0..7 |
| ImcReader.MatchImc | GPGPU/script/power_util/read_cpu_metrics.py:40 | a match captures a non-empty run of digits and dots, never a sign |
| ImcReader.ReadsCasLine | GPGPU/script/power_util/read_cpu_metrics.py:40 | on a counter line with any indented timestamp column in front and any non-empty runs of whitespace on either side of `MiB`, the pattern captures the value and the read/write kind |
| ImcReader.ClassifiesCasLine | GPGPU/script/power_util/read_cpu_metrics.py:40-43 | a counter line, padded as above, counts its `float()` value for its kind, or is the line where the script raises |
| ImcReader.ClassifyImc | GPGPU/script/power_util/read_cpu_metrics.py:40-42 | a counted value is never negative |
| ImcReader.KindTotal | GPGPU/script/power_util/read_cpu_metrics.py:44-47 | the per-kind total of non-negative values is non-negative |
| ImcReader.ScanImc | GPGPU/script/power_util/read_cpu_metrics.py:36-48 | the inner loop ends within the stream, or fails at a line inside it |
| ImcReader.ScanImcTotals | GPGPU/script/power_util/read_cpu_metrics.py:41-48 | the read and write totals grow by exactly the matched values of each kind among the consumed lines |
| ImcReader.ScanImcStops | GPGPU/script/power_util/read_cpu_metrics.py:36-39 | the scan stops right after the 16th matching line, or at the end of the stream; non-matching lines are consumed without counting |
| ImcReader.ScanImcFails | GPGPU/script/power_util/read_cpu_metrics.py:42 | the scan fails exactly at the first matched value `float()` rejects, and never when there is none |
| ImcReader.ReadImcBlock | GPGPU/script/power_util/read_cpu_metrics.py:30-51 | one interval's value is (read total + write total) × 1.04858, is non-negative, and covers exactly the lines up to the quota or the end of the stream |
| ImcReader.EndOfStreamReadsZero | GPGPU/script/power_util/read_cpu_metrics.py:37-39 | at the end of the stream an interval reads 0 and consumes nothing |
| ImcReader.ShortStreamOneInterval | GPGPU/script/power_util/read_cpu_metrics.py:36-51 | a stream with fewer lines than the quota is one interval, and its value sums every counter in it |
| ImcReader.TwoCounterExample | GPGPU/script/power_util/read_cpu_metrics.py:40-51 | a 100.5 MiB read line and a 50.25 MiB write line give 158.073435 MB |
| ImcReader.MonitorImc | GPGPU/script/power_util/read_cpu_metrics.py:27-52 | sample i carries the i-th time and the value of the i-th interval, each interval starting where the one before stopped reading; the loop fails exactly when one of its intervals raises, never without an unparsable match; the samples add up to 1.04858 times the matched values of all lines consumed |
| ImcReader.MonitorBlocks | GPGPU/script/power_util/read_cpu_metrics.py:27-52 | the loop over the classified lines: sample i carries the i-th time and the value the i-th interval reads from where the one before stopped; it fails exactly when one of its intervals raises; the samples add up to 1.04858 times the matched values of all lines consumed |
| ImcReader.BlockStartStaysNone | GPGPU/script/power_util/read_cpu_metrics.py:27-52 | once an interval has raised, no later interval runs |
| ImcReader.MbmRate | GPGPU/script/power_util/read_cpu_metrics.py:108-111 | the rate is non-negative, 0 when the byte count did not grow, and otherwise the byte delta in MiB divided by the time delta, or by 1 µs when the time delta is shorter than that |
| ImcReader.MonitorMbm | GPGPU/script/power_util/read_cpu_metrics.py:74-118 | missing mon_data, no mbm file, or a dead pid raise in that order; otherwise one sample per reading, timed from the start, rated against the previous reading |
| ImcReader.WriteThroughputCsv | GPGPU/script/power_util/read_cpu_metrics.py:127-133 | the header `Time (s)`, `Memory Throughput (MB/s)`, then one `[t, mb]` row per sample in order |
| PerfCsv.ClassifyCsvRow | GPGPU/script/power_util/read_cpu_metrics2.py:34-49 | a `time,value,unit,event,...` row with any whitespace around it (perf's padding in front, the newline `readline()` keeps) counts for `instructions` and `LLC-misses` and for no other event name, with the value `float()` reads from field 1 once its blanks are dropped, or 0.0 where `float()` rejects it |
| PerfCsv.ReadsPerfRow | GPGPU/script/power_util/read_cpu_metrics2.py:32-49 | a row as perf prints it, with any padding in front and the newline `readline()` keeps, reads back as its event and count |
| PerfCsv.ReadsRejectedValue | GPGPU/script/power_util/read_cpu_metrics2.py:38-43 | a row of one of the two events whose value `float()` rejects still counts, as 0.0 |
| PerfCsv.ReadsNotCountedRow | GPGPU/script/power_util/read_cpu_metrics2.py:38-49 | perf's `<not counted>` row of an event reads as a 0.0 reading of that event, and so still ends the interval |
| PerfCsv.OtherEventIgnored | GPGPU/script/power_util/read_cpu_metrics2.py:44-49 | a row naming any other event is skipped, whatever its value |
| PerfCsv.CommentLineIgnored | GPGPU/script/power_util/read_cpu_metrics2.py:34-36 | a line whose first non-blank character is `#` is skipped |
| PerfCsv.FewFieldsIgnored | GPGPU/script/power_util/read_cpu_metrics2.py:34-36 | a line with fewer than three commas, a blank line among them, is skipped |
| PerfCsv.ScanPerf | GPGPU/script/power_util/read_cpu_metrics2.py:30-49 | the inner loop ends within the stream |
| PerfCsv.ScanPerfValues | GPGPU/script/power_util/read_cpu_metrics2.py:44-49 | each event keeps the value of its last row in the interval; a repeated event overwrites the earlier one |
| PerfCsv.ScanPerfStops | GPGPU/script/power_util/read_cpu_metrics2.py:30-36 | the interval ends right after its second counted row, or at the end of the stream |
| PerfCsv.TwoRowInterval | GPGPU/script/power_util/read_cpu_metrics2.py:30-49 | an instructions row then an LLC-misses row make one interval with exactly those counts |
| PerfCsv.TaggedFieldExample | GPGPU/script/power_util/read_cpu_metrics2.py:30-52 | 2000000 instructions and 500 misses over 0.5 s give rates of 4000000 and 1000 |
| PerfCsv.RateScales | GPGPU/script/power_util/read_cpu_metrics2.py:51-52 | the rate times the interval is the count (0 when missing), and is non-negative for a positive interval |
| PerfCsv.MonitorClassified | GPGPU/script/power_util/read_cpu_metrics2.py:23-55 | per iteration one IPS and one LLC sample with the same time, each the interval's count over the interval length |
| PerfCsv.MonitorIpsLlc | GPGPU/script/power_util/read_cpu_metrics2.py:23-55 | fails if and only if the interval is 0 and an iteration runs; otherwise two equally long lists with the rates of each interval |
| PerfCsv.WriteIpsLlcCsv | GPGPU/script/power_util/read_cpu_metrics2.py:64-72 | the header `Time (s)`, `IPS`, `LLC Misses`, then `min(len)` rows, row i being `[ips[i] time, ips[i] value, llc[i] value]` |
| PerfCsv.MonitorOutputFullyWritten | GPGPU/script/power_util/read_cpu_metrics2.py:54-72 | with equally long lists, as the monitor produces them, every sample gets its row |
| SocketPower.ReadSocketPower | GPGPU/script/power_util/read_cpu_power_amd.py:9-32 | a command that could not be started, or output without a `Power (Watts)` line, reads `[0, 0]` |
| SocketPower.FirstLabelledRowDecides | GPGPU/script/power_util/read_cpu_power_amd.py:15-21 | only the first labelled line is parsed; lines before and after it do not matter |
| SocketPower.NoLabelledRowReadsZero | GPGPU/script/power_util/read_cpu_power_amd.py:25-32 | no labelled line gives `[0, 0]` |
| SocketPower.ShortRowReadsZero | GPGPU/script/power_util/read_cpu_power_amd.py:18-23 | a labelled line with fewer than 4 fields gives `[0, 0]` |
| SocketPower.ParseThreeCells | GPGPU/script/power_util/read_cpu_power_amd.py:17-21 | fields 2 and 3, stripped and read as floats, are the two socket powers |
| SocketPower.ParseRenderedRow | GPGPU/script/power_util/read_cpu_power_amd.py:17-21 | a row with whole-number powers and one blank on each side of every cell, `\| Power (Watts) \| a \| b \|`, reads back as `[a, b]` |
| SocketPower.ReadDecimalCell | GPGPU/script/power_util/read_cpu_power_amd.py:19-20 | a cell holding a decimal numeral `w.f` with any run of blanks on either side has no `\|` and `float(cell.strip())` is the value its digits spell out |
| SocketPower.ParseDecimalRow | GPGPU/script/power_util/read_cpu_power_amd.py:17-21 | a row with decimal powers, `\|  Power (Watts) \| wa.fa  \|   wb.fb \|`, padded by any runs of blanks, reads back as the two values the numerals spell out |
| SocketPower.EnergyStep | GPGPU/script/power_util/read_cpu_power_amd.py:48 | adding power × interval keeps the energy at interval × the sum of powers |
| SocketPower.Integrate | GPGPU/script/power_util/read_cpu_power_amd.py:39-48 | the accumulated energy is interval × the sum of the recorded powers |
| SocketPower.MonitorPower | GPGPU/script/power_util/read_cpu_power_amd.py:36-50 | one sample per iteration, each the sum of both sockets, and the energy is interval × the sum of the samples |
| SocketPower.PowerSumNonNegative | GPGPU/script/power_util/read_cpu_power_amd.py:47-48 | non-negative powers have a non-negative sum |
| SocketPower.Cents | GPGPU/script/power_util/read_cpu_power_amd.py:59 | within half a unit of x × 100, and even on a tie |
| SocketPower.RoundTo2 | GPGPU/script/power_util/read_cpu_power_amd.py:59 | `round(x, 2)` is within 0.005 of x |
| SocketPower.CentsUnique | GPGPU/script/power_util/read_cpu_power_amd.py:59 | the half-even rounding is the only integer meeting that bound |
| SocketPower.RoundTo2Exact | GPGPU/script/power_util/read_cpu_power_amd.py:59 | a value with two decimals is unchanged by `round(x, 2)` |
| SocketPower.RoundTo2Idempotent | GPGPU/script/power_util/read_cpu_power_amd.py:59 | rounding twice is rounding once |
| SocketPower.PowerOutput | GPGPU/script/power_util/read_cpu_power_amd.py:54-64 | avg mode appends the rounded energy, after the `CPU_E (J)` header only when the file is empty; otherwise the file is replaced by the header and every sample in order |
| SocketPower.AvgRunsAppend | GPGPU/script/power_util/read_cpu_power_amd.py:55-59 | repeated avg runs on a non-empty file each add exactly one rounded-energy row, in order |
| SocketPower.AvgRunsHeaderOnce | GPGPU/script/power_util/read_cpu_power_amd.py:55-59 | avg runs starting from an empty file leave the header exactly once, on top, then one row per run |
| SocketPower.OverwriteForgetsFile | GPGPU/script/power_util/read_cpu_power_amd.py:60-64 | without avg, the file's earlier content does not matter |
| AmdDram.CollectInstructions | GPGPU/script/power_util/.ipynb_checkpoints/read_cpu_metrics_amd-checkpoint.py:15-17 | the result is "0" or a text without a comma |
| AmdDram.NoInstructionsLine | GPGPU/script/power_util/.ipynb_checkpoints/read_cpu_metrics_amd-checkpoint.py:16-17 | without a line naming `instructions` the result is "0" |
| AmdDram.CollectInstructionsPicksFirst | GPGPU/script/power_util/.ipynb_checkpoints/read_cpu_metrics_amd-checkpoint.py:15-17 | whatever whitespace surrounds perf's lines, the result is field 0 of the first line naming `instructions`, whatever the other lines say |
| AmdDram.MonitorIpsReadsCounts | GPGPU/script/power_util/.ipynb_checkpoints/read_cpu_metrics_amd-checkpoint.py:30-36 | `monitor_ips` (modelled by `AmdDram.MonitorIps`): sample i is the time read in pass i and the count perf printed in that pass |
| AmdDram.MonitorIpsAppend | GPGPU/script/power_util/.ipynb_checkpoints/read_cpu_metrics_amd-checkpoint.py:30-35 | passes are independent: more passes only add samples at the end |
| AmdDram.SourceAt | GPGPU/script/power_util/.ipynb_checkpoints/read_cpu_metrics_amd-checkpoint.py:68 | the event name with its `local` or `remote` suffix is recognised exactly where it stands |
| AmdDram.EmptyLineNoFill | GPGPU/script/power_util/.ipynb_checkpoints/read_cpu_metrics_amd-checkpoint.py:67-69 | the `""` of an exhausted stream matches nothing |
| AmdDram.ReadsCount | GPGPU/script/power_util/.ipynb_checkpoints/read_cpu_metrics_amd-checkpoint.py:68-70 | the corrected matcher reads the count of an interval line and the side its event names |
| AmdDram.ReadsStampFraction | GPGPU/script/power_util/.ipynb_checkpoints/read_cpu_metrics_amd-checkpoint.py:68-70 | the pattern as written reads the fractional digits of the interval timestamp instead of the count |
| AmdDram.AsWrittenMisreadsExample | GPGPU/script/power_util/.ipynb_checkpoints/read_cpu_metrics_amd-checkpoint.py:68-70 | on a concrete interval line reporting 5 local fills, the pattern as written yields 1018890 |
| AmdDram.ReadFillIsReadline | GPGPU/script/power_util/.ipynb_checkpoints/read_cpu_metrics_amd-checkpoint.py:67-68 | a read past the end of the stream behaves as matching `""` |
| AmdDram.FillsToMb | GPGPU/script/power_util/.ipynb_checkpoints/read_cpu_metrics_amd-checkpoint.py:76-78 | the MB value is non-negative, and times 1024 × 1024 it is 64 bytes per fill |
| AmdDram.IntervalFillsSum | GPGPU/script/power_util/.ipynb_checkpoints/read_cpu_metrics_amd-checkpoint.py:66-74 | local plus remote is the counts of the interval's two lines, each going to the side its line names; non-matching lines add nothing |
| AmdDram.IntervalOwnLines | GPGPU/script/power_util/.ipynb_checkpoints/read_cpu_metrics_amd-checkpoint.py:66-67 | interval i reads lines 2i and 2i+1 and nothing else |
| AmdDram.MonitorClassified | GPGPU/script/power_util/.ipynb_checkpoints/read_cpu_metrics_amd-checkpoint.py:60-79 | one sample per iteration, each the MB of exactly its two lines' fills |
| AmdDram.MonitorAmdDram | GPGPU/script/power_util/.ipynb_checkpoints/read_cpu_metrics_amd-checkpoint.py:60-79 | one non-negative sample per iteration, with its time, whose value times 1024 × 1024 is 64 bytes per fill of its two lines |
| AmdDram.MonitorAmdDramAsWritten | GPGPU/script/power_util/.ipynb_checkpoints/read_cpu_metrics_amd-checkpoint.py:60-79 | the same loop with the pattern of line 68 as written: one non-negative sample per iteration, whose value times 1024 × 1024 is 64 bytes per unit that pattern captures on its two lines |
| AmdDram.IntervalReadsStamps | GPGPU/script/power_util/.ipynb_checkpoints/read_cpu_metrics_amd-checkpoint.py:66-76 | on two interval lines as perf prints them, the corrected loop adds up the two counts and the loop as written adds up the two timestamp fractions |
| AmdDram.WriteSynchronizedData | GPGPU/script/power_util/.ipynb_checkpoints/read_cpu_metrics_amd-checkpoint.py:82-93 | the header `Time (s)`, `IPS`, `Memory Throughput (MB/s)`, then `min(len)` rows, row i being `[ips[i] time, ips[i] text, thr[i] value]` |
| AmdDram.EmptySeriesHeaderOnly | GPGPU/script/power_util/.ipynb_checkpoints/read_cpu_metrics_amd-checkpoint.py:84-93 | with either series empty, only the header is written |

## Left out

- Subprocesses, signals and cleanup are not modelled. This covers `Popen`, `run`, `perf`, `e_smi_tool`, `sudo`, `taskset`, terminate and kill. Their output is an input of the model.
- The `psutil.pid_exists` loops, `time.time()` and `time.sleep()` are not modelled. Each loop is a sequence with one element per iteration, carrying the elapsed time that iteration read.
- Threads are not modelled. The AMD script's `__main__` runs the IPS and DRAM monitors in two threads; the model takes their two finished lists.
- File and directory I/O is not modelled: `os.makedirs`, `open`, `os.stat`, sysfs and resctrl reads. The sysfs lists arrive as already stripped strings. The resctrl byte totals arrive as given integers. The "file is empty" test is a boolean.
- The csv module's formatting of numbers is not modelled. A row is a sequence of cells, each a real or a text.
- `exp_solo.py`'s benchmark tables, argument parsing, suite dispatch, output paths and the launch commands are not modelled. They are process plumbing with nothing to state.
- `--avg` is a boolean. The script takes the flag as a string, so any non-empty value turns avg mode on.
- The commented-out LLC monitor of the AMD script is not modelled.
- Characters are ASCII only. Python's `strip()` and `\s` also accept the separators \x1c-\x1f and Unicode whitespace, and `\d` accepts Unicode digits; the model does not.
- `int()` and `float()` are covered for plain decimal notation only. This means optional sign, digits, at most one '.', and surrounding whitespace. Exponents, `inf`, `nan` and underscores are not modelled. Every value the modelled tools print is plain decimal.
- Values are exact reals, not IEEE doubles. Sums, products and divisions do not round.
- SocketPower.RoundTo2: rounds the exact value half to even. Python rounds the nearest double, which can differ from the exact value on a tie.
- SocketPower.ReadSocketPower: takes the output already split into lines. `str.splitlines()` also splits on `\r` and other line boundaries.
- `read_socket_power`'s two `except` branches both return `[0, 0]`. They are one fallback in the model, and their log messages are not modelled.
- ImcReader.MonitorMbm: models only the arithmetic of the loop, namely the clamps, the rate and the elapsed time. The sleep that paces it and the summing of the per-domain files are inputs.
- Topology.ComputePartition: takes the stripped file contents. A sysfs file that cannot be read, which raises in Python, is not modelled.
- AmdDram.MonitorAmdDram: runs the corrected pattern, not the one line 68 of `read_cpu_metrics_amd-checkpoint.py` writes. The loop with the pattern as written is `AmdDram.MonitorAmdDramAsWritten`, and `AmdDram.IntervalReadsStamps` shows what it records instead; see "## Findings".

## Findings

| source | as written | input that shows it | evidently intended | confidence | as-written member | corrected member |
|---|---|---|---|---|---|---|
| GPGPU/script/power_util/.ipynb_checkpoints/read_cpu_metrics_amd-checkpoint.py:68 | `re.search(r"\s*(\d+)\s+.*ls_dmnd_fills_from_sys\.mem_io_(local\|remote)", line)` on `perf stat -I` output. Every such line starts with the interval timestamp `secs.fraction`. The leftmost match therefore starts at the fraction's digits, which are followed by whitespace, and `.*` skips the real count. The model of this pattern is `AmdDram.MatchFillsAsWritten`. | `     1.001018890   5      ls_dmnd_fills_from_sys.mem_io_local`: the pattern captures 1018890 instead of 5 | capture the number directly in front of the event name, `(\d+)\s+ls_dmnd_fills_from_sys\.mem_io_(local\|remote)`. The model of this pattern is `AmdDram.MatchFills`, which the DRAM loop uses. | high; not executed | AmdDram.AsWrittenMisreadsExample | AmdDram.ReadsCount |

=== FILE: amddram.dfy ===
/** `read_cpu_metrics_amd-checkpoint.py`: instruction counts picked from
    `perf stat -x ,` output, DRAM throughput from the AMD demand-fill
    counters printed by `perf stat -I`, and the CSV that pairs the two. */
module AmdDram {
  import opened Wrappers
  import opened Text
  import opened Series

  // ---------------------------------------------------------------------
  // collect_instructions
  // ---------------------------------------------------------------------

  const InstructionsEvent: string := "instructions"

  /** `collect_instructions`, given perf's stderr: field 0 of the first
      line that mentions the event, or "0" when no line does. */
  function CollectInstructions(stderr: string): (r: string)
    ensures r == "0" || ',' !in r
  {
    var lines := Split(Strip(stderr), '\n');
    match FirstContaining(lines, InstructionsEvent)
    case None => "0"
    case Some(k) => Split(lines[k], ',')[0]
  }

  /** Without a line that names the event the count reads "0". */
  lemma NoInstructionsLine(stderr: string)
    requires forall j :: 0 <= j < |Split(Strip(stderr), '\n')| ==>
      !Contains(Split(Strip(stderr), '\n')[j], InstructionsEvent)
    ensures CollectInstructions(stderr) == "0"
  {
  }

  /** perf's stderr taken apart around the first line naming the event:
      the whitespace in front, the lines before it, its count field, the
      rest of it after the comma, the lines after it and the whitespace at
      the end (perf ends its output with a newline). */
  datatype PerfStderr = PerfStderr(lead: string, pre: seq<string>, count: string, fields: string,
                                   post: seq<string>, trail: string)

  function StderrLines(o: PerfStderr): seq<string> {
    o.pre + [o.count + "," + o.fields] + o.post
  }

  function StderrText(o: PerfStderr): string {
    o.lead + Join(StderrLines(o), '\n') + o.trail
  }

  /** The pieces fit: no line before the row names the event, the row
      does, no piece holds a newline, and the whitespace around the lines
      is all in `lead` and `trail`. */
  predicate WellFormedStderr(o: PerfStderr) {
    && AllSpace(o.lead) && AllSpace(o.trail)
    && (forall j :: 0 <= j < |o.pre| ==> '\n' !in o.pre[j] && !Contains(o.pre[j], InstructionsEvent))
    && (forall j :: 0 <= j < |o.post| ==> '\n' !in o.post[j])
    && '\n' !in o.count && ',' !in o.count
    && '\n' !in o.fields && Contains(o.fields, InstructionsEvent)
    && var s := Join(StderrLines(o), '\n');
       |s| > 0 && !IsSpace(s[0]) && !IsSpace(s[|s| - 1])
  }

  /** The field before the first comma of the first line naming the event
      is what comes back, whatever the other lines say. */
  lemma CollectInstructionsPicksFirst(o: PerfStderr)
    requires WellFormedStderr(o)
    ensures CollectInstructions(StderrText(o)) == o.count
  {
    var row := o.count + "," + o.fields;
    var lines := StderrLines(o);
    assert forall j :: 0 <= j < |lines| ==> '\n' !in lines[j] by {
      forall j | 0 <= j < |lines| ensures '\n' !in lines[j] {
        if j < |o.pre| {
          assert lines[j] == o.pre[j];
        } else if j == |o.pre| {
          assert lines[j] == row;
        } else {
          assert lines[j] == o.post[j - |o.pre| - 1];
        }
      }
    }
    StrippedLines(o.lead, lines, o.trail);
    assert Contains(row, InstructionsEvent) by {
      ContainsSuffix(o.count + ",", o.fields, InstructionsEvent);
    }
    FirstContainingAt(o.pre, row, o.post, InstructionsEvent);
    FirstField(o.count, o.fields);
  }

  /** Lines joined by newlines, with no whitespace at either end of the
      join, come back from `strip()` and `split('\n')` whatever whitespace
      surrounds them. */
  lemma StrippedLines(lead: string, lines: seq<string>, trail: string)
    requires AllSpace(lead) && AllSpace(trail)
    requires |lines| > 0 && forall j :: 0 <= j < |lines| ==> '\n' !in lines[j]
    requires var s := Join(lines, '\n'); |s| > 0 && !IsSpace(s[0]) && !IsSpace(s[|s| - 1])
    ensures Split(Strip(lead + Join(lines, '\n') + trail), '\n') == lines
  {
    StripSurrounded(lead, Join(lines, '\n'), trail);
    SplitJoin(lines, '\n');
  }

  /** Field 0 is everything before the first comma. */
  lemma FirstField(count: string, fields: string)
    requires ',' !in count
    ensures Split(count + "," + fields, ',')[0] == count
  {
    SplitPrefix(count, "," + fields, ',');
    assert count + "," + fields == count + ("," + fields);
    assert ("," + fields)[0] == ',' && ("," + fields)[1..] == fields;
  }

  /** `monitor_ips`: one pass per tick, each recording the elapsed time and
      the count exactly as text. */
  datatype IpsTick = IpsTick(elapsed: real, stderr: string)

  function MonitorIps(ticks: seq<IpsTick>): (ips: seq<Sample<string>>)
    ensures |ips| == |ticks|
  {
    seq(|ticks|, i requires 0 <= i < |ticks| => Sample(ticks[i].elapsed, CollectInstructions(ticks[i].stderr)))
  }

  /** Each sample records the count perf printed in that pass, with the
      time read in that pass. */
  lemma MonitorIpsReadsCounts(ticks: seq<IpsTick>, outs: seq<PerfStderr>)
    requires |outs| == |ticks|
    requires forall i :: 0 <= i < |ticks| ==> WellFormedStderr(outs[i]) && ticks[i].stderr == StderrText(outs[i])
    ensures |MonitorIps(ticks)| == |ticks|
    ensures forall i :: 0 <= i < |ticks| ==> MonitorIps(ticks)[i] == Sample(ticks[i].elapsed, outs[i].count)
  {
    forall i | 0 <= i < |ticks|
      ensures MonitorIps(ticks)[i] == Sample(ticks[i].elapsed, outs[i].count)
    {
      CollectInstructionsPicksFirst(outs[i]);
    }
  }

  /** Passes are independent: more passes only add samples at the end. */
  lemma MonitorIpsAppend(ticks: seq<IpsTick>, more: seq<IpsTick>)
    ensures MonitorIps(ticks + more) == MonitorIps(ticks) + MonitorIps(more)
  {
  }

  // ---------------------------------------------------------------------
  // The fill-counter line matcher
  // ---------------------------------------------------------------------

  /** The event name up to the NUMA suffix. */
  const FillsEvent: string := "ls_dmnd_fills_from_sys.mem_io_"

  datatype Source = Local | Remote

  function SourceName(src: Source): string {
    match src
    case Local => "local"
    case Remote => "remote"
  }

  /** A match: the integer of the number group and the captured suffix. */
  datatype Fill = Fill(count: nat, source: Source)

  /** `ls_dmnd_fills_from_sys\.mem_io_(local|remote)` at index `q`. */
  function SourceAt(line: string, q: nat): (r: Option<Source>)
    requires q <= |line|
    ensures r.Some? ==> StartsWith(line[q..], FillsEvent + SourceName(r.value))
    ensures r.None? ==> forall src :: !StartsWith(line[q..], FillsEvent + SourceName(src))
  {
    if StartsWith(line[q..], FillsEvent + "local") then Some(Local)
    else if StartsWith(line[q..], FillsEvent + "remote") then Some(Remote)
    else None
  }

  /** The event name with its suffix at the largest index in `lo..q`: the
      greedy `.*` before it backs off from the far end one step at a time. */
  function LastSource(line: string, lo: nat, q: nat): Option<Source>
    requires lo <= q <= |line|
    decreases q - lo
  {
    match SourceAt(line, q)
    case Some(src) => Some(src)
    case None => if q == lo then None else LastSource(line, lo, q - 1)
  }

  predicate NotNewline(c: char) {
    c != '\n'
  }

  // ---------------------------------------------------------------------
  // As written: re.search(r"\s*(\d+)\s+.*ls_dmnd_fills_from_sys\.mem_io_(local|remote)", line)
  // ---------------------------------------------------------------------

  /** The pattern as written, anchored at `p`. `\s*` and `\d+` can only
      match whole runs (a shorter run leaves a space where a digit is needed,
      or a digit where a space is), `\s+` takes its whole run first, and
      `.*` reaches at most the next newline. */
  function MatchAtAsWritten(line: string, p: nat): Option<Fill>
  {
    if p > |line| then None
    else
      var a := Span(line, p, IsSpace);
      var b := Span(line, a, IsDigit);
      if b == a then None
      else
        var c := Span(line, b, IsSpace);
        if c == b then None
        else
          match LastSource(line, c, Span(line, c, NotNewline))
          case None => None
          case Some(src) => Some(Fill(DigitsValue(line[a..b]), src))
  }

  /** The line matcher exactly as the script writes it. */
  function MatchFillsAsWritten(line: string): Option<Fill> {
    Leftmost(|line|, p => MatchAtAsWritten(line, p), 0)
  }

  // ---------------------------------------------------------------------
  // Corrected: the number directly in front of the event name,
  // (\d+)\s+ls_dmnd_fills_from_sys\.mem_io_(local|remote)
  // ---------------------------------------------------------------------

  function MatchAt(line: string, p: nat): Option<Fill>
  {
    if p > |line| then None
    else
      var b := Span(line, p, IsDigit);
      if b == p then None
      else
        var c := Span(line, b, IsSpace);
        if c == b then None
        else
          match SourceAt(line, c)
          case None => None
          case Some(src) => Some(Fill(DigitsValue(line[p..b]), src))
  }

  /** The count of the event a line reports, if it reports one. */
  function MatchFills(line: string): Option<Fill> {
    Leftmost(|line|, p => MatchAt(line, p), 0)
  }

  /** readline() at the end of the stream gives "", which never matches. */
  lemma EmptyLineNoFill()
    ensures MatchFills("") == None
  {
    assert MatchAt("", 0) == None;
  }

  // ---------------------------------------------------------------------
  // What the two matchers make of one `perf stat -I` line
  // ---------------------------------------------------------------------

  predicate NoSpace(s: string) {
    forall i :: 0 <= i < |s| ==> !IsSpace(s[i])
  }

  predicate SpaceRun(s: string, i: nat, j: nat) {
    i <= j <= |s| && forall k :: i <= k < j ==> IsSpace(s[k])
  }

  predicate NoSpaceRun(s: string, i: nat, j: nat) {
    i <= j <= |s| && forall k :: i <= k < j ==> !IsSpace(s[k])
  }

  predicate DigitRun(s: string, i: nat, j: nat) {
    i <= j <= |s| && forall k :: i <= k < j ==> IsDigit(s[k])
  }

  /** The event name starts with 'l': nowhere else can it be found. */
  lemma NoSourceUnlessL(line: string, q: nat)
    requires q < |line| && line[q] != 'l'
    ensures SourceAt(line, q) == None
  {
    assert line[q..][0] == line[q];
  }

  /** The event name followed by its suffix is found where it stands. */
  lemma SourceAtEvent(line: string, e: nat, src: Source)
    requires e <= |line| && line[e..] == FillsEvent + SourceName(src)
    ensures SourceAt(line, e) == Some(src)
  {
    if src == Remote {
      assert line[e..][30] == 'r';
      assert (FillsEvent + "local")[30] == 'l';
    }
  }

  /** One interval line: indent, timestamp, gap, count, gap, event. */
  function IntervalLine(indent: string, stamp: string, gap1: string, count: nat, gap2: string, src: Source): string {
    indent + stamp + gap1 + NatToString(count) + gap2 + (FillsEvent + SourceName(src))
  }

  /** Where the pieces of an interval line start. */
  datatype Layout = Layout(stamp: nat, gap1: nat, count: nat, gap2: nat, event: nat)

  function LayoutOf(indent: string, stamp: string, gap1: string, count: nat, gap2: string): Layout {
    var s := |indent|;
    var g1 := s + |stamp|;
    var c := g1 + |gap1|;
    var g2 := c + |NatToString(count)|;
    Layout(s, g1, c, g2, g2 + |gap2|)
  }

  /** The characters of an interval line, piece by piece. */
  lemma IntervalLinePieces(indent: string, stamp: string, gap1: string, count: nat, gap2: string, src: Source)
    ensures var line := IntervalLine(indent, stamp, gap1, count, gap2, src);
      var l := LayoutOf(indent, stamp, gap1, count, gap2);
      && l.event <= |line|
      && line[..l.stamp] == indent
      && line[l.stamp..l.gap1] == stamp
      && line[l.gap1..l.count] == gap1
      && line[l.count..l.gap2] == NatToString(count)
      && line[l.gap2..l.event] == gap2
      && line[l.event..] == FillsEvent + SourceName(src)
  {
    var n, e := NatToString(count), FillsEvent + SourceName(src);
    var a2 := indent + stamp;
    var a3 := a2 + gap1;
    var a4 := a3 + n;
    var a5 := a4 + gap2;
    var l := LayoutOf(indent, stamp, gap1, count, gap2);
    // indent
    SliceOfFront(a5, e, 0, l.stamp);
    SliceOfFront(a4, gap2, 0, l.stamp);
    SliceOfFront(a3, n, 0, l.stamp);
    SliceOfFront(a2, gap1, 0, l.stamp);
    SliceOfBack(indent, stamp);
    // stamp
    SliceOfFront(a5, e, l.stamp, l.gap1);
    SliceOfFront(a4, gap2, l.stamp, l.gap1);
    SliceOfFront(a3, n, l.stamp, l.gap1);
    SliceOfFront(a2, gap1, l.stamp, l.gap1);
    // gap1
    SliceOfFront(a5, e, l.gap1, l.count);
    SliceOfFront(a4, gap2, l.gap1, l.count);
    SliceOfFront(a3, n, l.gap1, l.count);
    SliceOfBack(a2, gap1);
    // count
    SliceOfFront(a5, e, l.count, l.gap2);
    SliceOfFront(a4, gap2, l.count, l.gap2);
    SliceOfBack(a3, n);
    // gap2
    SliceOfFront(a5, e, l.gap2, l.event);
    SliceOfBack(a4, gap2);
    // event
    SliceOfBack(a5, e);
  }

  lemma SpaceRunOfSlice(line: string, i: nat, j: nat, x: string)
    requires i <= j <= |line| && line[i..j] == x && AllSpace(x)
    ensures SpaceRun(line, i, j)
  {
    assert forall k :: i <= k < j ==> line[k] == x[k - i];
  }

  lemma NoSpaceRunOfSlice(line: string, i: nat, j: nat, x: string)
    requires i <= j <= |line| && line[i..j] == x && NoSpace(x)
    ensures NoSpaceRun(line, i, j)
  {
    assert forall k :: i <= k < j ==> line[k] == x[k - i];
  }

  lemma DigitRunOfSlice(line: string, i: nat, j: nat, x: string)
    requires i <= j <= |line| && line[i..j] == x && AllDigits(x)
    ensures DigitRun(line, i, j)
  {
    assert forall k :: i <= k < j ==> line[k] == x[k - i];
  }

  /** The runs an interval line is made of. */
  lemma IntervalLineRuns(indent: string, stamp: string, gap1: string, count: nat, gap2: string, src: Source)
    requires AllSpace(indent) && NoSpace(stamp) && AllSpace(gap1) && AllSpace(gap2)
    ensures var line := IntervalLine(indent, stamp, gap1, count, gap2, src);
      var l := LayoutOf(indent, stamp, gap1, count, gap2);
      && SpaceRun(line, 0, l.stamp)
      && NoSpaceRun(line, l.stamp, l.gap1)
      && SpaceRun(line, l.gap1, l.count)
      && DigitRun(line, l.count, l.gap2) && l.count < l.gap2
      && line[l.stamp..l.gap1] == stamp
      && line[l.count..l.gap2] == NatToString(count)
      && SpaceRun(line, l.gap2, l.event)
      && line[l.gap2..l.event] == gap2
      && line[l.event..] == FillsEvent + SourceName(src)
  {
    var line := IntervalLine(indent, stamp, gap1, count, gap2, src);
    var l := LayoutOf(indent, stamp, gap1, count, gap2);
    IntervalLinePieces(indent, stamp, gap1, count, gap2, src);
    assert line[0..l.stamp] == line[..l.stamp];
    SpaceRunOfSlice(line, 0, l.stamp, indent);
    NoSpaceRunOfSlice(line, l.stamp, l.gap1, stamp);
    SpaceRunOfSlice(line, l.gap1, l.count, gap1);
    DigitRunOfSlice(line, l.count, l.gap2, NatToString(count));
    SpaceRunOfSlice(line, l.gap2, l.event, gap2);
  }

  /** The corrected pattern finds nothing before the count column. */
  lemma NoMatchBeforeCount(line: string, s: nat, g1: nat, c: nat)
    requires SpaceRun(line, 0, s) && NoSpaceRun(line, s, g1) && SpaceRun(line, g1, c)
    requires g1 < c < |line| && IsDigit(line[c])
    ensures forall k :: 0 <= k < c ==> MatchAt(line, k).None?
  {
    forall k | 0 <= k < c
      ensures MatchAt(line, k).None?
    {
      var b := Span(line, k, IsDigit);
      if b > k {
        assert s <= k < g1;
        if b < g1 {
          SpanStopsAt(line, b, b, IsSpace);
        } else {
          assert !IsDigit(line[g1]);
          assert b == g1;
          SpanStopsAt(line, b, c, IsSpace);
          NoSourceUnlessL(line, c);
        }
      }
    }
  }

  /** The corrected pattern matches at the count column. */
  lemma MatchAtCount(line: string, c: nat, g2: nat, e: nat, src: Source)
    requires DigitRun(line, c, g2) && c < g2
    requires SpaceRun(line, g2, e) && g2 < e
    requires line[e..] == FillsEvent + SourceName(src)
    ensures MatchAt(line, c) == Some(Fill(DigitsValue(line[c..g2]), src))
  {
    assert line[e] == line[e..][0];
    SpanStopsAt(line, c, g2, IsDigit);
    SpanStopsAt(line, g2, e, IsSpace);
    SourceAtEvent(line, e, src);
  }

  /** The corrected matcher reads the count of an interval line. */
  lemma ReadsCount(indent: string, stamp: string, gap1: string, count: nat, gap2: string, src: Source)
    requires AllSpace(indent) && NoSpace(stamp) && AllSpace(gap1) && AllSpace(gap2)
    requires |gap1| > 0 && |gap2| > 0
    ensures MatchFills(IntervalLine(indent, stamp, gap1, count, gap2, src)) == Some(Fill(count, src))
  {
    var line := IntervalLine(indent, stamp, gap1, count, gap2, src);
    var l := LayoutOf(indent, stamp, gap1, count, gap2);
    IntervalLineRuns(indent, stamp, gap1, count, gap2, src);
    NoMatchBeforeCount(line, l.stamp, l.gap1, l.count);
    MatchAtCount(line, l.count, l.gap2, l.event, src);
    var m := p => MatchAt(line, p);
    LeftmostSkips(|line|, m, 0, l.count);
  }

  /** As written, nothing matches up to the timestamp's dot: the digits in
      front of it are followed by the dot, not by whitespace. */
  lemma NoMatchUpToDot(line: string, s: nat, dot: nat)
    requires SpaceRun(line, 0, s) && DigitRun(line, s, dot)
    requires dot < |line| && line[dot] == '.'
    ensures forall k :: 0 <= k <= dot ==> MatchAtAsWritten(line, k).None?
  {
    forall k | 0 <= k <= dot
      ensures MatchAtAsWritten(line, k).None?
    {
      if k < s {
        SpanStopsAt(line, k, s, IsSpace);
      } else {
        SpanStopsAt(line, k, k, IsSpace);
      }
      var a := Span(line, k, IsSpace);
      SpanStopsAt(line, a, dot, IsDigit);
      SpanStopsAt(line, dot, dot, IsSpace);
    }
  }

  /** As written, the pattern matches at the first digit after the dot,
      taking the fraction as the number. */
  lemma MatchAtFraction(line: string, f: nat, g1: nat, c: nat, e: nat, src: Source)
    requires DigitRun(line, f, g1) && f < g1
    requires SpaceRun(line, g1, c) && g1 < c < |line| && !IsSpace(line[c])
    requires c <= e <= |line| && forall k :: c <= k < e ==> line[k] != '\n'
    requires line[e..] == FillsEvent + SourceName(src)
    ensures MatchAtAsWritten(line, f) == Some(Fill(DigitsValue(line[f..g1]), src))
  {
    SpanStopsAt(line, f, f, IsSpace);
    SpanStopsAt(line, f, g1, IsDigit);
    SpanStopsAt(line, g1, c, IsSpace);
    LastSourceIsEvent(line, c, e, src);
  }

  /** As written, on a line of runs: indent, seconds, dot, fraction, gap,
      then from the count on no newline up to the event name. */
  lemma AsWrittenOnRuns(line: string, s: nat, dot: nat, g1: nat, c: nat, e: nat, src: Source)
    requires SpaceRun(line, 0, s) && DigitRun(line, s, dot)
    requires dot < |line| && line[dot] == '.'
    requires DigitRun(line, dot + 1, g1) && dot + 1 < g1
    requires SpaceRun(line, g1, c) && g1 < c < |line| && !IsSpace(line[c])
    requires c <= e <= |line| && forall k :: c <= k < e ==> line[k] != '\n'
    requires line[e..] == FillsEvent + SourceName(src)
    ensures MatchFillsAsWritten(line) == Some(Fill(DigitsValue(line[dot + 1..g1]), src))
  {
    var x := Fill(DigitsValue(line[dot + 1..g1]), src);
    assert MatchAtAsWritten(line, dot + 1) == Some(x) by {
      MatchAtFraction(line, dot + 1, g1, c, e, src);
    }
    assert forall k :: 0 <= k < dot + 1 ==> MatchAtAsWritten(line, k).None? by {
      NoMatchUpToDot(line, s, dot);
    }
    AsWrittenFirstAt(line, dot + 1, x);
  }

  /** As written, the first index where the pattern matches decides. */
  lemma AsWrittenFirstAt(line: string, f: nat, x: Fill)
    requires f <= |line|
    requires forall k :: 0 <= k < f ==> MatchAtAsWritten(line, k).None?
    requires MatchAtAsWritten(line, f) == Some(x)
    ensures MatchFillsAsWritten(line) == Some(x)
  {
    var m := p => MatchAtAsWritten(line, p);
    LeftmostSkips(|line|, m, 0, f);
  }

  /** From the count to the event name there is no newline: digits, then a
      gap without one. */
  lemma NoNewlineFromCount(line: string, c: nat, g2: nat, e: nat, gap2: string)
    requires DigitRun(line, c, g2) && c < g2 && g2 <= e <= |line|
    requires line[g2..e] == gap2 && '\n' !in gap2
    ensures !IsSpace(line[c])
    ensures forall k :: c <= k < e ==> line[k] != '\n'
  {
    assert forall k :: g2 <= k < e ==> line[k] == gap2[k - g2];
  }

  /** A timestamp `secs.frac` placed at `i` in a line. */
  lemma StampRuns(line: string, i: nat, j: nat, secs: string, frac: string)
    requires i <= j <= |line| && line[i..j] == secs + "." + frac
    requires AllDigits(secs) && AllDigits(frac)
    ensures var dot := i + |secs|;
      && dot < j && line[dot] == '.'
      && DigitRun(line, i, dot) && DigitRun(line, dot + 1, j)
      && line[dot + 1..j] == frac
  {
    var dot := i + |secs|;
    var t := line[i..j];
    assert t[..|secs|] == secs && t[|secs|] == '.' && t[|secs| + 1..] == frac;
    assert line[i..dot] == t[..|secs|];
    assert line[dot] == t[|secs|];
    assert line[dot + 1..j] == t[|secs| + 1..];
    DigitRunOfSlice(line, i, dot, secs);
    DigitRunOfSlice(line, dot + 1, j, frac);
  }

  lemma StampNoSpace(secs: string, frac: string)
    requires AllDigits(secs) && AllDigits(frac)
    ensures NoSpace(secs + "." + frac)
  {
    var stamp := secs + "." + frac;
    assert forall i :: 0 <= i < |stamp| ==> stamp[i] == '.' || IsDigit(stamp[i]) by {
      forall i | 0 <= i < |stamp| ensures stamp[i] == '.' || IsDigit(stamp[i]) {
        if i < |secs| {
          assert stamp[i] == secs[i];
        } else if i > |secs| {
          assert stamp[i] == frac[i - |secs| - 1];
        }
      }
    }
  }

  /** The pattern as written reads the fractional digits of the timestamp
      instead, whenever perf prints one in front of the count. */
  lemma ReadsStampFraction(indent: string, secs: string, frac: string, gap1: string, count: nat, gap2: string, src: Source)
    requires AllSpace(indent) && AllSpace(gap1) && AllSpace(gap2)
    requires |secs| > 0 && AllDigits(secs) && |frac| > 0 && AllDigits(frac)
    requires |gap1| > 0 && |gap2| > 0 && '\n' !in gap2
    ensures MatchFillsAsWritten(IntervalLine(indent, secs + "." + frac, gap1, count, gap2, src))
      == Some(Fill(DigitsValue(frac), src))
  {
    var stamp := secs + "." + frac;
    var line := IntervalLine(indent, stamp, gap1, count, gap2, src);
    var l := LayoutOf(indent, stamp, gap1, count, gap2);
    StampNoSpace(secs, frac);
    IntervalLineRuns(indent, stamp, gap1, count, gap2, src);
    AsWrittenOnLayout(line, l.stamp, l.gap1, l.count, l.gap2, l.event, secs, frac, gap2, src);
  }

  /** The same, for any line laid out as indent, `secs.frac`, gap, count,
      gap, event name. */
  lemma AsWrittenOnLayout(line: string, s: nat, g1: nat, c: nat, g2: nat, e: nat,
                          secs: string, frac: string, gap2: string, src: Source)
    requires SpaceRun(line, 0, s) && SpaceRun(line, g1, c) && g1 < c
    requires DigitRun(line, c, g2) && c < g2 && g2 <= e <= |line|
    requires s <= g1 && line[s..g1] == secs + "." + frac
    requires AllDigits(secs) && |frac| > 0 && AllDigits(frac)
    requires line[g2..e] == gap2 && '\n' !in gap2
    requires line[e..] == FillsEvent + SourceName(src)
    ensures MatchFillsAsWritten(line) == Some(Fill(DigitsValue(frac), src))
  {
    var dot := s + |secs|;
    assert dot < g1 && line[dot] == '.' && DigitRun(line, s, dot)
      && DigitRun(line, dot + 1, g1) && line[dot + 1..g1] == frac by {
      StampRuns(line, s, g1, secs, frac);
    }
    assert !IsSpace(line[c]) && forall k :: c <= k < e ==> line[k] != '\n' by {
      NoNewlineFromCount(line, c, g2, e, gap2);
    }
    AsWrittenOnRuns(line, s, dot, g1, c, e, src);
  }

  /** From the count onwards the only place the event name can end the
      `.*` is where it stands. */
  lemma LastSourceIsEvent(line: string, c: nat, e: nat, src: Source)
    requires c <= e <= |line|
    requires line[e..] == FillsEvent + SourceName(src)
    requires forall k :: c <= k < e ==> line[k] != '\n'
    ensures LastSource(line, c, Span(line, c, NotNewline)) == Some(src)
  {
    assert forall k :: e <= k < |line| ==> line[k] == line[e..][k - e];
    SpanStopsAt(line, c, |line|, NotNewline);
    SourceAtEvent(line, e, src);
    LastSourceDown(line, c, e, |line|);
  }

  /** Scanning down from the end of the line, nothing fits after `e`. */
  lemma {:induction false} LastSourceDown(line: string, c: nat, e: nat, q: nat)
    requires c <= e <= q <= |line|
    requires SourceAt(line, e).Some?
    requires line[e..] == FillsEvent + SourceName(SourceAt(line, e).value)
    ensures LastSource(line, c, q) == SourceAt(line, e)
    decreases q - e
  {
    if q > e {
      assert SourceAt(line, q).None? by {
        if q == |line| {
          assert |line[q..]| == 0;
        } else if q > e + 1 {
          assert |line[q..]| < |FillsEvent + "local"|;
        } else {
          assert line[q] == line[e..][1];
          NoSourceUnlessL(line, q);
        }
      }
      LastSourceDown(line, c, e, q - 1);
    }
  }

  /** A concrete line: one second and 1018890 ns into the run perf reports
      5 local fills; the pattern as written records 1018890. */
  lemma AsWrittenMisreadsExample()
    ensures var line := IntervalLine("     ", "1.001018890", "   ", 5, "      ", Local);
      && MatchFills(line) == Some(Fill(5, Local))
      && MatchFillsAsWritten(line) == Some(Fill(1018890, Local))
  {
    ReadsCount("     ", "1.001018890", "   ", 5, "      ", Local);
    assert "1.001018890" == "1" + "." + "001018890";
    ReadsStampFraction("     ", "1", "001018890", "   ", 5, "      ", Local);
    FractionValue();
  }

  lemma FractionValue()
    ensures DigitsValue("001018890") == 1018890
  {
    var s := "001018890";
    assert AllDigits(s) by {
      assert DigitByDigit(s);
      DigitByDigitAll(s);
    }
    assert DigitsValue(s[..3]) == 1 by {
      assert s[..0] == [];
      DigitsValueSnoc3(s, 0);
    }
    assert DigitsValue(s[..6]) == 1018 by {
      DigitsValueSnoc3(s, 3);
    }
    assert DigitsValue(s[..9]) == 1018890 by {
      DigitsValueSnoc3(s, 6);
    }
    assert s[..9] == s;
  }

  // ---------------------------------------------------------------------
  // monitor_amd_dram_throughput
  // ---------------------------------------------------------------------

  /** Lines read per interval, one per event, matching or not. */
  const LinesPerInterval: nat := 2

  const BytesPerFill: nat := 64
  const BytesPerMb: nat := 1024 * 1024

  /** `proc.stderr.readline()` for the `k`-th call: "" once the stream is
      exhausted. */
  function LineAt(lines: seq<string>, k: nat): string {
    if k < |lines| then lines[k] else ""
  }

  /** Every line of the stream through the matcher. */
  function ClassifyAll(lines: seq<string>): (ms: seq<Option<Fill>>)
    ensures |ms| == |lines|
    ensures forall k :: 0 <= k < |lines| ==> ms[k] == MatchFills(lines[k])
  {
    seq(|lines|, k requires 0 <= k < |lines| => MatchFills(lines[k]))
  }

  /** The match of the `k`-th read, none past the end. */
  function ReadFill(ms: seq<Option<Fill>>, k: nat): Option<Fill> {
    if k < |ms| then ms[k] else None
  }

  lemma ReadFillIsReadline(lines: seq<string>, k: nat)
    ensures ReadFill(ClassifyAll(lines), k) == MatchFills(LineAt(lines, k))
  {
    EmptyLineNoFill();
  }

  datatype Fills = Fills(local: nat, remote: nat)

  /** The fills one line adds to the interval's totals. */
  function AddFill(totals: Fills, m: Option<Fill>): Fills {
    match m
    case None => totals
    case Some(Fill(n, Local)) => Fills(totals.local + n, totals.remote)
    case Some(Fill(n, Remote)) => Fills(totals.local, totals.remote + n)
  }

  /** `total_bytes / (1024 * 1024)`. */
  function FillsToMb(f: Fills): (mb: real)
    ensures mb >= 0.0
    ensures mb * (BytesPerMb as real) == ((f.local + f.remote) * BytesPerFill) as real
  {
    ((f.local + f.remote) * BytesPerFill) as real / (BytesPerMb as real)
  }

  /** The totals interval `i` reads: reads `2i` and `2i + 1`. */
  function IntervalFills(ms: seq<Option<Fill>>, i: nat): Fills {
    AddFill(AddFill(Fills(0, 0), ReadFill(ms, LinesPerInterval * i)), ReadFill(ms, LinesPerInterval * i + 1))
  }

  /** The fill count of a line that reports one, or 0. */
  function FillCount(line: string): nat {
    match MatchFills(line)
    case None => 0
    case Some(f) => f.count
  }

  /** Local and remote together are the counts of the interval's two lines,
      each count going to the side its line names; lines that report
      nothing add nothing. */
  lemma IntervalFillsSum(lines: seq<string>, i: nat)
    ensures var f := IntervalFills(ClassifyAll(lines), i);
      var l1, l2 := LineAt(lines, 2 * i), LineAt(lines, 2 * i + 1);
      && f.local + f.remote == FillCount(l1) + FillCount(l2)
      && (MatchFills(l1).None? && MatchFills(l2).None? ==> f == Fills(0, 0))
      && (MatchFills(l1).Some? && MatchFills(l1).value.source == Local && MatchFills(l2).None? ==> f == Fills(FillCount(l1), 0))
      && (MatchFills(l1).Some? && MatchFills(l1).value.source == Remote && MatchFills(l2).None? ==> f == Fills(0, FillCount(l1)))
  {
    ReadFillIsReadline(lines, 2 * i);
    ReadFillIsReadline(lines, 2 * i + 1);
  }

  /** An interval reads only its own two lines. */
  lemma IntervalOwnLines(lines: seq<string>, lines': seq<string>, i: nat)
    requires LineAt(lines, 2 * i) == LineAt(lines', 2 * i)
    requires LineAt(lines, 2 * i + 1) == LineAt(lines', 2 * i + 1)
    ensures IntervalFills(ClassifyAll(lines), i) == IntervalFills(ClassifyAll(lines'), i)
  {
    ReadFillIsReadline(lines, 2 * i);
    ReadFillIsReadline(lines, 2 * i + 1);
    ReadFillIsReadline(lines', 2 * i);
    ReadFillIsReadline(lines', 2 * i + 1);
  }

  /** The loop over already matched lines: per interval two reads, their
      fills added by side, and one sample in MB. */
  method MonitorClassified(ms: seq<Option<Fill>>, times: seq<real>) returns (thr: seq<Sample<real>>)
    ensures |thr| == |times|
    ensures forall i :: 0 <= i < |times| ==> thr[i] == Sample(times[i], FillsToMb(IntervalFills(ms, i)))
  {
    thr := [];
    var pos := 0;
    var i := 0;
    while i < |times|
      invariant 0 <= i <= |times|
      invariant pos == LinesPerInterval * i
      invariant |thr| == i
      invariant forall k :: 0 <= k < i ==> thr[k] == Sample(times[k], FillsToMb(IntervalFills(ms, k)))
    {
      var totals := Fills(0, 0);
      var n := 0;
      while n < LinesPerInterval
        invariant 0 <= n <= LinesPerInterval
        invariant n == 0 ==> totals == Fills(0, 0)
        invariant n == 1 ==> totals == AddFill(Fills(0, 0), ReadFill(ms, pos))
        invariant n == 2 ==> totals == IntervalFills(ms, i)
      {
        totals := AddFill(totals, ReadFill(ms, pos + n));
        n := n + 1;
      }
      thr := thr + [Sample(times[i], FillsToMb(totals))];
      pos := pos + LinesPerInterval;
      i := i + 1;
    }
  }

  /** `monitor_amd_dram_throughput`: per element of `times`, two
      `readline()` calls and one non-negative sample, the interval's fills
      times 64 bytes in MB. */
  method MonitorAmdDram(lines: seq<string>, times: seq<real>) returns (thr: seq<Sample<real>>)
    ensures |thr| == |times|
    ensures forall i :: 0 <= i < |times| ==>
      && thr[i].time == times[i]
      && thr[i].value >= 0.0
      && thr[i].value * (BytesPerMb as real)
           == ((IntervalFills(ClassifyAll(lines), i).local + IntervalFills(ClassifyAll(lines), i).remote) * BytesPerFill) as real
  {
    var ms := ClassifyAll(lines);
    thr := MonitorClassified(ms, times);
    SamplesInMb(ms, times, thr);
  }

  /** Each sample is non-negative, and times 1024 * 1024 it is 64 bytes per
      fill of its interval. */
  lemma SamplesInMb(ms: seq<Option<Fill>>, times: seq<real>, thr: seq<Sample<real>>)
    requires |thr| == |times|
    requires forall i :: 0 <= i < |times| ==> thr[i] == Sample(times[i], FillsToMb(IntervalFills(ms, i)))
    ensures forall i :: 0 <= i < |times| ==>
      && thr[i].time == times[i]
      && thr[i].value >= 0.0
      && thr[i].value * (BytesPerMb as real)
           == ((IntervalFills(ms, i).local + IntervalFills(ms, i).remote) * BytesPerFill) as real
  {
  }

  /** Every line of the stream through the pattern as the script writes it. */
  function ClassifyAllAsWritten(lines: seq<string>): (ms: seq<Option<Fill>>)
    ensures |ms| == |lines|
    ensures forall k :: 0 <= k < |lines| ==> ms[k] == MatchFillsAsWritten(lines[k])
  {
    seq(|lines|, k requires 0 <= k < |lines| => MatchFillsAsWritten(lines[k]))
  }

  /** `monitor_amd_dram_throughput` with the pattern of line 68 as written:
      the same loop, each sample the MB of what that pattern captures on
      the interval's two lines. */
  method MonitorAmdDramAsWritten(lines: seq<string>, times: seq<real>) returns (thr: seq<Sample<real>>)
    ensures |thr| == |times|
    ensures forall i :: 0 <= i < |times| ==>
      && thr[i].time == times[i]
      && thr[i].value >= 0.0
      && thr[i].value * (BytesPerMb as real)
           == ((IntervalFills(ClassifyAllAsWritten(lines), i).local + IntervalFills(ClassifyAllAsWritten(lines), i).remote) * BytesPerFill) as real
  {
    var ms := ClassifyAllAsWritten(lines);
    thr := MonitorClassified(ms, times);
    SamplesInMb(ms, times, thr);
  }

  /** The pieces of one `perf stat -I` line for a fill event: the indent,
      the timestamp `secs.frac`, a gap, the count, a gap and the event. */
  datatype PerfLine = PerfLine(indent: string, secs: string, frac: string, gap1: string, count: nat, gap2: string, src: Source)

  predicate WellFormedLine(l: PerfLine) {
    && AllSpace(l.indent) && AllSpace(l.gap1) && AllSpace(l.gap2)
    && |l.secs| > 0 && AllDigits(l.secs) && |l.frac| > 0 && AllDigits(l.frac)
    && |l.gap1| > 0 && |l.gap2| > 0 && '\n' !in l.gap2
  }

  function Render(l: PerfLine): string {
    IntervalLine(l.indent, l.secs + "." + l.frac, l.gap1, l.count, l.gap2, l.src)
  }

  /** What the two patterns make of one interval line. */
  lemma ReadsRenderedLine(l: PerfLine)
    requires WellFormedLine(l)
    ensures MatchFills(Render(l)) == Some(Fill(l.count, l.src))
    ensures MatchFillsAsWritten(Render(l)) == Some(Fill(DigitsValue(l.frac), l.src))
  {
    StampNoSpace(l.secs, l.frac);
    ReadsCount(l.indent, l.secs + "." + l.frac, l.gap1, l.count, l.gap2, l.src);
    ReadsStampFraction(l.indent, l.secs, l.frac, l.gap1, l.count, l.gap2, l.src);
  }

  /** On an interval made of two lines as perf prints them, the corrected
      loop adds up the two counts while the loop as written adds up the two
      timestamp fractions. */
  lemma IntervalReadsStamps(lines: seq<string>, i: nat, a: PerfLine, b: PerfLine)
    requires WellFormedLine(a) && WellFormedLine(b)
    requires 2 * i + 1 < |lines| && lines[2 * i] == Render(a) && lines[2 * i + 1] == Render(b)
    ensures var f := IntervalFills(ClassifyAll(lines), i);
      f.local + f.remote == a.count + b.count
    ensures var f := IntervalFills(ClassifyAllAsWritten(lines), i);
      f.local + f.remote == DigitsValue(a.frac) + DigitsValue(b.frac)
  {
    ReadsRenderedLine(a);
    ReadsRenderedLine(b);
  }

  // ---------------------------------------------------------------------
  // write_synchronized_data
  // ---------------------------------------------------------------------

  function SynchronizedHeader(): Row {
    HeaderRow(["Time (s)", "IPS", "Memory Throughput (MB/s)"])
  }

  /** The header, then `min(len ips, len thr)` rows, row i being
      `[ips[i] time, ips[i] text, thr[i] value]`. */
  function WriteSynchronizedData(ips: seq<Sample<string>>, thr: seq<Sample<real>>): (rows: seq<Row>)
    ensures |rows| == 1 + Min(|ips|, |thr|) && rows[0] == SynchronizedHeader()
    ensures forall i :: 0 <= i < Min(|ips|, |thr|) ==>
      rows[i + 1] == [Num(ips[i].time), Str(ips[i].value), Num(thr[i].value)]
  {
    [SynchronizedHeader()] + AlignRows(StrSeries(ips), NumSeries(thr))
  }

  /** With either series empty only the header is written. */
  lemma EmptySeriesHeaderOnly(ips: seq<Sample<string>>, thr: seq<Sample<real>>)
    requires |ips| == 0 || |thr| == 0
    ensures WriteSynchronizedData(ips, thr) == [SynchronizedHeader()]
  {
  }
}

=== FILE: cpulist.dfy ===
/** The Linux cpulist syntax ("0-3,8,10-11") as read by `expand_cpu_list`,
    and the comma-joined form the launcher hands to `taskset -c`. */
module CpuList {
  import opened Wrappers
  import opened Text

  /** Python's `range(lo, hi)`. */
  function Range(lo: int, hi: int): (r: seq<int>)
    ensures |r| == if lo < hi then hi - lo else 0
    ensures forall i :: 0 <= i < |r| ==> r[i] == lo + i
    decreases hi - lo
  {
    if lo < hi then [lo] + Range(lo + 1, hi) else []
  }

  /** One comma-separated part: `a-b` stands for a..b inclusive, anything
      else for a single id. `None` wherever Python raises ValueError: a part
      with more than one '-', or a field `int()` rejects. */
  function ExpandPart(part: string): (r: Option<seq<int>>)
    ensures r.Some? ==> forall i :: 0 <= i < |r.value| ==> r.value[i] >= 0
  {
    if '-' in part then
      var ab := Split(part, '-');
      if |ab| != 2 then None
      else
        match (ParseInt(ab[0]), ParseInt(ab[1]))
        case (Some(a), Some(b)) => Some(Range(a, b + 1))
        case _ => None
    else
      match ParseInt(part)
      case Some(n) => Some([n])
      case None => None
  }

  /** Two partial expansions one after the other; a failure in either fails. */
  function Then(x: Option<seq<int>>, y: Option<seq<int>>): Option<seq<int>>
  {
    if x.Some? && y.Some? then Some(x.value + y.value) else None
  }

  /** Each element's expansion, concatenated in order; `None` if any fails. */
  function ConcatMap<X>(xs: seq<X>, f: X -> Option<seq<int>>): Option<seq<int>>
  {
    if |xs| == 0 then Some([]) else Then(f(xs[0]), ConcatMap(xs[1..], f))
  }

  function ExpandParts(parts: seq<string>): Option<seq<int>>
  {
    ConcatMap(parts, ExpandPart)
  }

  /** `expand_cpu_list(expr)`: every listed CPU id, in the order written;
      `None` where Python raises. The ids are never negative. */
  function Expand(expr: string): (r: Option<seq<int>>)
    ensures r.Some? ==> forall i :: 0 <= i < |r.value| ==> r.value[i] >= 0
  {
    ExpandPartsNonNegative(Split(expr, ','));
    ExpandParts(Split(expr, ','))
  }

  lemma {:induction false} ExpandPartsNonNegative(parts: seq<string>)
    ensures var r := ExpandParts(parts);
            r.Some? ==> forall i :: 0 <= i < |r.value| ==> r.value[i] >= 0
  {
    if |parts| > 0 {
      ExpandPartsNonNegative(parts[1..]);
      ThenNonNegative(ExpandPart(parts[0]), ExpandParts(parts[1..]));
    }
  }

  lemma ThenNonNegative(x: Option<seq<int>>, y: Option<seq<int>>)
    requires x.Some? ==> forall i :: 0 <= i < |x.value| ==> x.value[i] >= 0
    requires y.Some? ==> forall i :: 0 <= i < |y.value| ==> y.value[i] >= 0
    ensures var r := Then(x, y); r.Some? ==> forall i :: 0 <= i < |r.value| ==> r.value[i] >= 0
  {
  }

  /** `",".join(map(str, ids))`. */
  function JoinIds(ids: seq<int>): string
  {
    Join(seq(|ids|, i requires 0 <= i < |ids| => IntToString(ids[i])), ',')
  }

  // ---------------------------------------------------------------------
  // What the syntax means
  // ---------------------------------------------------------------------

  lemma NumeralHasNoSeparator(n: nat, c: char)
    requires !IsDigit(c)
    ensures c !in NatToString(n)
  {
  }

  /** A part without '-' is the single id it names. */
  lemma {:induction false} SinglePart(n: nat)
    ensures ExpandPart(NatToString(n)) == Some([n])
  {
    NumeralHasNoSeparator(n, '-');
    ParseIntNatToString(n);
  }

  /** A part `a-b` is a, a+1, ..., b, and nothing at all when a > b. */
  lemma {:induction false} RangePart(a: nat, b: nat)
    ensures ExpandPart(NatToString(a) + "-" + NatToString(b)).Some?
    ensures var r := ExpandPart(NatToString(a) + "-" + NatToString(b)).value;
            && |r| == (if a <= b then b - a + 1 else 0)
            && forall i :: 0 <= i < |r| ==> r[i] == a + i
  {
    var sa, sb := NatToString(a), NatToString(b);
    NumeralHasNoSeparator(a, '-');
    NumeralHasNoSeparator(b, '-');
    var part := sa + "-" + sb;
    assert part[|sa|] == '-';
    SplitJoin([sa, sb], '-');
    assert Join([sa, sb], '-') == part;
    ParseIntNatToString(a);
    ParseIntNatToString(b);
  }

  lemma ThenAssoc(x: Option<seq<int>>, y: Option<seq<int>>, z: Option<seq<int>>)
    ensures Then(x, Then(y, z)) == Then(Then(x, y), z)
  {
    if x.Some? && y.Some? && z.Some? {
      assert x.value + (y.value + z.value) == (x.value + y.value) + z.value;
    }
  }

  lemma {:induction false} ConcatMapAppend<X>(a: seq<X>, b: seq<X>, f: X -> Option<seq<int>>)
    ensures ConcatMap(a + b, f) == Then(ConcatMap(a, f), ConcatMap(b, f))
  {
    if |a| == 0 {
      assert a + b == b;
      var eb := ConcatMap(b, f);
      if eb.Some? {
        assert [] + eb.value == eb.value;
      }
    } else {
      var ab := a + b;
      assert ab[1..] == a[1..] + b;
      assert ab[0] == a[0];
      ConcatMapAppend(a[1..], b, f);
      ThenAssoc(f(a[0]), ConcatMap(a[1..], f), ConcatMap(b, f));
    }
  }

  /** The list is read part by part, left to right: `x,y` lists the ids of
      `x` followed by those of `y`, and fails if either fails. */
  lemma {:induction false} ExpandConcatenates(x: string, y: string)
    ensures Expand(x + "," + y) == Then(Expand(x), Expand(y))
  {
    SplitAround(x, y, ',');
    ConcatMapAppend(Split(x, ','), Split(y, ','), ExpandPart);
  }

  /** The comma-joined list the launcher builds reads back as the same ids. */
  lemma {:induction false} JoinIdsRoundTrip(ids: seq<int>)
    requires |ids| > 0
    requires forall i :: 0 <= i < |ids| ==> ids[i] >= 0
    ensures Expand(JoinIds(ids)) == Some(ids)
  {
    var strs := seq(|ids|, i requires 0 <= i < |ids| => IntToString(ids[i]));
    forall i | 0 <= i < |strs|
      ensures ',' !in strs[i]
    {
      NumeralHasNoSeparator(ids[i], ',');
    }
    SplitJoin(strs, ',');
    NumeralsExpand(ids);
  }

  lemma {:induction false} NumeralsExpand(ids: seq<int>)
    requires forall i :: 0 <= i < |ids| ==> ids[i] >= 0
    ensures ExpandParts(seq(|ids|, i requires 0 <= i < |ids| => IntToString(ids[i]))) == Some(ids)
  {
    var strs := seq(|ids|, i requires 0 <= i < |ids| => IntToString(ids[i]));
    if |ids| > 0 {
      SinglePart(ids[0]);
      NumeralsExpand(ids[1..]);
      assert strs[1..] == seq(|ids[1..]|, i requires 0 <= i < |ids[1..]| => IntToString(ids[1..][i]));
      assert ids == [ids[0]] + ids[1..];
    }
  }
}

=== FILE: imc.dfy ===
/** `read_cpu_metrics.py`: memory throughput from the Intel integrated
    memory controllers' CAS counters as printed by `perf stat -I`, the
    resctrl MBM alternative, and the CSV the script writes. */
module ImcReader {
  import opened Wrappers
  import opened Text
  import opened Series

  /** Number of IMC units the event list covers. */
  const UnitCount: nat := 8

  /** MiB to MB, the factor the script applies to each interval's total. */
  const MibToMb: real := 1.04858

  /** `expected_lines`: how many matching lines make up one interval, one
      per event in the list below. */
  const Quota: nat := 2 * UnitCount

  /** The `-e` events passed to perf: each unit's read and write CAS count. */
  function ImcEvents(): (events: seq<string>)
    ensures |events| == Quota
    ensures forall u :: 0 <= u < UnitCount ==>
      && events[2 * u] == "uncore_imc_" + NatToString(u) + "/cas_count_read/"
      && events[2 * u + 1] == "uncore_imc_" + NatToString(u) + "/cas_count_write/"
  {
    seq(2 * UnitCount, k requires 0 <= k < 2 * UnitCount =>
      "uncore_imc_" + NatToString(k / 2) + (if k % 2 == 0 then "/cas_count_read/" else "/cas_count_write/"))
  }


  // ---------------------------------------------------------------------
  // The line matcher: re.search(
  //   r"([\d\.]+)\s+MiB\s+uncore_imc_(\d+)/cas_count_(read|write)/", line)
  // ---------------------------------------------------------------------

  datatype CasKind = CasRead | CasWrite

  /** A match: the text of group 1 and the kind named by group 3. */
  datatype ImcMatch = ImcMatch(number: string, kind: CasKind)

  predicate IsNumberChar(c: char) {
    IsDigit(c) || c == '.'
  }

  /** The part of the pattern after group 1, tried at index `k`. Every
      repetition in it is followed by a character the repetition cannot
      match, so taking each run whole is the only way it can match. */
  function TailAt(line: string, k: nat): Option<CasKind>
    requires k <= |line|
  {
    var m := Span(line, k, IsSpace);
    if m == k || !StartsWith(line[m..], "MiB") then None
    else ImcAt(line, m + 3)
  }

  function ImcAt(line: string, m: nat): Option<CasKind>
    requires m <= |line|
  {
    var p := Span(line, m, IsSpace);
    if p == m || !StartsWith(line[p..], "uncore_imc_") then None
    else CasAt(line, p + 11)
  }

  function CasAt(line: string, p: nat): Option<CasKind>
    requires p <= |line|
  {
    var q := Span(line, p, IsDigit);
    if q == p || !StartsWith(line[q..], "/cas_count_") then None
    else KindAt(line[q + 11..])
  }

  function KindAt(rest: string): Option<CasKind> {
    if StartsWith(rest, "read/") then Some(CasRead)
    else if StartsWith(rest, "write/") then Some(CasWrite)
    else None
  }

  /** The whole pattern anchored at index `i`: group 1 is the run of digits
      and dots starting there (a shorter run would leave a digit or dot
      where whitespace is needed). */
  function MatchAt(line: string, i: nat): (r: Option<ImcMatch>)
    requires i <= |line|
    ensures r.Some? ==> |r.value.number| > 0 && forall j :: 0 <= j < |r.value.number| ==> IsNumberChar(r.value.number[j])
  {
    var k := Span(line, i, IsNumberChar);
    if k == i then None
    else
      match TailAt(line, k)
      case Some(kind) => Some(ImcMatch(line[i..k], kind))
      case None => None
  }

  function SearchFrom(line: string, i: nat): (r: Option<ImcMatch>)
    requires i <= |line|
    ensures r.Some? ==> |r.value.number| > 0 && forall j :: 0 <= j < |r.value.number| ==> IsNumberChar(r.value.number[j])
    decreases |line| - i
  {
    match MatchAt(line, i)
    case Some(m) => Some(m)
    case None => if i == |line| then None else SearchFrom(line, i + 1)
  }

  /** `re.search`: the match at the leftmost index where one exists. */
  function MatchImc(line: string): (r: Option<ImcMatch>)
    ensures r.Some? ==> '-' !in r.value.number && |r.value.number| > 0
  {
    SearchFrom(line, 0)
  }

  /** What one line of perf's output contributes to an interval. */
  datatype ImcLine =
    | Unmatched                          // consumed, not counted
    | Unparsable                         // matches, but float() raises on group 1
    | Counter(kind: CasKind, mib: real)  // matches, with group 1's value

  function ClassifyImc(line: string): (c: ImcLine)
    ensures c.Counter? ==> c.mib >= 0.0
  {
    match MatchImc(line)
    case None => Unmatched
    case Some(m) =>
      match ParseDecimal(m.number)
      case None => Unparsable
      case Some(v) => Counter(m.kind, v)
  }

  function ClassifyAll(lines: seq<string>): (infos: seq<ImcLine>)
    ensures |infos| == |lines|
    ensures forall i :: 0 <= i < |lines| ==> infos[i] == ClassifyImc(lines[i])
  {
    seq(|lines|, i requires 0 <= i < |lines| => ClassifyImc(lines[i]))
  }

  // ---------------------------------------------------------------------
  // Reference sums over a stretch of lines
  // ---------------------------------------------------------------------

  /** How many lines of `seg` match the pattern. */
  function MatchCount(seg: seq<ImcLine>): nat
  {
    if |seg| == 0 then 0
    else (if seg[0].Unmatched? then 0 else 1) + MatchCount(seg[1..])
  }

  /** The sum of the values of the matching lines of `seg` of one kind. */
  function KindTotal(seg: seq<ImcLine>, kind: CasKind): (t: real)
    requires forall j :: 0 <= j < |seg| ==> seg[j].Counter? ==> seg[j].mib >= 0.0
    ensures t >= 0.0
  {
    if |seg| == 0 then 0.0
    else (if seg[0].Counter? && seg[0].kind == kind then seg[0].mib else 0.0) + KindTotal(seg[1..], kind)
  }

  predicate NonNegative(seg: seq<ImcLine>) {
    forall j :: 0 <= j < |seg| ==> seg[j].Counter? ==> seg[j].mib >= 0.0
  }

  predicate NoBadLine(seg: seq<ImcLine>) {
    forall j :: 0 <= j < |seg| ==> !seg[j].Unparsable?
  }

  lemma {:induction false} KindTotalAppend(a: seq<ImcLine>, b: seq<ImcLine>, kind: CasKind)
    requires NonNegative(a) && NonNegative(b)
    ensures NonNegative(a + b)
    ensures KindTotal(a + b, kind) == KindTotal(a, kind) + KindTotal(b, kind)
  {
    if |a| == 0 {
      assert a + b == b;
    } else {
      assert (a + b)[1..] == a[1..] + b;
      assert (a + b)[0] == a[0];
      KindTotalAppend(a[1..], b, kind);
    }
  }

  // ---------------------------------------------------------------------
  // What the matcher makes of a counter line
  // ---------------------------------------------------------------------

  function KindName(kind: CasKind): string {
    match kind
    case CasRead => "read"
    case CasWrite => "write"
  }

  /** A run of whitespace, what each `\s+` of the pattern takes. */
  predicate Gap(s: string) {
    |s| > 0 && AllSpace(s)
  }

  /** What follows the value on a counter line: the padding perf puts in
      front of the unit column, `MiB`, the gap before the event, and the
      event. */
  function CasTail(pad: string, gap: string, unit: nat, kind: CasKind): string {
    pad + "MiB" + gap + "uncore_imc_" + NatToString(unit) + "/cas_count_" + KindName(kind) + "/"
  }

  /** A counter line as perf prints it: whatever stands in front (indent,
      interval timestamp, padding), the value, then unit and event. */
  function CasLine(lead: string, number: string, pad: string, gap: string, unit: nat, kind: CasKind): string {
    lead + number + CasTail(pad, gap, unit, kind)
  }

  /** A front made of whitespace and number characters only, and ending in
      whitespace, as the indented timestamp column of `perf stat -I` is. */
  predicate PlainLead(lead: string) {
    && (forall i :: 0 <= i < |lead| ==> IsSpace(lead[i]) || IsNumberChar(lead[i]))
    && (|lead| == 0 || IsSpace(lead[|lead| - 1]))
  }

  predicate IsNumberText(s: string) {
    |s| > 0 && forall i :: 0 <= i < |s| ==> IsNumberChar(s[i])
  }

  /** What follows `MiB` on a counter line, grouped from the right. */
  function ImcText(gap: string, d: string, k: string): string {
    gap + ("uncore_imc_" + (d + ("/cas_count_" + k)))
  }

  lemma CasTailShape(pad: string, gap: string, unit: nat, kind: CasKind)
    ensures CasTail(pad, gap, unit, kind) == pad + ("MiB" + ImcText(gap, NatToString(unit), KindName(kind) + "/"))
  {
  }

  /** The part of the tail after `MiB`: blanks from `b` to `p`,
      `uncore_imc_`, digits up to `e`, `/cas_count_`, the kind and a
      slash. */
  lemma ImcPieces(line: string, b: nat, p: nat, e: nat, kind: CasKind)
    requires b < p && p + 11 < e && e + 12 + |KindName(kind)| <= |line|
    requires AllSpace(line[b..p])
    requires line[p..p + 11] == "uncore_imc_"
    requires AllDigits(line[p + 11..e])
    requires line[e..e + 11] == "/cas_count_"
    requires line[e + 11..e + 12 + |KindName(kind)|] == KindName(kind) + "/"
    ensures ImcAt(line, b) == Some(kind)
  {
    assert CasAt(line, p + 11) == Some(kind) by {
      CasPieces(line, p + 11, e, kind);
    }
    ImcStage(line, b, p, kind);
  }

  /** Digits from `d` to `e`, `/cas_count_`, the kind and a slash. */
  lemma CasPieces(line: string, d: nat, e: nat, kind: CasKind)
    requires d < e && e + 12 + |KindName(kind)| <= |line|
    requires AllDigits(line[d..e]) && line[e..e + 11] == "/cas_count_"
    requires line[e + 11..e + 12 + |KindName(kind)|] == KindName(kind) + "/"
    ensures CasAt(line, d) == Some(kind)
  {
    assert KindAt(line[e + 11..]) == Some(kind) by {
      KindStage(line, e, kind);
    }
    CasStage(line, d, e, kind);
  }

  /** Blanks from `n` to `m`, then `MiB` and the rest. */
  lemma MibStage(line: string, n: nat, m: nat, kind: CasKind)
    requires n < m && m + 3 <= |line|
    requires AllSpace(line[n..m])
    requires line[m..m + 3] == "MiB"
    requires ImcAt(line, m + 3) == Some(kind)
    ensures TailAt(line, n) == Some(kind)
  {
    assert line[m] == line[m..m + 3][0];
    SpacesOfSlice(line, n, m);
    SpanStopsAt(line, n, m, IsSpace);
    StartsWithSlice(line, m, "MiB");
    TailAtOf(line, n, m, kind);
  }

  /** The kind and its slash after `/cas_count_` at index `e`. */
  lemma KindStage(line: string, e: nat, kind: CasKind)
    requires e + 12 + |KindName(kind)| <= |line|
    requires line[e + 11..e + 12 + |KindName(kind)|] == KindName(kind) + "/"
    ensures KindAt(line[e + 11..]) == Some(kind)
  {
    var rest := line[e + 11..];
    StartsWithSlice(line, e + 11, KindName(kind) + "/");
    if kind == CasWrite {
      assert rest[0] == 'w';
    }
    KindAtOf(rest, kind);
  }

  /** Digits from `d` up to `/cas_count_` at `e`, then the kind. */
  lemma CasStage(line: string, d: nat, e: nat, kind: CasKind)
    requires d < e && e + 11 <= |line|
    requires AllDigits(line[d..e])
    requires line[e..e + 11] == "/cas_count_"
    requires KindAt(line[e + 11..]) == Some(kind)
    ensures CasAt(line, d) == Some(kind)
  {
    assert line[e] == line[e..e + 11][0];
    DigitsOfSlice(line, d, e);
    SpanStopsAt(line, d, e, IsDigit);
    StartsWithSlice(line, e, "/cas_count_");
    CasAtOf(line, d, e, kind);
  }

  /** Blanks from `b` to `p`, then `uncore_imc_` and the rest. */
  lemma ImcStage(line: string, b: nat, p: nat, kind: CasKind)
    requires b < p && p + 12 <= |line|
    requires AllSpace(line[b..p])
    requires line[p..p + 11] == "uncore_imc_"
    requires CasAt(line, p + 11) == Some(kind)
    ensures ImcAt(line, b) == Some(kind)
  {
    assert line[p] == line[p..p + 11][0];
    SpacesOfSlice(line, b, p);
    SpanStopsAt(line, b, p, IsSpace);
    StartsWithSlice(line, p, "uncore_imc_");
    ImcAtOf(line, b, p, kind);
  }

  /** The stages of the tail: blanks, `MiB`, blanks, `uncore_imc_`,
      digits, `/cas_count_`, then the kind and a slash. */
  lemma TailAtOf(line: string, k: nat, m: nat, kind: CasKind)
    requires k < m && m + 3 <= |line|
    requires Span(line, k, IsSpace) == m && StartsWith(line[m..], "MiB")
    requires ImcAt(line, m + 3) == Some(kind)
    ensures TailAt(line, k) == Some(kind)
  {
  }

  lemma KindAtOf(rest: string, kind: CasKind)
    requires StartsWith(rest, KindName(kind) + "/")
    requires kind == CasWrite ==> !StartsWith(rest, "read/")
    ensures KindAt(rest) == Some(kind)
  {
    if kind == CasRead {
      assert KindName(kind) + "/" == "read/";
    } else {
      assert KindName(kind) + "/" == "write/";
    }
  }

  lemma CasAtOf(line: string, p: nat, q: nat, kind: CasKind)
    requires p < q && q + 11 <= |line|
    requires Span(line, p, IsDigit) == q && StartsWith(line[q..], "/cas_count_")
    requires KindAt(line[q + 11..]) == Some(kind)
    ensures CasAt(line, p) == Some(kind)
  {
  }

  lemma ImcAtOf(line: string, m: nat, p: nat, kind: CasKind)
    requires m < p && p + 11 <= |line|
    requires Span(line, m, IsSpace) == p && StartsWith(line[p..], "uncore_imc_")
    requires CasAt(line, p + 11) == Some(kind)
    ensures ImcAt(line, m) == Some(kind)
  {
  }

  /** A piece of a line seen as the prefix of the line's tail. */
  lemma StartsWithSlice(line: string, i: nat, t: string)
    requires i + |t| <= |line| && line[i..i + |t|] == t
    ensures StartsWith(line[i..], t)
  {
    assert line[i..][..|t|] == line[i..i + |t|];
  }

  /** A window onto `line` holding `u + v` holds `u`, then `v`. */
  lemma WindowSplit(line: string, n: nat, u: string, v: string)
    requires n + |u + v| <= |line| && line[n..n + |u + v|] == u + v
    ensures line[n..n + |u|] == u && line[n + |u|..n + |u| + |v|] == v
  {
    WindowSlice(line, n, u + v, 0, |u|);
    WindowSlice(line, n, u + v, |u|, |u + v|);
    assert (u + v)[..|u|] == u && (u + v)[|u|..] == v;
  }

  /** A blank slice, character by character. */
  lemma SpacesOfSlice(line: string, i: nat, j: nat)
    requires i <= j <= |line| && AllSpace(line[i..j])
    ensures forall k :: i <= k < j ==> IsSpace(line[k])
  {
    forall k | i <= k < j
      ensures IsSpace(line[k])
    {
      assert line[k] == line[i..j][k - i];
    }
  }

  /** A slice of digits, character by character. */
  lemma DigitsOfSlice(line: string, i: nat, j: nat)
    requires i <= j <= |line| && AllDigits(line[i..j])
    ensures forall k :: i <= k < j ==> IsDigit(line[k])
  {
    forall k | i <= k < j
      ensures IsDigit(line[k])
    {
      assert line[k] == line[i..j][k - i];
    }
  }

  /** The pieces of a tail text standing at index `n` of a line: blanks
      up to `m`, `MiB`, blanks up to `p`, `uncore_imc_`, digits up to `e`,
      `/cas_count_`, then `k`. */
  lemma LineTailPieces(line: string, n: nat, pad: string, gap: string, d: string, k: string)
    requires AllSpace(pad) && AllSpace(gap) && AllDigits(d)
    requires var t := pad + ("MiB" + ImcText(gap, d, k));
      n + |t| <= |line| && line[n..n + |t|] == t
    ensures var m, p, e := n + |pad|, n + |pad| + 3 + |gap|, n + |pad| + 14 + |gap| + |d|;
            && e + 11 + |k| <= |line|
            && AllSpace(line[n..m]) && line[m..m + 3] == "MiB"
            && AllSpace(line[m + 3..p]) && line[p..p + 11] == "uncore_imc_"
            && AllDigits(line[p + 11..e]) && line[e..e + 11] == "/cas_count_"
            && line[e + 11..e + 11 + |k|] == k
  {
    var r3 := "/cas_count_" + k;
    var r2 := d + r3;
    var r1 := "uncore_imc_" + r2;
    var w := gap + r1;
    var m := n + |pad|;
    var p := m + 3 + |gap|;
    var e := p + 11 + |d|;
    WindowSplit(line, n, pad, "MiB" + w);
    WindowSplit(line, m, "MiB", w);
    WindowSplit(line, m + 3, gap, r1);
    WindowSplit(line, p, "uncore_imc_", r2);
    WindowSplit(line, p + 11, d, r3);
    WindowSplit(line, e, "/cas_count_", k);
  }

  /** The tail of the pattern, piece by piece, from index `n`. */
  lemma TailAtPieces(line: string, n: nat, m: nat, p: nat, e: nat, kind: CasKind)
    requires n < m && m + 3 < p && p + 11 < e && e + 12 + |KindName(kind)| <= |line|
    requires AllSpace(line[n..m]) && line[m..m + 3] == "MiB"
    requires AllSpace(line[m + 3..p]) && line[p..p + 11] == "uncore_imc_"
    requires AllDigits(line[p + 11..e]) && line[e..e + 11] == "/cas_count_"
    requires line[e + 11..e + 12 + |KindName(kind)|] == KindName(kind) + "/"
    ensures TailAt(line, n) == Some(kind)
  {
    assert ImcAt(line, m + 3) == Some(kind) by {
      ImcPieces(line, m + 3, p, e, kind);
    }
    MibStage(line, n, m, kind);
  }

  /** The tail of the pattern matches unit and event where they stand,
      whatever runs of blanks stand around `MiB`. */
  lemma TailAtCas(line: string, n: nat, pad: string, gap: string, unit: nat, kind: CasKind)
    requires Gap(pad) && Gap(gap)
    requires n + |CasTail(pad, gap, unit, kind)| <= |line|
    requires line[n..n + |CasTail(pad, gap, unit, kind)|] == CasTail(pad, gap, unit, kind)
    ensures TailAt(line, n) == Some(kind)
  {
    var d := NatToString(unit);
    CasTailShape(pad, gap, unit, kind);
    LineTailPieces(line, n, pad, gap, d, KindName(kind) + "/");
    TailAtPieces(line, n, n + |pad|, n + |pad| + 3 + |gap|, n + |pad| + 14 + |gap| + |d|, kind);
  }

  /** Nowhere in a plain front can the pattern start: a run of number
      characters there is followed by whitespace and then another number,
      never by "MiB". */
  lemma NoImcMatchInLead(line: string, l: nat)
    requires l < |line| && IsNumberChar(line[l])
    requires forall i :: 0 <= i < l ==> IsSpace(line[i]) || IsNumberChar(line[i])
    requires l == 0 || IsSpace(line[l - 1])
    ensures forall k :: 0 <= k < l ==> MatchAt(line, k).None?
  {
    forall k | 0 <= k < l
      ensures MatchAt(line, k).None?
    {
      var j := Span(line, k, IsNumberChar);
      if j > k {
        assert j < l;
        var m := Span(line, j, IsSpace);
        assert m <= l;
        assert IsNumberChar(line[m]);
        assert line[m..][0] == line[m];
      }
    }
  }

  lemma {:induction false} SearchFromSkips(line: string, i: nat, j: nat)
    requires i <= j <= |line|
    requires forall k :: i <= k < j ==> MatchAt(line, k).None?
    ensures SearchFrom(line, i) == SearchFrom(line, j)
    decreases j - i
  {
    if i < j {
      assert MatchAt(line, i).None?;
      SearchFromStep(line, i);
      SearchFromSkips(line, i + 1, j);
    }
  }

  lemma SearchFromStep(line: string, i: nat)
    requires i < |line| && MatchAt(line, i).None?
    ensures SearchFrom(line, i) == SearchFrom(line, i + 1)
  {
  }

  /** The matcher reads the value, unit kind and all, of a counter line,
      whatever timestamp column stands in front of it and whatever runs of
      blanks stand on either side of `MiB`. */
  lemma ReadsCasLine(lead: string, number: string, pad: string, gap: string, unit: nat, kind: CasKind)
    requires PlainLead(lead) && IsNumberText(number) && Gap(pad) && Gap(gap)
    ensures MatchImc(CasLine(lead, number, pad, gap, unit, kind)) == Some(ImcMatch(number, kind))
  {
    var line := CasLine(lead, number, pad, gap, unit, kind);
    var tail := CasTail(pad, gap, unit, kind);
    var l, n := |lead|, |lead| + |number|;
    assert line == lead + number + tail;
    SliceOfBack(lead + number, tail);
    SliceOfBack(lead, number);
    SliceOfFront(lead + number, tail, l, n);
    PlainLeadInLine(line, lead);
    ReadsOnPieces(line, l, n, number, pad, gap, unit, kind);
  }

  /** A plain front standing at the start of a line. */
  lemma PlainLeadInLine(line: string, lead: string)
    requires PlainLead(lead) && |lead| <= |line| && line[..|lead|] == lead
    ensures forall i :: 0 <= i < |lead| ==> IsSpace(line[i]) || IsNumberChar(line[i])
    ensures |lead| == 0 || IsSpace(line[|lead| - 1])
  {
    assert forall i :: 0 <= i < |lead| ==> line[i] == lead[i];
  }

  /** The matcher on a line that holds a plain front up to `l`, the value
      from `l` to `n` and a counter's tail from `n`. */
  lemma ReadsOnPieces(line: string, l: nat, n: nat, number: string, pad: string, gap: string, unit: nat, kind: CasKind)
    requires Gap(pad) && Gap(gap)
    requires l <= n && n + |CasTail(pad, gap, unit, kind)| <= |line|
    requires forall i :: 0 <= i < l ==> IsSpace(line[i]) || IsNumberChar(line[i])
    requires l == 0 || IsSpace(line[l - 1])
    requires line[l..n] == number && IsNumberText(number)
    requires line[n..n + |CasTail(pad, gap, unit, kind)|] == CasTail(pad, gap, unit, kind)
    ensures MatchImc(line) == Some(ImcMatch(number, kind))
  {
    assert IsNumberChar(line[l]) by {
      assert line[l] == number[0];
    }
    assert MatchAt(line, l) == Some(ImcMatch(number, kind)) by {
      MatchAtNumber(line, l, n, number, pad, gap, unit, kind);
    }
    NoImcMatchInLead(line, l);
    SearchFromSkips(line, 0, l);
  }

  /** The pattern anchored at the first character of the value. */
  lemma MatchAtNumber(line: string, l: nat, n: nat, number: string, pad: string, gap: string, unit: nat, kind: CasKind)
    requires Gap(pad) && Gap(gap)
    requires l <= n && n + |CasTail(pad, gap, unit, kind)| <= |line|
    requires line[l..n] == number && IsNumberText(number)
    requires line[n..n + |CasTail(pad, gap, unit, kind)|] == CasTail(pad, gap, unit, kind)
    ensures MatchAt(line, l) == Some(ImcMatch(number, kind))
  {
    var tail := CasTail(pad, gap, unit, kind);
    assert forall i :: l <= i < n ==> line[i] == number[i - l];
    assert line[n] == tail[0] == pad[0];
    SpanStopsAt(line, l, n, IsNumberChar);
    TailAtCas(line, n, pad, gap, unit, kind);
  }

  /** A counter line counts its value for its kind, or makes the script
      fail when float() rejects the value. */
  lemma ClassifiesCasLine(lead: string, number: string, pad: string, gap: string, unit: nat, kind: CasKind)
    requires PlainLead(lead) && IsNumberText(number) && Gap(pad) && Gap(gap)
    ensures ClassifyImc(CasLine(lead, number, pad, gap, unit, kind))
      == match ParseDecimal(number)
         case None => Unparsable
         case Some(v) => Counter(kind, v)
  {
    ReadsCasLine(lead, number, pad, gap, unit, kind);
  }

  // ---------------------------------------------------------------------
  // One interval
  // ---------------------------------------------------------------------

  /** The script dies with ValueError at the line with this index. */
  datatype ImcError = BadNumber(line: nat)

  datatype ImcBlock = ImcBlock(readMib: real, writeMib: real, next: nat)

  /** The inner `while lines_this_interval < expected_lines` loop over the
      classified lines, entered at line `pos` with `counted` matches and the
      given running totals. A line that does not match is consumed without
      being counted; the end of the stream ends the interval early. */
  function ScanImc(infos: seq<ImcLine>, pos: nat, counted: nat, readMib: real, writeMib: real)
    : (r: Result<ImcBlock, ImcError>)
    requires pos <= |infos| && counted <= Quota
    ensures r.Ok? ==> pos <= r.value.next <= |infos|
    ensures r.Err? ==> pos <= r.error.line < |infos|
    decreases |infos| - pos
  {
    if counted == Quota || pos == |infos| then Ok(ImcBlock(readMib, writeMib, pos))
    else if infos[pos].Unparsable? then Err(BadNumber(pos))
    else if infos[pos].Unmatched? then ScanImc(infos, pos + 1, counted, readMib, writeMib)
    else if infos[pos].kind == CasRead then ScanImc(infos, pos + 1, counted + 1, readMib + infos[pos].mib, writeMib)
    else ScanImc(infos, pos + 1, counted + 1, readMib, writeMib + infos[pos].mib)
  }

  /** The count and totals after one line the scan accepts. */
  function NextTotals(info: ImcLine, counted: nat, readMib: real, writeMib: real): (nat, real, real)
  {
    if !info.Counter? then (counted, readMib, writeMib)
    else if info.kind == CasRead then (counted + 1, readMib + info.mib, writeMib)
    else (counted + 1, readMib, writeMib + info.mib)
  }

  /** The running totals grow by exactly the values of the matched lines
      the scan consumed, split by kind, and none of those lines was bad. */
  lemma {:induction false} ScanImcTotals(infos: seq<ImcLine>, pos: nat, counted: nat, readMib: real, writeMib: real)
    requires pos <= |infos| && counted <= Quota && NonNegative(infos)
    ensures var r := ScanImc(infos, pos, counted, readMib, writeMib);
      r.Ok? ==>
        var seg := infos[pos..r.value.next];
        && NoBadLine(seg)
        && r.value.readMib == readMib + KindTotal(seg, CasRead)
        && r.value.writeMib == writeMib + KindTotal(seg, CasWrite)
    decreases |infos| - pos
  {
    var r := ScanImc(infos, pos, counted, readMib, writeMib);
    if counted == Quota || pos == |infos| {
      assert infos[pos..pos] == [];
    } else if !infos[pos].Unparsable? {
      var info := infos[pos];
      var (c, rd, wr) := NextTotals(info, counted, readMib, writeMib);
      ScanImcTotals(infos, pos + 1, c, rd, wr);
      if r.Ok? {
        SegmentTotalsCons(infos, pos, r.value.next);
      }
    }
  }

  /** The totals of a stretch: its first line, then the rest. */
  lemma SegmentTotalsCons(infos: seq<ImcLine>, pos: nat, next: nat)
    requires pos < next <= |infos| && NonNegative(infos)
    ensures NonNegative(infos[pos + 1..next])
    ensures NoBadLine(infos[pos..next]) <==> !infos[pos].Unparsable? && NoBadLine(infos[pos + 1..next])
    ensures var x := infos[pos];
      && KindTotal(infos[pos..next], CasRead)
         == (if x.Counter? && x.kind == CasRead then x.mib else 0.0) + KindTotal(infos[pos + 1..next], CasRead)
      && KindTotal(infos[pos..next], CasWrite)
         == (if x.Counter? && x.kind == CasWrite then x.mib else 0.0) + KindTotal(infos[pos + 1..next], CasWrite)
  {
    var seg := infos[pos..next];
    assert seg[1..] == infos[pos + 1..next];
    assert forall j :: 0 <= j < |seg| ==> seg[j] == infos[pos + j];
  }

  /** The scan stops right after the line that completes the quota, or at
      the end of the stream with the quota still open: never earlier, and
      never past a further line. */
  lemma {:induction false} ScanImcStops(infos: seq<ImcLine>, pos: nat, counted: nat, readMib: real, writeMib: real)
    requires pos <= |infos| && counted <= Quota
    ensures var r := ScanImc(infos, pos, counted, readMib, writeMib);
      r.Ok? ==>
        var next := r.value.next;
        var n := counted + MatchCount(infos[pos..next]);
        && n <= Quota
        && (n == Quota || next == |infos|)
        && (next > pos && counted < Quota && n == Quota ==> !infos[next - 1].Unmatched?)
    decreases |infos| - pos
  {
    var r := ScanImc(infos, pos, counted, readMib, writeMib);
    if counted == Quota || pos == |infos| {
      assert infos[pos..pos] == [];
    } else if !infos[pos].Unparsable? {
      var info := infos[pos];
      var (c, rd, wr) := NextTotals(info, counted, readMib, writeMib);
      ScanImcStops(infos, pos + 1, c, rd, wr);
      if r.Ok? {
        SegmentCountCons(infos, pos, r.value.next);
      }
    }
  }

  /** The match count of a stretch: its first line, then the rest. */
  lemma SegmentCountCons(infos: seq<ImcLine>, pos: nat, next: nat)
    requires pos < next <= |infos|
    ensures MatchCount(infos[pos..next])
      == (if infos[pos].Unmatched? then 0 else 1) + MatchCount(infos[pos + 1..next])
    ensures next == pos + 1 ==> MatchCount(infos[pos + 1..next]) == 0
  {
    var seg := infos[pos..next];
    assert seg[1..] == infos[pos + 1..next];
  }

  /** The scan fails exactly at the first unparsable matching line it
      reaches. */
  lemma {:induction false} ScanImcFails(infos: seq<ImcLine>, pos: nat, counted: nat, readMib: real, writeMib: real)
    requires pos <= |infos| && counted <= Quota
    ensures var r := ScanImc(infos, pos, counted, readMib, writeMib);
      && (r.Err? ==> infos[r.error.line].Unparsable? && NoBadLine(infos[pos..r.error.line]))
      && (NoBadLine(infos[pos..]) ==> r.Ok?)
    decreases |infos| - pos
  {
    var r := ScanImc(infos, pos, counted, readMib, writeMib);
    if counted == Quota || pos == |infos| {
    } else if infos[pos].Unparsable? {
      assert infos[pos..pos] == [];
      assert infos[pos..][0] == infos[pos];
    } else {
      var info := infos[pos];
      var (c, rd, wr) := NextTotals(info, counted, readMib, writeMib);
      ScanImcFails(infos, pos + 1, c, rd, wr);
      if r.Err? {
        assert infos[pos..r.error.line] == [info] + infos[pos + 1..r.error.line];
      }
      assert infos[pos + 1..] == infos[pos..][1..];
    }
  }

  /** One pass of the outer loop's body from line `pos` of the classified
      stream: the interval's value in MB and the index of the first line
      left unread. */
  function ReadImcBlock(infos: seq<ImcLine>, pos: nat): (r: Result<(real, nat), ImcError>)
    requires pos <= |infos| && NonNegative(infos)
    ensures r.Ok? ==>
      var (value, next) := r.value;
      && pos <= next <= |infos|
      && value == (KindTotal(infos[pos..next], CasRead) + KindTotal(infos[pos..next], CasWrite)) * MibToMb
      && value >= 0.0
      && (MatchCount(infos[pos..next]) == Quota || next == |infos|)
    ensures NoBadLine(infos[pos..]) ==> r.Ok?
  {
    var r := ScanImc(infos, pos, 0, 0.0, 0.0);
    ScanImcTotals(infos, pos, 0, 0.0, 0.0);
    ScanImcStops(infos, pos, 0, 0.0, 0.0);
    ScanImcFails(infos, pos, 0, 0.0, 0.0);
    if r.Err? then
      Err(r.error)
    else
      var b := r.value;
      Ok(((b.readMib + b.writeMib) * MibToMb, b.next))
  }

  /** Once the stream is exhausted every interval reads as zero and
      consumes nothing. */
  lemma EndOfStreamReadsZero(lines: seq<string>)
    ensures ReadImcBlock(ClassifyAll(lines), |lines|) == Ok((0.0, |lines|))
  {
    var infos := ClassifyAll(lines);
    assert infos[|lines|..|lines|] == [];
  }

  lemma {:induction false} MatchCountBound(seg: seq<ImcLine>)
    ensures MatchCount(seg) <= |seg|
  {
    if |seg| > 0 {
      MatchCountBound(seg[1..]);
    }
  }

  /** A stream with fewer lines than the quota is read as one interval up
      to its end, every counter in it summed. */
  lemma ShortStreamOneInterval(lines: seq<string>)
    requires |lines| < Quota && NoBadLine(ClassifyAll(lines))
    ensures var infos := ClassifyAll(lines);
      ReadImcBlock(infos, 0) == Ok(((KindTotal(infos, CasRead) + KindTotal(infos, CasWrite)) * MibToMb, |lines|))
  {
    var infos := ClassifyAll(lines);
    ClassifiedNonNegative(lines);
    assert ScanImc(infos, 0, 0, 0.0, 0.0) == Ok(ImcBlock(KindTotal(infos, CasRead), KindTotal(infos, CasWrite), |infos|)) by {
      ShortScan(infos);
    }
    ReadOfScan(infos, 0, KindTotal(infos, CasRead), KindTotal(infos, CasWrite), |infos|);
  }

  lemma ClassifiedNonNegative(lines: seq<string>)
    ensures NonNegative(ClassifyAll(lines))
  {
  }

  /** An interval's value is what its scan totals, in MB. */
  lemma ReadOfScan(infos: seq<ImcLine>, pos: nat, readMib: real, writeMib: real, next: nat)
    requires pos <= |infos| && NonNegative(infos)
    requires ScanImc(infos, pos, 0, 0.0, 0.0) == Ok(ImcBlock(readMib, writeMib, next))
    ensures ReadImcBlock(infos, pos) == Ok(((readMib + writeMib) * MibToMb, next))
  {
  }

  lemma ShortScan(infos: seq<ImcLine>)
    requires |infos| < Quota && NoBadLine(infos) && NonNegative(infos)
    ensures ScanImc(infos, 0, 0, 0.0, 0.0) == Ok(ImcBlock(KindTotal(infos, CasRead), KindTotal(infos, CasWrite), |infos|))
  {
    var r := ScanImc(infos, 0, 0, 0.0, 0.0);
    assert r.Ok? by {
      assert infos[0..] == infos;
      ScanImcFails(infos, 0, 0, 0.0, 0.0);
    }
    var next := r.value.next;
    assert next == |infos| by {
      ScanImcStops(infos, 0, 0, 0.0, 0.0);
      MatchCountBound(infos[0..next]);
    }
    assert infos[0..next] == infos;
    ScanImcTotals(infos, 0, 0, 0.0, 0.0);
  }

  lemma ExampleWholes()
    ensures DigitsValue("100") == 100 && DigitsValue("50") == 50
  {
    var s, t := "100", "50";
    assert AllDigits(s) && AllDigits(t);
    assert s[..0] == t[..0] == [];
    DigitsValueSnoc(s, 0);
    DigitsValueSnoc(s, 1);
    DigitsValueSnoc(s, 2);
    DigitsValueSnoc(t, 0);
    DigitsValueSnoc(t, 1);
    assert s[..3] == s && t[..2] == t;
  }

  lemma ExampleFractions()
    ensures DigitsValue("5") == 5 && DigitsValue("25") == 25
  {
    var s, t := "5", "25";
    assert AllDigits(s) && AllDigits(t);
    assert s[..0] == t[..0] == [];
    DigitsValueSnoc(s, 0);
    DigitsValueSnoc(t, 0);
    DigitsValueSnoc(t, 1);
    assert s[..1] == s && t[..2] == t;
  }

  lemma ParseReadValue()
    ensures ParseDecimal("100.5") == Some(100.5)
  {
    ExampleWholes();
    ExampleFractions();
    assert "100.5" == "100" + "." + "5";
    ParseDecimalFraction("100", "5");
    assert DecimalValue("100", "5") == 100.5;
  }

  lemma ParseWriteValue()
    ensures ParseDecimal("50.25") == Some(50.25)
  {
    ExampleWholes();
    ExampleFractions();
    assert "50.25" == "50" + "." + "25";
    ParseDecimalFraction("50", "25");
    assert DecimalValue("50", "25") == 50.25;
  }

  lemma TotalsOfTwo(a: real, b: real)
    requires a >= 0.0 && b >= 0.0
    ensures KindTotal([Counter(CasRead, a), Counter(CasWrite, b)], CasRead) == a
    ensures KindTotal([Counter(CasRead, a), Counter(CasWrite, b)], CasWrite) == b
  {
    var seg := [Counter(CasRead, a), Counter(CasWrite, b)];
    var rest := [Counter(CasWrite, b)];
    assert seg[1..] == rest && rest[1..] == [];
    assert KindTotal(rest, CasRead) == 0.0 + KindTotal(rest[1..], CasRead) == 0.0;
    assert KindTotal(rest, CasWrite) == b + KindTotal(rest[1..], CasWrite) == b;
    assert KindTotal(seg, CasRead) == a + KindTotal(rest, CasRead);
    assert KindTotal(seg, CasWrite) == 0.0 + KindTotal(rest, CasWrite);
  }

  lemma CountersAreGood(a: real, b: real)
    ensures NoBadLine([Counter(CasRead, a), Counter(CasWrite, b)])
  {
  }

  /** Number characters, checked one at a time from the front. */
  predicate NumberByChar(s: string) {
    |s| == 0 || (IsNumberChar(s[0]) && NumberByChar(s[1..]))
  }

  lemma {:induction false} NumberTextByChar(s: string)
    requires |s| > 0 && NumberByChar(s)
    ensures IsNumberText(s)
  {
    if |s| > 1 {
      NumberTextByChar(s[1..]);
      assert forall i :: 1 <= i < |s| ==> s[i] == s[1..][i - 1];
    }
  }

  lemma ClassifyExampleLine(number: string, v: real, kind: CasKind)
    requires IsNumberText(number) && ParseDecimal(number) == Some(v)
    ensures ClassifyImc(CasLine("", number, " ", " ", 0, kind)) == Counter(kind, v)
  {
    ClassifiesCasLine("", number, " ", " ", 0, kind);
  }

  lemma ExampleReadLine()
    ensures ClassifyImc(CasLine("", "100.5", " ", " ", 0, CasRead)) == Counter(CasRead, 100.5)
  {
    assert ParseDecimal("100.5") == Some(100.5) by {
      ParseReadValue();
    }
    assert IsNumberText("100.5") by {
      NumberTextByChar("100.5");
    }
    ClassifyExampleLine("100.5", 100.5, CasRead);
  }

  lemma ExampleWriteLine()
    ensures ClassifyImc(CasLine("", "50.25", " ", " ", 0, CasWrite)) == Counter(CasWrite, 50.25)
  {
    assert ParseDecimal("50.25") == Some(50.25) by {
      ParseWriteValue();
    }
    assert IsNumberText("50.25") by {
      NumberTextByChar("50.25");
    }
    ClassifyExampleLine("50.25", 50.25, CasWrite);
  }

  lemma ClassifyTwo(a: string, b: string)
    ensures ClassifyAll([a, b]) == [ClassifyImc(a), ClassifyImc(b)]
  {
  }

  lemma ExampleClassified()
    ensures ClassifyAll([CasLine("", "100.5", " ", " ", 0, CasRead), CasLine("", "50.25", " ", " ", 0, CasWrite)])
      == [Counter(CasRead, 100.5), Counter(CasWrite, 50.25)]
  {
    ClassifyTwo(CasLine("", "100.5", " ", " ", 0, CasRead), CasLine("", "50.25", " ", " ", 0, CasWrite));
    ExampleReadLine();
    ExampleWriteLine();
  }

  /** A read counter of 100.5 MiB and a write counter of 50.25 MiB, alone
      in the stream, give one interval of (100.5 + 50.25) * 1.04858 =
      158.073435 MB. */
  lemma TwoCounterExample()
    ensures ReadImcBlock(ClassifyAll([CasLine("", "100.5", " ", " ", 0, CasRead), CasLine("", "50.25", " ", " ", 0, CasWrite)]), 0)
      == Ok((158.073435, 2))
  {
    var lines := [CasLine("", "100.5", " ", " ", 0, CasRead), CasLine("", "50.25", " ", " ", 0, CasWrite)];
    ExampleClassified();
    CountersAreGood(100.5, 50.25);
    ShortStreamOneInterval(lines);
    TotalsOfTwo(100.5, 50.25);
    assert (100.5 + 50.25) * MibToMb == 158.073435;
  }

  // ---------------------------------------------------------------------
  // The sampling loop
  // ---------------------------------------------------------------------

  /** Where interval `i` starts: line 0, then wherever the interval before
      it stopped reading; none once an earlier interval has raised. */
  function BlockStart(infos: seq<ImcLine>, i: nat): (r: Option<nat>)
    requires NonNegative(infos)
    ensures r.Some? ==> r.value <= |infos|
  {
    if i == 0 then Some(0)
    else
      match BlockStart(infos, i - 1)
      case None => None
      case Some(p) =>
        match ReadImcBlock(infos, p)
        case Err(_) => None
        case Ok((_, next)) => Some(next)
  }

  /** The value interval `i` reports, none when it or an earlier one raises. */
  function BlockValue(infos: seq<ImcLine>, i: nat): Option<real>
    requires NonNegative(infos)
  {
    match BlockStart(infos, i)
    case None => None
    case Some(p) =>
      match ReadImcBlock(infos, p)
      case Err(_) => None
      case Ok((value, _)) => Some(value)
  }

  /** Once an interval has raised, no later interval starts. */
  lemma {:induction false} BlockStartStaysNone(infos: seq<ImcLine>, i: nat, j: nat)
    requires NonNegative(infos) && i <= j && BlockStart(infos, i).None?
    ensures BlockStart(infos, j).None?
    decreases j - i
  {
    if i < j {
      BlockStartStaysNone(infos, i + 1, j);
    }
  }

  /** `monitor_imc_throughput`: one interval per element of `times` (the
      elapsed time read before the interval; how many iterations the pid
      check allows is the length of `times`), consuming `lines` in order. */
  method MonitorImc(lines: seq<string>, times: seq<real>) returns (r: Result<seq<Sample<real>>, ImcError>)
    ensures var infos := ClassifyAll(lines);
      NonNegative(infos) && (r.Ok? <==> BlockStart(infos, |times|).Some?)
    ensures var infos := ClassifyAll(lines);
      r.Ok? ==>
      && NonNegative(infos)
      && |r.value| == |times|
      && (forall i :: 0 <= i < |times| ==>
            && r.value[i].time == times[i]
            && r.value[i].value >= 0.0
            && BlockValue(infos, i) == Some(r.value[i].value))
      && BlockStart(infos, |times|).Some?
      && SumValues(r.value) == ConsumedMb(infos, BlockStart(infos, |times|).value)
    ensures NoBadLine(ClassifyAll(lines)) ==> r.Ok?
  {
    ClassifiedNonNegative(lines);
    r := MonitorBlocks(ClassifyAll(lines), times);
  }

  /** The sampling loop over the classified stream. */
  method MonitorBlocks(infos: seq<ImcLine>, times: seq<real>) returns (r: Result<seq<Sample<real>>, ImcError>)
    requires NonNegative(infos)
    ensures r.Ok? <==> BlockStart(infos, |times|).Some?
    ensures r.Ok? ==>
      && |r.value| == |times|
      && (forall i :: 0 <= i < |times| ==>
            && r.value[i].time == times[i]
            && r.value[i].value >= 0.0
            && BlockValue(infos, i) == Some(r.value[i].value))
      && BlockStart(infos, |times|).Some?
      && SumValues(r.value) == ConsumedMb(infos, BlockStart(infos, |times|).value)
    ensures NoBadLine(infos) ==> r.Ok?
  {
    var data: seq<Sample<real>> := [];
    var pos := 0;
    var i := 0;
    while i < |times|
      invariant 0 <= i <= |times| && pos <= |infos|
      invariant BlockStart(infos, i) == Some(pos)
      invariant |data| == i
      invariant TimedNonNegative(data, times)
      invariant forall k :: 0 <= k < i ==> BlockValue(infos, k) == Some(data[k].value)
      invariant SumValues(data) == ConsumedMb(infos, pos)
    {
      if NoBadLine(infos) {
        assert NoBadLine(infos[pos..]);
      }
      var block := ReadImcBlock(infos, pos);
      if block.Err? {
        assert BlockStart(infos, i + 1).None?;
        BlockStartStaysNone(infos, i + 1, |times|);
        return Err(block.error);
      }
      var (value, next) := block.value;
      assert BlockValue(infos, i) == Some(value);
      assert BlockStart(infos, i + 1) == Some(next);
      MonitorImcStep(infos, pos, data, times[i], value, next);
      TimedNonNegativeAppend(data, times, value);
      data := data + [Sample(times[i], value)];
      pos := next;
      i := i + 1;
    }
    r := Ok(data);
  }

  /** Sample k carries the k-th time and a non-negative value. */
  predicate TimedNonNegative(data: seq<Sample<real>>, times: seq<real>) {
    |data| <= |times| && forall k :: 0 <= k < |data| ==> data[k].time == times[k] && data[k].value >= 0.0
  }

  lemma TimedNonNegativeAppend(data: seq<Sample<real>>, times: seq<real>, value: real)
    requires TimedNonNegative(data, times) && |data| < |times| && value >= 0.0
    ensures TimedNonNegative(data + [Sample(times[|data|], value)], times)
  {
  }

  /** One interval adds its value to the running sum of the samples, which
      stays the MB of everything consumed so far. */
  lemma MonitorImcStep(infos: seq<ImcLine>, pos: nat, data: seq<Sample<real>>,
                       t: real, value: real, next: nat)
    requires NonNegative(infos) && pos <= |infos|
    requires ReadImcBlock(infos, pos) == Ok((value, next))
    requires SumValues(data) == ConsumedMb(infos, pos)
    ensures pos <= next <= |infos| && value >= 0.0
    ensures SumValues(data + [Sample(t, value)]) == ConsumedMb(infos, next)
  {
    ConsumedMbStep(infos, pos, next);
    SumValuesAppend(data, Sample(t, value));
  }

  /** Everything the matched lines among the first `n` lines add up to, in MB. */
  function ConsumedMb(infos: seq<ImcLine>, n: nat): real
    requires n <= |infos| && NonNegative(infos)
  {
    (KindTotal(infos[..n], CasRead) + KindTotal(infos[..n], CasWrite)) * MibToMb
  }

  lemma ConsumedMbStep(infos: seq<ImcLine>, pos: nat, next: nat)
    requires pos <= next <= |infos| && NonNegative(infos)
    ensures ConsumedMb(infos, next) == ConsumedMb(infos, pos)
      + (KindTotal(infos[pos..next], CasRead) + KindTotal(infos[pos..next], CasWrite)) * MibToMb
  {
    assert infos[..next] == infos[..pos] + infos[pos..next];
    KindTotalAppend(infos[..pos], infos[pos..next], CasRead);
    KindTotalAppend(infos[..pos], infos[pos..next], CasWrite);
  }

  function SumValues(s: seq<Sample<real>>): real
  {
    if |s| == 0 then 0.0 else s[0].value + SumValues(s[1..])
  }

  lemma {:induction false} SumValuesAppend(s: seq<Sample<real>>, x: Sample<real>)
    ensures SumValues(s + [x]) == SumValues(s) + x.value
  {
    if |s| > 0 {
      assert (s + [x])[1..] == s[1..] + [x];
      SumValuesAppend(s[1..], x);
    }
  }

  // ---------------------------------------------------------------------
  // resctrl MBM alternative
  // ---------------------------------------------------------------------

  datatype MbmError = MonPathMissing | NoMbmFiles | PidNotFound

  /** One loop iteration's clock reading (after the sleep) and byte total
      summed over the `mbm_total_bytes` files. */
  datatype MbmReading = MbmReading(clock: real, totalBytes: int)

  const MinInterval: real := 0.000001

  /** MB/s between two readings: the byte delta is clamped at zero and the
      time delta at one microsecond. */
  function MbmRate(prevBytes: int, curBytes: int, last: real, now: real): (mbps: real)
    ensures mbps >= 0.0
    ensures curBytes <= prevBytes ==> mbps == 0.0
    ensures curBytes >= prevBytes && now - last >= MinInterval ==>
      mbps * (now - last) * 1048576.0 == (curBytes - prevBytes) as real
    ensures curBytes >= prevBytes && now - last < MinInterval ==>
      mbps * MinInterval * 1048576.0 == (curBytes - prevBytes) as real
  {
    var dt := if now - last >= MinInterval then now - last else MinInterval;
    var delta := if curBytes - prevBytes >= 0 then curBytes - prevBytes else 0;
    delta as real / 1048576.0 / dt
  }

  /** `monitor_mbm`: refuses to start if the monitor group's `mon_data`
      directory is missing, holds no `mbm_total_bytes` file, or the pid is
      gone; otherwise one rate per reading, each against the previous one
      (the first against the initial reading taken at `start`). */
  method MonitorMbm(monPathExists: bool, mbmFiles: nat, pidAlive: bool, start: real, initialBytes: int,
                    readings: seq<MbmReading>)
    returns (r: Result<seq<Sample<real>>, MbmError>)
    ensures !monPathExists ==> r == Err(MonPathMissing)
    ensures monPathExists && mbmFiles == 0 ==> r == Err(NoMbmFiles)
    ensures monPathExists && mbmFiles > 0 && !pidAlive ==> r == Err(PidNotFound)
    ensures monPathExists && mbmFiles > 0 && pidAlive ==> r.Ok?
    ensures r.Ok? ==>
      && |r.value| == |readings|
      && forall i :: 0 <= i < |readings| ==>
           && r.value[i].time == readings[i].clock - start
           && r.value[i].value >= 0.0
           && r.value[i].value == MbmRate(if i == 0 then initialBytes else readings[i - 1].totalBytes,
                                          readings[i].totalBytes,
                                          if i == 0 then start else readings[i - 1].clock,
                                          readings[i].clock)
  {
    if !monPathExists {
      return Err(MonPathMissing);
    }
    if mbmFiles == 0 {
      return Err(NoMbmFiles);
    }
    if !pidAlive {
      return Err(PidNotFound);
    }
    var samples: seq<Sample<real>> := [];
    var prev, last := initialBytes, start;
    var i := 0;
    while i < |readings|
      invariant 0 <= i <= |readings|
      invariant |samples| == i
      invariant prev == (if i == 0 then initialBytes else readings[i - 1].totalBytes)
      invariant last == (if i == 0 then start else readings[i - 1].clock)
      invariant forall k :: 0 <= k < i ==>
        && samples[k].time == readings[k].clock - start
        && samples[k].value >= 0.0
        && samples[k].value == MbmRate(if k == 0 then initialBytes else readings[k - 1].totalBytes,
                                       readings[k].totalBytes,
                                       if k == 0 then start else readings[k - 1].clock,
                                       readings[k].clock)
    {
      var cur := readings[i].clock;
      var curTotal := readings[i].totalBytes;
      samples := samples + [Sample(cur - start, MbmRate(prev, curTotal, last, cur))];
      prev, last := curTotal, cur;
      i := i + 1;
    }
    r := Ok(samples);
  }

  // ---------------------------------------------------------------------
  // Output
  // ---------------------------------------------------------------------

  function ThroughputHeader(): Row {
    HeaderRow(["Time (s)", "Memory Throughput (MB/s)"])
  }

  /** `write_throughput_csv`: the header, then one `[t, mb]` row per sample
      in order. */
  function WriteThroughputCsv(data: seq<Sample<real>>): (rows: seq<Row>)
    ensures |rows| == |data| + 1 && rows[0] == ThroughputHeader()
    ensures forall i :: 0 <= i < |data| ==> rows[i + 1] == [Num(data[i].time), Num(data[i].value)]
  {
    [ThroughputHeader()] + TimeValueRows(NumSeries(data))
  }
}

=== FILE: perfcsv.dfy ===
/** `read_cpu_metrics2.py`: instructions and LLC misses per second from one
    `perf stat -I <ms> -x , -a -e instructions -e LLC-misses` stream, whose
    rows are `time,value,unit,event,...`, and the CSV the script writes. */
module PerfCsv {
  import opened Wrappers
  import opened Text
  import opened Series

  /** Counted rows that end one interval. */
  const RowsPerInterval: nat := 2

  datatype PerfEvent = Instructions | LlcMisses

  /** What one stderr line contributes to an interval. */
  datatype PerfLine =
    | Ignored                                  // skipped, or another event
    | Reading(event: PerfEvent, value: real)   // counts toward the quota

  /** The body of the inner loop for one line (stripped, split on commas):
      rows with fewer than four fields or a '#' in front are skipped, field
      1 loses its spaces and reads as 0.0 when `float()` rejects it, and
      only field 3 equal to `instructions` or `LLC-misses` counts. */
  function ClassifyPerf(line: string): PerfLine
  {
    var parts := Split(Strip(line), ',');
    if |parts| < 4 || StartsWith(parts[0], "#") then Ignored
    else
      var value := ParseDecimal(RemoveChar(parts[1], ' ')).GetOr(0.0);
      if parts[3] == "instructions" then Reading(Instructions, value)
      else if parts[3] == "LLC-misses" then Reading(LlcMisses, value)
      else Ignored
  }

  function ClassifyAll(lines: seq<string>): (infos: seq<PerfLine>)
    ensures |infos| == |lines|
    ensures forall i :: 0 <= i < |lines| ==> infos[i] == ClassifyPerf(lines[i])
  {
    seq(|lines|, i requires 0 <= i < |lines| => ClassifyPerf(lines[i]))
  }

  function EventName(e: PerfEvent): string {
    match e
    case Instructions => "instructions"
    case LlcMisses => "LLC-misses"
  }

  /** A row as `perf stat -x ,` prints it, field by field: time, value,
      unit, event name, then whatever further fields follow (`tail` is
      empty or starts with a comma). */
  function CsvRow(time: string, value: string, unit: string, name: string, tail: string): string {
    time + "," + value + "," + unit + "," + name + tail
  }

  /** A row of one of the two events with a counted value. */
  function PerfRow(time: string, count: nat, unit: string, event: PerfEvent, tail: string): string {
    CsvRow(time, NatToString(count), unit, EventName(event), tail)
  }

  /** What perf prints in the value field of an event it could not count. */
  const NotCounted: string := "<not counted>"

  /** The last field with whatever follows it: it stands alone up to the
      next comma. */
  lemma LastFieldFirst(d: string, tail: string)
    requires ',' !in d
    requires tail == "" || tail[0] == ','
    ensures Split(d + tail, ',')[0] == d
  {
    SplitNoSeparator(d, ',');
    if tail == "" {
      assert d + tail == d;
    } else {
      assert d + tail == d + [','] + tail[1..];
      SplitAround(d, tail[1..], ',');
    }
  }

  /** A comma-free field in front of a comma is split off on its own. */
  lemma FieldThenRest(a: string, r: string)
    requires ',' !in a
    ensures Split(a + [','] + r, ',') == [a] + Split(r, ',')
  {
    SplitAround(a, r, ',');
    SplitNoSeparator(a, ',');
  }

  /** Four comma-free fields joined by commas come back first in the
      split. */
  lemma FourFields(a: string, b: string, c: string, d: string, tail: string)
    requires ',' !in a && ',' !in b && ',' !in c && ',' !in d
    requires tail == "" || tail[0] == ','
    ensures var parts := Split(a + "," + b + "," + c + "," + d + tail, ',');
      |parts| >= 4 && parts[0] == a && parts[1] == b && parts[2] == c && parts[3] == d
  {
    var r3 := d + tail;
    var r2 := c + [','] + r3;
    var r1 := b + [','] + r2;
    RowRegroup(a, b, c, d, tail);
    LastFieldFirst(d, tail);
    var s3 := Split(r3, ',');
    FieldThenRest(c, r3);
    FieldThenRest(b, r2);
    FieldThenRest(a, r1);
    FrontOfThree(a, b, c, s3);
  }

  lemma FrontOfThree(a: string, b: string, c: string, rest: seq<string>)
    requires |rest| >= 1
    ensures var parts := [a] + ([b] + ([c] + rest));
      |parts| >= 4 && parts[0] == a && parts[1] == b && parts[2] == c && parts[3] == rest[0]
  {
  }

  /** A row read from the right: each field in front of a comma and the
      rest. */
  lemma RowRegroup(a: string, b: string, c: string, d: string, tail: string)
    ensures a + "," + b + "," + c + "," + d + tail == a + [','] + (b + [','] + (c + [','] + (d + tail)))
  {
  }

  /** The fields of a printed row. */
  lemma CsvRowFields(time: string, value: string, unit: string, name: string, tail: string)
    requires ',' !in time && ',' !in value && ',' !in unit && ',' !in name
    requires tail == "" || tail[0] == ','
    ensures var parts := Split(CsvRow(time, value, unit, name, tail), ',');
      && |parts| >= 4 && parts[0] == time && parts[1] == value
      && parts[2] == unit && parts[3] == name
  {
    FourFields(time, value, unit, name, tail);
  }

  /** A printed row has no blank at either end. */
  lemma CsvRowEnds(time: string, value: string, unit: string, name: string, tail: string)
    requires |time| > 0 && !IsSpace(time[0])
    requires tail == "" ==> |name| > 0 && !IsSpace(name[|name| - 1])
    requires tail != "" ==> !IsSpace(tail[|tail| - 1])
    ensures var row := CsvRow(time, value, unit, name, tail);
      |row| > 0 && !IsSpace(row[0]) && !IsSpace(row[|row| - 1])
  {
    var row := CsvRow(time, value, unit, name, tail);
    assert row[0] == time[0];
    if tail == "" {
      assert row[|row| - 1] == name[|name| - 1];
    } else {
      assert row[|row| - 1] == tail[|tail| - 1];
    }
  }

  /** How a printed row is classified, whatever whitespace surrounds it
      (the padding perf puts in front of the interval stamp, the newline
      `readline()` keeps): by its event name alone, with its value field
      read by `float()` once the blanks are dropped, and 0.0 where `float()`
      rejects it. */
  lemma ClassifyCsvRow(lead: string, time: string, value: string, unit: string, name: string, tail: string, trail: string)
    requires AllSpace(lead) && AllSpace(trail)
    requires |time| > 0 && !IsSpace(time[0]) && time[0] != '#' && ',' !in time
    requires ',' !in value && ',' !in unit && ',' !in name
    requires tail == "" || tail[0] == ','
    requires tail == "" ==> |name| > 0 && !IsSpace(name[|name| - 1])
    requires tail != "" ==> !IsSpace(tail[|tail| - 1])
    ensures var v := ParseDecimal(RemoveChar(value, ' ')).GetOr(0.0);
      ClassifyPerf(lead + CsvRow(time, value, unit, name, tail) + trail)
      == if name == "instructions" then Reading(Instructions, v)
         else if name == "LLC-misses" then Reading(LlcMisses, v)
         else Ignored
  {
    var row := CsvRow(time, value, unit, name, tail);
    assert Strip(lead + row + trail) == row by {
      CsvRowEnds(time, value, unit, name, tail);
      StripSurrounded(lead, row, trail);
    }
    CsvRowFields(time, value, unit, name, tail);
    assert !StartsWith(time, "#");
  }

  /** The event names end in a letter. */
  lemma EventNameEnds(event: PerfEvent)
    ensures var e := EventName(event); |e| > 0 && !IsSpace(e[|e| - 1]) && ',' !in e
  {
  }

  /** A printed count holds no comma. */
  lemma NumeralHasNoComma(count: nat)
    ensures ',' !in NatToString(count)
  {
    var n := NatToString(count);
    forall i | 0 <= i < |n| ensures n[i] != ',' {
      assert IsDigit(n[i]);
    }
  }

  /** A printed row reads back as its event and count, whatever whitespace
      surrounds it. */
  lemma ReadsPerfRow(lead: string, time: string, count: nat, unit: string, event: PerfEvent, tail: string, trail: string)
    requires AllSpace(lead) && AllSpace(trail)
    requires |time| > 0 && !IsSpace(time[0]) && time[0] != '#' && ',' !in time
    requires ',' !in unit
    requires tail == "" || (tail[0] == ',' && !IsSpace(tail[|tail| - 1]))
    ensures ClassifyPerf(lead + PerfRow(time, count, unit, event, tail) + trail) == Reading(event, count as real)
  {
    EventNameEnds(event);
    NumeralHasNoComma(count);
    ReadsNumeral(count);
    ClassifyCsvRow(lead, time, NatToString(count), unit, EventName(event), tail, trail);
  }

  /** A row of one of the two events whose value `float()` rejects still
      counts toward the interval, as 0.0. */
  lemma ReadsRejectedValue(lead: string, time: string, value: string, unit: string, event: PerfEvent, tail: string, trail: string)
    requires AllSpace(lead) && AllSpace(trail)
    requires |time| > 0 && !IsSpace(time[0]) && time[0] != '#' && ',' !in time
    requires ',' !in value && ',' !in unit
    requires ParseDecimal(RemoveChar(value, ' ')) == None
    requires tail == "" || (tail[0] == ',' && !IsSpace(tail[|tail| - 1]))
    ensures ClassifyPerf(lead + CsvRow(time, value, unit, EventName(event), tail) + trail) == Reading(event, 0.0)
  {
    EventNameEnds(event);
    ClassifyCsvRow(lead, time, value, unit, EventName(event), tail, trail);
  }

  /** `float()` rejects perf's `<not counted>` once its blank is dropped. */
  lemma NotCountedRejected()
    ensures ',' !in NotCounted
    ensures ParseDecimal(RemoveChar(NotCounted, ' ')) == None
  {
    var t := "<notcounted>";
    NotCountedDropsBlank();
    assert |t| > 0 && t[0] == '<' && t[|t| - 1] == '>';
    RejectsNonNumeral(t);
  }

  lemma NotCountedDropsBlank()
    ensures RemoveChar(NotCounted, ' ') == "<notcounted>"
  {
    assert NotCounted == "<not" + [' '] + "counted>";
    RemoveOne("<not", "counted>", ' ');
  }

  /** A row perf could not count, `<not counted>` in its value field, reads
      as a 0.0 reading of its event, and so still ends the interval. */
  lemma ReadsNotCountedRow(lead: string, time: string, unit: string, event: PerfEvent, tail: string, trail: string)
    requires AllSpace(lead) && AllSpace(trail)
    requires |time| > 0 && !IsSpace(time[0]) && time[0] != '#' && ',' !in time
    requires ',' !in unit
    requires tail == "" || (tail[0] == ',' && !IsSpace(tail[|tail| - 1]))
    ensures ClassifyPerf(lead + CsvRow(time, NotCounted, unit, EventName(event), tail) + trail) == Reading(event, 0.0)
  {
    NotCountedRejected();
    ReadsRejectedValue(lead, time, NotCounted, unit, event, tail, trail);
  }

  /** A row naming any other event is skipped, whatever its value. */
  lemma OtherEventIgnored(lead: string, time: string, value: string, unit: string, name: string, tail: string, trail: string)
    requires AllSpace(lead) && AllSpace(trail)
    requires |time| > 0 && !IsSpace(time[0]) && time[0] != '#' && ',' !in time
    requires ',' !in value && ',' !in unit && ',' !in name
    requires name != EventName(Instructions) && name != EventName(LlcMisses)
    requires tail == "" || tail[0] == ','
    requires tail == "" ==> |name| > 0 && !IsSpace(name[|name| - 1])
    requires tail != "" ==> !IsSpace(tail[|tail| - 1])
    ensures ClassifyPerf(lead + CsvRow(time, value, unit, name, tail) + trail) == Ignored
  {
    ClassifyCsvRow(lead, time, value, unit, name, tail, trail);
  }

  /** A comment line, `#` first after any indentation, is skipped. */
  lemma CommentLineIgnored(lead: string, rest: string, trail: string)
    requires AllSpace(lead) && AllSpace(trail)
    requires rest == "" || !IsSpace(rest[|rest| - 1])
    ensures ClassifyPerf(lead + "#" + rest + trail) == Ignored
  {
    var x := "#" + rest;
    assert x[|x| - 1] != ' ' && !IsSpace(x[|x| - 1]) by {
      if rest != "" {
        assert x[|x| - 1] == rest[|rest| - 1];
      }
    }
    assert lead + "#" + rest + trail == lead + x + trail;
    StripSurrounded(lead, x, trail);
    SplitPrefix("#", rest, ',');
    var first := Split(x, ',')[0];
    assert first == "#" + Split(rest, ',')[0];
    assert StartsWith(first, "#");
  }

  /** A line with fewer than three commas, a blank line among them, has
      fewer than four fields and is skipped. */
  lemma FewFieldsIgnored(line: string)
    requires multiset(line)[','] < 3
    ensures ClassifyPerf(line) == Ignored
  {
    var t := Strip(line);
    var i, j :| 0 <= i <= j <= |line| && t == line[i..j];
    SliceCount(line, i, j, ',');
    SplitCount(t, ',');
  }

  /** The count field loses no blanks and reads back as the count. */
  lemma ReadsNumeral(count: nat)
    ensures ParseDecimal(RemoveChar(NatToString(count), ' ')) == Some(count as real)
  {
    var n := NatToString(count);
    assert ' ' !in n by {
      forall i | 0 <= i < |n| ensures n[i] != ' ' {
        assert IsDigit(n[i]);
      }
    }
    RemoveAbsent(n, ' ');
    ParseDecimalNatToString(count);
  }

  // ---------------------------------------------------------------------
  // Reference definitions over a stretch of lines
  // ---------------------------------------------------------------------

  predicate IsReadingOf(x: PerfLine, event: PerfEvent) {
    x.Reading? && x.event == event
  }

  function ReadingCount(seg: seq<PerfLine>): nat
  {
    if |seg| == 0 then 0 else (if seg[0].Reading? then 1 else 0) + ReadingCount(seg[1..])
  }

  /** The value of the last row of `seg` for `event`, if any: a repeated
      event overwrites the earlier value. */
  function LastReading(seg: seq<PerfLine>, event: PerfEvent): Option<real>
  {
    if |seg| == 0 then None
    else if IsReadingOf(seg[|seg| - 1], event) then Some(seg[|seg| - 1].value)
    else LastReading(seg[..|seg| - 1], event)
  }

  /** `current` after the rows of `seg` have been applied to it. */
  function Overwrite(current: Option<real>, seg: seq<PerfLine>, event: PerfEvent): Option<real>
  {
    if LastReading(seg, event).Some? then LastReading(seg, event) else current
  }

  lemma {:induction false} LastReadingCons(x: PerfLine, rest: seq<PerfLine>, event: PerfEvent)
    ensures LastReading([x] + rest, event) ==
      if LastReading(rest, event).Some? then LastReading(rest, event)
      else if IsReadingOf(x, event) then Some(x.value)
      else None
    decreases |rest|
  {
    var s := [x] + rest;
    if |rest| > 0 {
      assert s[|s| - 1] == rest[|rest| - 1];
      assert s[..|s| - 1] == [x] + rest[..|rest| - 1];
      LastReadingCons(x, rest[..|rest| - 1], event);
    } else {
      assert s == [x];
      assert s[..0] == [];
    }
  }

  // ---------------------------------------------------------------------
  // One interval
  // ---------------------------------------------------------------------

  datatype PerfBlock = PerfBlock(inst: Option<real>, llc: Option<real>, next: nat)

  /** The inner `while got < 2` loop over the classified lines, entered at
      line `pos` with `got` counted rows and the values seen so far. */
  function ScanPerf(infos: seq<PerfLine>, pos: nat, got: nat, inst: Option<real>, llc: Option<real>)
    : (b: PerfBlock)
    requires pos <= |infos| && got <= RowsPerInterval
    ensures pos <= b.next <= |infos|
    decreases |infos| - pos
  {
    if got == RowsPerInterval || pos == |infos| then PerfBlock(inst, llc, pos)
    else
      var x := infos[pos];
      if x.Ignored? then ScanPerf(infos, pos + 1, got, inst, llc)
      else if x.event == Instructions then ScanPerf(infos, pos + 1, got + 1, Some(x.value), llc)
      else ScanPerf(infos, pos + 1, got + 1, inst, Some(x.value))
  }

  /** The count and values after one row the scan consumes. */
  function NextValues(x: PerfLine, got: nat, inst: Option<real>, llc: Option<real>): (nat, Option<real>, Option<real>)
  {
    if x.Ignored? then (got, inst, llc)
    else if x.event == Instructions then (got + 1, Some(x.value), llc)
    else (got + 1, inst, Some(x.value))
  }

  /** The reading count of a stretch: its first row, then the rest. */
  lemma ReadingCountCons(infos: seq<PerfLine>, pos: nat, next: nat)
    requires pos < next <= |infos|
    ensures ReadingCount(infos[pos..next])
      == (if infos[pos].Reading? then 1 else 0) + ReadingCount(infos[pos + 1..next])
    ensures next == pos + 1 ==> ReadingCount(infos[pos + 1..next]) == 0
  {
    assert infos[pos..next][1..] == infos[pos + 1..next];
  }

  /** The scan keeps, per event, the last value among the rows it
      consumed; an event it did not see keeps the value it came in with. */
  lemma {:induction false} ScanPerfValues(infos: seq<PerfLine>, pos: nat, got: nat, inst: Option<real>, llc: Option<real>)
    requires pos <= |infos| && got <= RowsPerInterval
    ensures var b := ScanPerf(infos, pos, got, inst, llc);
      var seg := infos[pos..b.next];
      && b.inst == Overwrite(inst, seg, Instructions)
      && b.llc == Overwrite(llc, seg, LlcMisses)
    decreases |infos| - pos
  {
    var b := ScanPerf(infos, pos, got, inst, llc);
    if got == RowsPerInterval || pos == |infos| {
      assert infos[pos..pos] == [];
    } else {
      var x := infos[pos];
      var (g, i, l) := NextValues(x, got, inst, llc);
      ScanPerfValues(infos, pos + 1, g, i, l);
      OverwriteCons(infos, pos, b.next, inst, Instructions);
      OverwriteCons(infos, pos, b.next, llc, LlcMisses);
    }
  }

  /** Overwriting with a stretch: its first row, then the rest. */
  lemma OverwriteCons(infos: seq<PerfLine>, pos: nat, next: nat, current: Option<real>, event: PerfEvent)
    requires pos < next <= |infos|
    ensures var x := infos[pos];
      Overwrite(current, infos[pos..next], event)
      == Overwrite(if IsReadingOf(x, event) then Some(x.value) else current, infos[pos + 1..next], event)
  {
    var rest := infos[pos + 1..next];
    assert infos[pos..next] == [infos[pos]] + rest;
    LastReadingCons(infos[pos], rest, event);
  }

  /** The scan stops right after the row that completes the quota, or at
      the end of the stream with the quota still open. */
  lemma {:induction false} ScanPerfStops(infos: seq<PerfLine>, pos: nat, got: nat, inst: Option<real>, llc: Option<real>)
    requires pos <= |infos| && got <= RowsPerInterval
    ensures var b := ScanPerf(infos, pos, got, inst, llc);
      var n := got + ReadingCount(infos[pos..b.next]);
      && n <= RowsPerInterval
      && (n == RowsPerInterval || b.next == |infos|)
      && ((b.next > pos && got < RowsPerInterval && n == RowsPerInterval) ==> infos[b.next - 1].Reading?)
    decreases |infos| - pos
  {
    var b := ScanPerf(infos, pos, got, inst, llc);
    if got == RowsPerInterval || pos == |infos| {
      assert infos[pos..pos] == [];
    } else {
      var x := infos[pos];
      var (g, i, l) := NextValues(x, got, inst, llc);
      ScanPerfStops(infos, pos + 1, g, i, l);
      ReadingCountCons(infos, pos, b.next);
    }
  }

  /** Per second: the count over the interval length, a missing event
      counting as 0. */
  function Rate(count: Option<real>, interval: real): real
    requires interval != 0.0
  {
    count.GetOr(0.0) / interval
  }

  /** Rate times interval gives back the count, and a non-negative count
      over a positive interval gives a non-negative rate. */
  lemma RateScales(count: Option<real>, interval: real)
    requires interval != 0.0
    ensures Rate(count, interval) * interval == count.GetOr(0.0)
    ensures interval > 0.0 && count.GetOr(0.0) >= 0.0 ==> Rate(count, interval) >= 0.0
  {
  }

  /** An interval whose first two rows are an instructions row and an
      LLC-misses row reads exactly those two counts and stops after them. */
  lemma TwoRowInterval(infos: seq<PerfLine>, a: real, b: real)
    requires |infos| >= 2 && infos[0] == Reading(Instructions, a) && infos[1] == Reading(LlcMisses, b)
    ensures IntervalCounts(infos, 0) == PerfBlock(Some(a), Some(b), 2)
  {
    assert ScanPerf(infos, 2, 2, Some(a), Some(b)) == PerfBlock(Some(a), Some(b), 2);
    assert ScanPerf(infos, 1, 1, Some(a), None) == ScanPerf(infos, 2, 2, Some(a), Some(b));
  }

  /** The worked example of one interval: 2000000 instructions and 500
      LLC misses over 0.5 s are 4000000 instructions and 1000 misses per
      second. */
  lemma TaggedFieldExample(time: string, unit: string, tail: string)
    requires |time| > 0 && !IsSpace(time[0]) && time[0] != '#' && ',' !in time
    requires ',' !in unit
    requires tail == "" || (tail[0] == ',' && !IsSpace(tail[|tail| - 1]))
    ensures var infos := ClassifyAll([PerfRow(time, 2000000, unit, Instructions, tail),
                                      PerfRow(time, 500, unit, LlcMisses, tail)]);
      && Rate(IntervalCounts(infos, 0).inst, 0.5) == 4000000.0
      && Rate(IntervalCounts(infos, 0).llc, 0.5) == 1000.0
  {
    var infos := ClassifyAll([PerfRow(time, 2000000, unit, Instructions, tail),
                              PerfRow(time, 500, unit, LlcMisses, tail)]);
    ExampleRows(time, unit, tail);
    ExampleRates(infos);
  }

  lemma ExampleRates(infos: seq<PerfLine>)
    requires infos == [Reading(Instructions, 2000000.0), Reading(LlcMisses, 500.0)]
    ensures Rate(IntervalCounts(infos, 0).inst, 0.5) == 4000000.0
    ensures Rate(IntervalCounts(infos, 0).llc, 0.5) == 1000.0
  {
    TwoRowInterval(infos, 2000000.0, 500.0);
  }

  /** The two rows of the example classify as their counts. */
  lemma ExampleRows(time: string, unit: string, tail: string)
    requires |time| > 0 && !IsSpace(time[0]) && time[0] != '#' && ',' !in time
    requires ',' !in unit
    requires tail == "" || (tail[0] == ',' && !IsSpace(tail[|tail| - 1]))
    ensures ClassifyAll([PerfRow(time, 2000000, unit, Instructions, tail), PerfRow(time, 500, unit, LlcMisses, tail)])
      == [Reading(Instructions, 2000000.0), Reading(LlcMisses, 500.0)]
  {
    ReadsBareRow(time, 2000000, unit, Instructions, tail);
    ReadsBareRow(time, 500, unit, LlcMisses, tail);
    ClassifyTwo(PerfRow(time, 2000000, unit, Instructions, tail), PerfRow(time, 500, unit, LlcMisses, tail));
  }

  /** A row with nothing around it. */
  lemma ReadsBareRow(time: string, count: nat, unit: string, event: PerfEvent, tail: string)
    requires |time| > 0 && !IsSpace(time[0]) && time[0] != '#' && ',' !in time
    requires ',' !in unit
    requires tail == "" || (tail[0] == ',' && !IsSpace(tail[|tail| - 1]))
    ensures ClassifyPerf(PerfRow(time, count, unit, event, tail)) == Reading(event, count as real)
  {
    var row := PerfRow(time, count, unit, event, tail);
    ReadsPerfRow("", time, count, unit, event, tail, "");
    assert "" + row + "" == row;
  }

  lemma ClassifyTwo(a: string, b: string)
    ensures ClassifyAll([a, b]) == [ClassifyPerf(a), ClassifyPerf(b)]
  {
  }

  // ---------------------------------------------------------------------
  // The sampling loop
  // ---------------------------------------------------------------------

  /** `interval` of 0 makes the first division raise ZeroDivisionError. */
  datatype PerfError = ZeroInterval

  /** Where the `k`-th interval starts reading. */
  function IntervalStart(infos: seq<PerfLine>, k: nat): (pos: nat)
    ensures pos <= |infos|
  {
    if k == 0 then 0 else ScanPerf(infos, IntervalStart(infos, k - 1), 0, None, None).next
  }

  /** The counts the `k`-th interval reads. */
  function IntervalCounts(infos: seq<PerfLine>, k: nat): PerfBlock
  {
    ScanPerf(infos, IntervalStart(infos, k), 0, None, None)
  }

  /** The sampling loop over already classified rows. */
  method MonitorClassified(infos: seq<PerfLine>, times: seq<real>, interval: real)
    returns (ips: seq<Sample<real>>, llc: seq<Sample<real>>)
    requires |times| > 0 ==> interval != 0.0
    ensures |ips| == |times| && |llc| == |times|
    ensures forall i :: 0 <= i < |times| ==>
      && ips[i] == Sample(times[i], Rate(IntervalCounts(infos, i).inst, interval))
      && llc[i] == Sample(times[i], Rate(IntervalCounts(infos, i).llc, interval))
  {
    ips, llc := [], [];
    var pos := 0;
    var i := 0;
    while i < |times|
      invariant 0 <= i <= |times|
      invariant pos == IntervalStart(infos, i)
      invariant |ips| == i && |llc| == i
      invariant forall k :: 0 <= k < i ==>
        && ips[k] == Sample(times[k], Rate(IntervalCounts(infos, k).inst, interval))
        && llc[k] == Sample(times[k], Rate(IntervalCounts(infos, k).llc, interval))
    {
      var b := ScanPerf(infos, pos, 0, None, None);
      assert IntervalStart(infos, i + 1) == b.next;
      assert IntervalCounts(infos, i) == b;
      ips := ips + [Sample(times[i], Rate(b.inst, interval))];
      llc := llc + [Sample(times[i], Rate(b.llc, interval))];
      pos := b.next;
      i := i + 1;
    }
  }

  /** `monitor_ips_and_llc`: one interval per element of `times`, each
      appending one entry to both lists with the same elapsed time and the
      interval's counts divided by its length. */
  method MonitorIpsLlc(lines: seq<string>, times: seq<real>, interval: real)
    returns (r: Result<(seq<Sample<real>>, seq<Sample<real>>), PerfError>)
    ensures r.Err? <==> interval == 0.0 && |times| > 0
    ensures r.Ok? ==>
      var (ips, llc) := r.value;
      && |ips| == |times| && |llc| == |times|
      && forall i :: 0 <= i < |times| ==>
           && interval != 0.0
           && ips[i] == Sample(times[i], Rate(IntervalCounts(ClassifyAll(lines), i).inst, interval))
           && llc[i] == Sample(times[i], Rate(IntervalCounts(ClassifyAll(lines), i).llc, interval))
  {
    if interval == 0.0 && |times| > 0 {
      return Err(ZeroInterval);
    }
    var ips, llc := MonitorClassified(ClassifyAll(lines), times, interval);
    r := Ok((ips, llc));
  }

  // ---------------------------------------------------------------------
  // Output
  // ---------------------------------------------------------------------

  function IpsLlcHeader(): Row {
    HeaderRow(["Time (s)", "IPS", "LLC Misses"])
  }

  /** `write_ips_llc_csv`: the header, then `min(len ips, len llc)` rows,
      row i being `[ips[i] time, ips[i] value, llc[i] value]`. */
  function WriteIpsLlcCsv(ips: seq<Sample<real>>, llc: seq<Sample<real>>): (rows: seq<Row>)
    ensures |rows| == 1 + Min(|ips|, |llc|) && rows[0] == IpsLlcHeader()
    ensures forall i :: 0 <= i < Min(|ips|, |llc|) ==>
      rows[i + 1] == [Num(ips[i].time), Num(ips[i].value), Num(llc[i].value)]
  {
    [IpsLlcHeader()] + AlignRows(NumSeries(ips), NumSeries(llc))
  }

  /** The two lists the monitor fills are equally long, so the writer's
      truncation never drops one of their samples: every sample of both
      lists has its row. */
  lemma MonitorOutputFullyWritten(ips: seq<Sample<real>>, llc: seq<Sample<real>>)
    requires |ips| == |llc|
    ensures var rows := WriteIpsLlcCsv(ips, llc);
      && |rows| == |ips| + 1
      && forall i :: 0 <= i < |ips| ==> rows[i + 1] == [Num(ips[i].time), Num(ips[i].value), Num(llc[i].value)]
  {
  }
}

=== FILE: series.dfy ===
/** Sample series as the monitors collect them, CSV rows as the writers
    emit them, and the positional alignment shared by the writers: truncate
    to the shorter series and pair samples by index, never by timestamp. */
module Series {

  /** One `[elapsed_time, value]` entry of a monitor's list. */
  datatype Sample<V> = Sample(time: real, value: V)

  /** One CSV field: a number, or text written as is. */
  datatype Cell = Num(x: real) | Str(s: string)

  type Row = seq<Cell>

  function Min(a: int, b: int): int {
    if a <= b then a else b
  }

  function HeaderRow(names: seq<string>): (r: Row)
    ensures |r| == |names|
    ensures forall i :: 0 <= i < |r| ==> r[i] == Str(names[i])
  {
    seq(|names|, i requires 0 <= i < |names| => Str(names[i]))
  }

  function NumSeries(s: seq<Sample<real>>): (r: seq<Sample<Cell>>)
    ensures |r| == |s|
    ensures forall i :: 0 <= i < |s| ==> r[i] == Sample(s[i].time, Num(s[i].value))
  {
    seq(|s|, i requires 0 <= i < |s| => Sample(s[i].time, Num(s[i].value)))
  }

  function StrSeries(s: seq<Sample<string>>): (r: seq<Sample<Cell>>)
    ensures |r| == |s|
    ensures forall i :: 0 <= i < |s| ==> r[i] == Sample(s[i].time, Str(s[i].value))
  {
    seq(|s|, i requires 0 <= i < |s| => Sample(s[i].time, Str(s[i].value)))
  }

  /** `[time, value]` for every sample, in order. */
  function TimeValueRows(s: seq<Sample<Cell>>): (rows: seq<Row>)
    ensures |rows| == |s|
  {
    seq(|s|, i requires 0 <= i < |s| => [Num(s[i].time), s[i].value])
  }

  /** Row i is `[a[i].time, a[i].value, b[i].value]`, for as many rows as
      the shorter series has samples. */
  function AlignRows(a: seq<Sample<Cell>>, b: seq<Sample<Cell>>): (rows: seq<Row>)
    ensures |rows| == Min(|a|, |b|)
  {
    seq(Min(|a|, |b|), i requires 0 <= i < Min(|a|, |b|) => [Num(a[i].time), a[i].value, b[i].value])
  }

  /** Only the common prefix is ever looked at: samples past the shorter
      series' end are dropped. */
  lemma AlignRowsTruncates(a: seq<Sample<Cell>>, b: seq<Sample<Cell>>)
    ensures var n := Min(|a|, |b|);
      AlignRows(a, b) == AlignRows(a[..n], b[..n])
  {
  }

  /** Samples that arrive later only add rows at the end: the rows already
      written for the earlier samples are unchanged. */
  lemma AlignRowsExtends(a: seq<Sample<Cell>>, b: seq<Sample<Cell>>, a': seq<Sample<Cell>>, b': seq<Sample<Cell>>)
    ensures var rows, more := AlignRows(a, b), AlignRows(a + a', b + b');
      |rows| <= |more| && more[..|rows|] == rows
  {
  }
}

=== FILE: socketpower.dfy ===
/** `read_cpu_power_amd.py`: the two socket powers read from the table that
    `e_smi_tool --showsockpower` prints, their sum sampled once per
    interval, the running energy integral, and the two output modes. */
module SocketPower {
  import opened Wrappers
  import opened Text
  import opened Series

  /** The label of the table row that carries the socket powers. */
  const PowerLabel: string := "Power (Watts)"

  /** `[power_socket_0, power_socket_1]`. */
  datatype Readout = Readout(socket0: real, socket1: real)

  /** `[0, 0]`, what every failure falls back to. */
  const NoReadout: Readout := Readout(0.0, 0.0)

  /** `sum(power_values)`. */
  function Total(r: Readout): real {
    r.socket0 + r.socket1
  }

  // ---------------------------------------------------------------------
  // read_socket_power
  // ---------------------------------------------------------------------

  /** The labelled row split on '|': fields 2 and 3 through strip() and
      float(). None where the source raises: fewer than four fields, or a
      field float() rejects. */
  function ParseRow(line: string): Option<Readout>
  {
    var parts := Split(line, '|');
    if |parts| < 4 then None
    else
      var p0 := ParseDecimal(Strip(parts[2]));
      var p1 := ParseDecimal(Strip(parts[3]));
      if p0.Some? && p1.Some? then Some(Readout(p0.value, p1.value)) else None
  }

  /** `read_socket_power`, given the command's stdout as lines, or None
      when the command could not be started. A command that exits with an
      error still has its stdout parsed. Every exception ends in `[0, 0]`. */
  function ReadSocketPower(stdout: Option<seq<string>>): (r: Readout)
    ensures stdout.None? ==> r == NoReadout
    ensures stdout.Some? && FirstContaining(stdout.value, PowerLabel).None? ==> r == NoReadout
  {
    if stdout.None? then NoReadout
    else
      match FirstContaining(stdout.value, PowerLabel)
      case None => NoReadout
      case Some(k) => ParseRow(stdout.value[k]).GetOr(NoReadout)
  }

  /** Only the first labelled row is read: unlabelled lines before it and
      any lines after it, labelled or not, make no difference. */
  lemma FirstLabelledRowDecides(pre: seq<string>, row: string, post: seq<string>)
    requires forall j :: 0 <= j < |pre| ==> !Contains(pre[j], PowerLabel)
    requires Contains(row, PowerLabel)
    ensures ReadSocketPower(Some(pre + [row] + post)) == ParseRow(row).GetOr(NoReadout)
  {
    FirstContainingAt(pre, row, post, PowerLabel);
  }

  /** Output without a labelled row reads as `[0, 0]`. */
  lemma NoLabelledRowReadsZero(lines: seq<string>)
    requires forall j :: 0 <= j < |lines| ==> !Contains(lines[j], PowerLabel)
    ensures ReadSocketPower(Some(lines)) == NoReadout
  {
  }

  /** A labelled row with too few fields reads as `[0, 0]`. */
  lemma ShortRowReadsZero(row: string)
    requires |Split(row, '|')| < 4
    ensures ParseRow(row).GetOr(NoReadout) == NoReadout
  {
  }

  /** A row with whole-number powers and one blank on each side of every
      cell, `| Power (Watts) | a | b |`. */
  function RenderRow(a: nat, b: nat): string {
    "|" + Pad(PowerLabel) + "|" + Pad(NatToString(a)) + "|" + Pad(NatToString(b)) + "|"
  }

  /** A table cell: the text with one blank on each side. */
  function Pad(x: string): string {
    " " + x + " "
  }

  /** Splitting `|x|y|z|` on '|' gives back the three fields, with an empty
      piece at each end. */
  lemma SplitFields(x: string, y: string, z: string)
    requires '|' !in x && '|' !in y && '|' !in z
    ensures Split("|" + x + "|" + y + "|" + z + "|", '|') == ["", x, y, z, ""]
  {
    var fields := ["", x, y, z, ""];
    assert Join(fields[4..], '|') == "";
    assert Join(fields[3..], '|') == z + "|";
    assert Join(fields[2..], '|') == y + "|" + z + "|";
    assert Join(fields[1..], '|') == x + "|" + y + "|" + z + "|";
    assert Join(fields, '|') == "|" + x + "|" + y + "|" + z + "|";
    SplitJoin(fields, '|');
  }

  /** A numeral padded by one blank on each side reads back as its value. */
  lemma ReadPaddedNumeral(n: nat)
    ensures '|' !in Pad(NatToString(n))
    ensures ParseDecimal(Strip(Pad(NatToString(n)))) == Some(n as real)
  {
    var s := NatToString(n);
    assert '|' !in Pad(s) by {
      forall c | c in s ensures c != '|' {
        var i :| 0 <= i < |s| && s[i] == c;
        assert IsDigit(c);
      }
    }
    assert Strip(Pad(s)) == s by {
      assert !IsSpace(s[0]) && !IsSpace(s[|s| - 1]);
      StripPadded(s);
    }
    ParseDecimalNatToString(n);
  }

  /** A row of three cells whose last two read as numbers parses to them. */
  lemma ParseThreeCells(x: string, y: string, z: string, a: real, b: real)
    requires '|' !in x && '|' !in y && '|' !in z
    requires ParseDecimal(Strip(y)) == Some(a) && ParseDecimal(Strip(z)) == Some(b)
    ensures ParseRow("|" + x + "|" + y + "|" + z + "|") == Some(Readout(a, b))
  {
    SplitFields(x, y, z);
  }

  /** The label cell holds no field separator. */
  lemma LabelCellHasNoBar()
    ensures '|' !in Pad(PowerLabel)
  {
    assert forall i :: 0 <= i < |PowerLabel| ==> PowerLabel[i] != '|';
    NoBarInPad(PowerLabel);
  }

  lemma NoBarInPad(x: string)
    requires '|' !in x
    ensures '|' !in Pad(x)
  {
  }

  /** The parser reads back the two whole-number values of such a row;
      `ParseDecimalRow` covers decimals and any padding. */
  lemma ParseRenderedRow(a: nat, b: nat)
    ensures ParseRow(RenderRow(a, b)) == Some(Readout(a as real, b as real))
  {
    assert '|' !in Pad(NatToString(a)) && ParseDecimal(Strip(Pad(NatToString(a)))) == Some(a as real) by {
      ReadPaddedNumeral(a);
    }
    assert '|' !in Pad(NatToString(b)) && ParseDecimal(Strip(Pad(NatToString(b)))) == Some(b as real) by {
      ReadPaddedNumeral(b);
    }
    LabelCellHasNoBar();
    ParseThreeCells(Pad(PowerLabel), Pad(NatToString(a)), Pad(NatToString(b)), a as real, b as real);
  }

  /** A table cell holding the decimal numeral `whole.frac` with any run
      of blanks on either side. */
  function DecimalCell(lead: string, whole: string, frac: string, trail: string): string {
    lead + whole + "." + frac + trail
  }

  /** Whatever the padding, a decimal cell reads back as the value its
      digits spell out. */
  lemma ReadDecimalCell(lead: string, whole: string, frac: string, trail: string)
    requires AllSpace(lead) && AllSpace(trail)
    requires |whole| > 0 && AllDigits(whole) && |frac| > 0 && AllDigits(frac)
    ensures '|' !in DecimalCell(lead, whole, frac, trail)
    ensures ParseDecimal(Strip(DecimalCell(lead, whole, frac, trail))) == Some(DecimalValue(whole, frac))
  {
    var x := whole + "." + frac;
    var cell := DecimalCell(lead, whole, frac, trail);
    assert cell == lead + x + trail;
    assert '|' !in cell by {
      forall i | 0 <= i < |cell| ensures cell[i] != '|' {
        if i < |lead| {
          assert IsSpace(lead[i]);
        } else if i < |lead| + |whole| {
          assert IsDigit(whole[i - |lead|]);
        } else if i == |lead| + |whole| {
        } else if i < |lead| + |x| {
          assert cell[i] == frac[i - |lead| - |whole| - 1];
          assert IsDigit(frac[i - |lead| - |whole| - 1]);
        } else {
          assert IsSpace(trail[i - |lead| - |x|]);
        }
      }
    }
    assert x[0] == whole[0] && x[|x| - 1] == frac[|frac| - 1];
    StripSurrounded(lead, x, trail);
    ParseDecimalFraction(whole, frac);
  }

  /** The label cell with any run of blanks on either side. */
  function LabelCell(lead: string, trail: string): string {
    lead + PowerLabel + trail
  }

  /** A blank-padded label cell holds no field separator. */
  lemma LabelCellWithBlanks(lead: string, trail: string)
    requires AllSpace(lead) && AllSpace(trail)
    ensures '|' !in LabelCell(lead, trail)
  {
    var cell := lead + PowerLabel + trail;
    forall i | 0 <= i < |cell| ensures cell[i] != '|' {
      if i < |lead| {
        assert IsSpace(lead[i]);
      } else if i >= |lead| + |PowerLabel| {
        assert IsSpace(trail[i - |lead| - |PowerLabel|]);
      }
    }
  }

  /** The parser reads back a printed row whose powers carry decimals and
      whose cells carry any padding of blanks. */
  lemma ParseDecimalRow(ll: string, lr: string,
                        la: string, wa: string, fa: string, ra: string,
                        lb: string, wb: string, fb: string, rb: string)
    requires AllSpace(ll) && AllSpace(lr)
    requires AllSpace(la) && AllSpace(ra) && |wa| > 0 && AllDigits(wa) && |fa| > 0 && AllDigits(fa)
    requires AllSpace(lb) && AllSpace(rb) && |wb| > 0 && AllDigits(wb) && |fb| > 0 && AllDigits(fb)
    ensures ParseRow("|" + LabelCell(ll, lr) + "|" + DecimalCell(la, wa, fa, ra) + "|"
                     + DecimalCell(lb, wb, fb, rb) + "|")
         == Some(Readout(DecimalValue(wa, fa), DecimalValue(wb, fb)))
  {
    var x := LabelCell(ll, lr);
    var y := DecimalCell(la, wa, fa, ra);
    var z := DecimalCell(lb, wb, fb, rb);
    assert '|' !in x by { LabelCellWithBlanks(ll, lr); }
    assert '|' !in y && ParseDecimal(Strip(y)) == Some(DecimalValue(wa, fa)) by {
      ReadDecimalCell(la, wa, fa, ra);
    }
    assert '|' !in z && ParseDecimal(Strip(z)) == Some(DecimalValue(wb, fb)) by {
      ReadDecimalCell(lb, wb, fb, rb);
    }
    ParseThreeCells(x, y, z, DecimalValue(wa, fa), DecimalValue(wb, fb));
  }

  // ---------------------------------------------------------------------
  // monitor_power
  // ---------------------------------------------------------------------

  /** One pass of the loop: the elapsed time and what the tool printed. */
  datatype Tick = Tick(elapsed: real, stdout: Option<seq<string>>)

  /** The sum of the recorded powers. */
  function PowerSum(data: seq<Sample<real>>): real
  {
    if |data| == 0 then 0.0 else PowerSum(data[..|data| - 1]) + data[|data| - 1].value
  }

  /** The energy integral grows by `power * interval` per sample, which
      keeps it at `interval` times the power sum. */
  lemma EnergyStep(data: seq<Sample<real>>, s: Sample<real>, energy: real, interval: real)
    requires energy == interval * PowerSum(data)
    ensures energy + s.value * interval == interval * PowerSum(data + [s])
  {
    assert (data + [s])[..|data|] == data;
    assert interval * (PowerSum(data) + s.value) == interval * PowerSum(data) + interval * s.value;
  }

  /** The energy integral as the loop accumulates it, one `power *
      interval` per sample. */
  method Integrate(data: seq<Sample<real>>, interval: real) returns (energy: real)
    ensures energy == interval * PowerSum(data)
  {
    energy := 0.0;
    var i := 0;
    while i < |data|
      invariant 0 <= i <= |data|
      invariant energy == interval * PowerSum(data[..i])
    {
      assert data[..i + 1] == data[..i] + [data[i]];
      EnergyStep(data[..i], data[i], energy, interval);
      energy := energy + data[i].value * interval;
      i := i + 1;
    }
    assert data[..i] == data;
  }

  /** The sample one pass of the loop records. */
  function TickSample(t: Tick): Sample<real> {
    Sample(t.elapsed, Total(ReadSocketPower(t.stdout)))
  }

  function TickSamples(ticks: seq<Tick>): (data: seq<Sample<real>>)
    ensures |data| == |ticks|
    ensures forall i :: 0 <= i < |ticks| ==> data[i] == TickSample(ticks[i])
  {
    seq(|ticks|, i requires 0 <= i < |ticks| => TickSample(ticks[i]))
  }

  /** `monitor_power`'s loop: one sample per tick, holding the elapsed time
      and the sum of both sockets, and the energy `interval` times the sum
      of the recorded powers. */
  method MonitorPower(ticks: seq<Tick>, interval: real) returns (data: seq<Sample<real>>, energy: real)
    ensures |data| == |ticks|
    ensures forall i :: 0 <= i < |ticks| ==> data[i] == TickSample(ticks[i])
    ensures energy == interval * PowerSum(data)
  {
    data := TickSamples(ticks);
    energy := Integrate(data, interval);
  }

  /** Non-negative powers over a non-negative interval give non-negative
      energy. */
  lemma {:induction false} PowerSumNonNegative(data: seq<Sample<real>>)
    requires forall i :: 0 <= i < |data| ==> data[i].value >= 0.0
    ensures PowerSum(data) >= 0.0
    decreases |data|
  {
    if |data| > 0 {
      PowerSumNonNegative(data[..|data| - 1]);
    }
  }

  // ---------------------------------------------------------------------
  // round(total_energy, 2)
  // ---------------------------------------------------------------------

  /** `x * 100` rounded to the nearest integer, ties to the even one. */
  function Cents(x: real): (n: int)
    ensures -0.5 <= n as real - x * 100.0 <= 0.5
    ensures (n as real - x * 100.0 == 0.5 || n as real - x * 100.0 == -0.5) ==> n % 2 == 0
  {
    var y := x * 100.0;
    var f := y.Floor;
    var frac := y - f as real;
    if frac < 0.5 then f
    else if frac > 0.5 then f + 1
    else if f % 2 == 0 then f
    else f + 1
  }

  /** `round(x, 2)`: the nearest multiple of 0.01, ties to even hundredths. */
  function RoundTo2(x: real): (r: real)
    ensures -0.005 <= r - x <= 0.005
  {
    Cents(x) as real / 100.0
  }

  /** The rounding is unique: any integer within half a hundredth of
      `x * 100`, and even on a tie, is the one `Cents` picks. */
  lemma CentsUnique(x: real, m: int)
    requires -0.5 <= m as real - x * 100.0 <= 0.5
    requires (m as real - x * 100.0 == 0.5 || m as real - x * 100.0 == -0.5) ==> m % 2 == 0
    ensures m == Cents(x)
  {
  }

  /** A value that already has two decimals is left alone. */
  lemma RoundTo2Exact(n: int)
    ensures RoundTo2(n as real / 100.0) == n as real / 100.0
  {
    CentsUnique(n as real / 100.0, n);
  }

  /** Rounding twice rounds once. */
  lemma RoundTo2Idempotent(x: real)
    ensures RoundTo2(RoundTo2(x)) == RoundTo2(x)
  {
    RoundTo2Exact(Cents(x));
  }

  // ---------------------------------------------------------------------
  // Output modes
  // ---------------------------------------------------------------------

  /** What one run does to the CSV file. */
  datatype CsvWrite = Append(rows: seq<Row>) | Overwrite(rows: seq<Row>)

  /** The file after the write. */
  function Apply(file: seq<Row>, w: CsvWrite): seq<Row> {
    match w
    case Append(rows) => file + rows
    case Overwrite(rows) => rows
  }

  function EnergyHeader(): Row {
    HeaderRow(["CPU_E (J)"])
  }

  function PowerHeader(): Row {
    HeaderRow(["Time (s)", "Package Power (W)"])
  }

  function EnergyRow(energy: real): Row {
    [Num(RoundTo2(energy))]
  }

  /** What avg mode appends: the header only into an empty file, then the
      rounded energy. */
  function EnergyLines(fileEmpty: bool, energy: real): seq<Row> {
    (if fileEmpty then [EnergyHeader()] else []) + [EnergyRow(energy)]
  }

  /** The end of `monitor_power`. With `avg`, the rounded energy is
      appended, after the one-column header when the file is empty;
      otherwise the file is replaced by the header and every sample. */
  function PowerOutput(avg: bool, fileEmpty: bool, data: seq<Sample<real>>, energy: real): (w: CsvWrite)
    ensures w.Append? <==> avg
    ensures avg ==> |w.rows| == (if fileEmpty then 2 else 1) && w.rows[|w.rows| - 1] == EnergyRow(energy)
    ensures !avg ==> |w.rows| == |data| + 1 && w.rows[0] == PowerHeader()
    ensures !avg ==> forall i :: 0 <= i < |data| ==> w.rows[i + 1] == [Num(data[i].time), Num(data[i].value)]
  {
    if avg then Append(EnergyLines(fileEmpty, energy))
    else Overwrite([PowerHeader()] + TimeValueRows(NumSeries(data)))
  }

  /** The file after one avg-mode run per energy value, each run seeing
      whether the file is still empty. */
  function AvgRuns(file: seq<Row>, energies: seq<real>): seq<Row>
    decreases |energies|
  {
    if |energies| == 0 then file
    else AvgRuns(file + EnergyLines(|file| == 0, energies[0]), energies[1..])
  }

  function EnergyRows(energies: seq<real>): (rows: seq<Row>)
    ensures |rows| == |energies|
    ensures forall i :: 0 <= i < |energies| ==> rows[i] == EnergyRow(energies[i])
  {
    seq(|energies|, i requires 0 <= i < |energies| => EnergyRow(energies[i]))
  }

  /** Repeated avg-mode runs on a file that already has content only add
      one row each, in order. */
  lemma {:induction false} AvgRunsAppend(file: seq<Row>, energies: seq<real>)
    requires |file| > 0
    ensures AvgRuns(file, energies) == file + EnergyRows(energies)
    decreases |energies|
  {
    if |energies| > 0 {
      var file' := file + [EnergyRow(energies[0])];
      assert file + EnergyLines(false, energies[0]) == file';
      AvgRunsAppend(file', energies[1..]);
      EnergyRowsCons(energies);
    }
  }

  /** Starting from an empty file, avg-mode runs leave the header exactly
      once, at the top, followed by one rounded energy per run. */
  lemma AvgRunsHeaderOnce(energies: seq<real>)
    requires |energies| > 0
    ensures AvgRuns([], energies) == [EnergyHeader()] + EnergyRows(energies)
  {
    FirstAvgRun(energies);
    AvgRunsAppend([EnergyHeader(), EnergyRow(energies[0])], energies[1..]);
    EnergyRowsCons(energies);
    PairThen(EnergyHeader(), EnergyRow(energies[0]), EnergyRows(energies[1..]));
  }

  lemma PairThen(h: Row, r: Row, rest: seq<Row>)
    ensures [h, r] + rest == [h] + ([r] + rest)
  {
  }

  /** The first run into an empty file writes the header and one row. */
  lemma FirstAvgRun(energies: seq<real>)
    requires |energies| > 0
    ensures AvgRuns([], energies) == AvgRuns([EnergyHeader(), EnergyRow(energies[0])], energies[1..])
  {
    assert [] + EnergyLines(true, energies[0]) == [EnergyHeader(), EnergyRow(energies[0])];
  }

  lemma EnergyRowsCons(energies: seq<real>)
    requires |energies| > 0
    ensures EnergyRows(energies) == [EnergyRow(energies[0])] + EnergyRows(energies[1..])
  {
  }

  /** Without avg, the file afterwards depends only on this run. */
  lemma OverwriteForgetsFile(file: seq<Row>, file': seq<Row>, fileEmpty: bool, data: seq<Sample<real>>, energy: real)
    ensures var w := PowerOutput(false, fileEmpty, data, energy);
      Apply(file, w) == Apply(file', w)
  {
  }
}

=== FILE: sorting.dfy ===
/** Python's `sorted(xs)` and `sorted(set(xs))` on integer lists. */
module Sorting {

  predicate Sorted(s: seq<int>) {
    forall i, j :: 0 <= i < j < |s| ==> s[i] <= s[j]
  }

  /** Sorted with no repeated element. */
  predicate StrictlySorted(s: seq<int>) {
    forall i, j :: 0 <= i < j < |s| ==> s[i] < s[j]
  }

  function Elems(s: seq<int>): set<int> {
    set x | x in s
  }

  /** Putting an element no larger than the head in front keeps a sequence
      sorted. */
  lemma ConsSorted(a: int, t: seq<int>)
    requires Sorted(t) && (|t| > 0 ==> a <= t[0])
    ensures Sorted([a] + t)
  {
    var r := [a] + t;
    forall i, j | 0 <= i < j < |r|
      ensures r[i] <= r[j]
    {
      if i == 0 {
        assert r[j] == t[j - 1];
      } else {
        assert r[i] == t[i - 1] && r[j] == t[j - 1];
      }
    }
  }

  /** The same for strict order. */
  lemma ConsStrictlySorted(a: int, t: seq<int>)
    requires StrictlySorted(t) && (|t| > 0 ==> a < t[0])
    ensures StrictlySorted([a] + t)
  {
    var r := [a] + t;
    forall i, j | 0 <= i < j < |r|
      ensures r[i] < r[j]
    {
      if i == 0 {
        assert r[j] == t[j - 1];
      } else {
        assert r[i] == t[i - 1] && r[j] == t[j - 1];
      }
    }
  }

  lemma ElemsCons(a: int, t: seq<int>)
    ensures Elems([a] + t) == {a} + Elems(t)
  {
    var r := [a] + t;
    forall y | y in Elems(t)
      ensures y in Elems(r)
    {
      var k :| 0 <= k < |t| && t[k] == y;
      assert r[k + 1] == y;
    }
  }

  /** Inserts `x` into a sorted sequence; the head is the smaller of `x`
      and the old head. */
  function Insert(x: int, s: seq<int>): (r: seq<int>)
    requires Sorted(s)
    ensures Sorted(r)
    ensures multiset(r) == multiset(s) + multiset{x}
    ensures |r| > 0 && r[0] == (if |s| == 0 || x <= s[0] then x else s[0])
  {
    if |s| == 0 then [x]
    else if x <= s[0] then
      ConsSorted(x, s);
      [x] + s
    else
      var t := Insert(x, s[1..]);
      assert s == [s[0]] + s[1..];
      ConsSorted(s[0], t);
      [s[0]] + t
  }

  /** Python's `sorted(xs)`: an ascending permutation of `xs`. */
  function Sort(s: seq<int>): (r: seq<int>)
    ensures Sorted(r)
    ensures multiset(r) == multiset(s)
  {
    if |s| == 0 then []
    else
      assert s == [s[0]] + s[1..];
      Insert(s[0], Sort(s[1..]))
  }

  /** Adds `x` to a strictly sorted sequence unless it is already there;
      the head is the smaller of `x` and the old head. */
  function InsertUnique(x: int, s: seq<int>): (r: seq<int>)
    requires StrictlySorted(s)
    ensures StrictlySorted(r)
    ensures Elems(r) == Elems(s) + {x}
    ensures |r| > 0 && r[0] == (if |s| == 0 || x <= s[0] then x else s[0])
  {
    if |s| == 0 then [x]
    else if x < s[0] then
      ElemsCons(x, s);
      ConsStrictlySorted(x, s);
      [x] + s
    else if x == s[0] then
      assert x in Elems(s);
      s
    else
      var t := InsertUnique(x, s[1..]);
      assert s == [s[0]] + s[1..];
      ElemsCons(s[0], s[1..]);
      ElemsCons(s[0], t);
      ConsStrictlySorted(s[0], t);
      [s[0]] + t
  }

  /** Python's `sorted(set(xs))`: the distinct elements of `xs`, ascending. */
  function SortedSet(s: seq<int>): (r: seq<int>)
    ensures StrictlySorted(r)
    ensures Elems(r) == Elems(s)
  {
    if |s| == 0 then []
    else
      assert s == [s[0]] + s[1..];
      InsertUnique(s[0], SortedSet(s[1..]))
  }

  lemma ElemsEmpty(s: seq<int>)
    ensures Elems(s) == {} <==> |s| == 0
  {
    if |s| > 0 {
      assert s[0] in Elems(s);
    }
  }

  /** A set has exactly one strictly ascending listing, so `SortedSet` is
      `sorted(set(xs))` however it was computed. */
  lemma {:induction false} StrictlySortedUnique(a: seq<int>, b: seq<int>)
    requires StrictlySorted(a) && StrictlySorted(b)
    requires Elems(a) == Elems(b)
    ensures a == b
  {
    ElemsEmpty(a);
    ElemsEmpty(b);
    if |a| > 0 && |b| > 0 {
      assert a[0] in Elems(b) && b[0] in Elems(a);
      assert a[0] == b[0];
      assert Elems(a[1..]) == Elems(a) - {a[0]} by {
        assert a == [a[0]] + a[1..];
      }
      assert Elems(b[1..]) == Elems(b) - {b[0]} by {
        assert b == [b[0]] + b[1..];
      }
      StrictlySortedUnique(a[1..], b[1..]);
      assert a == [a[0]] + a[1..] && b == [b[0]] + b[1..];
    }
  }

  /** The elements of `s` that are not in `drop`, in their original order. */
  function Without(s: seq<int>, drop: set<int>): (r: seq<int>)
    ensures Elems(r) == Elems(s) - drop
  {
    if |s| == 0 then []
    else
      assert s == [s[0]] + s[1..];
      assert Elems(s) == {s[0]} + Elems(s[1..]);
      var rest := Without(s[1..], drop);
      if s[0] in drop then rest
      else
        assert Elems([s[0]] + rest) == {s[0]} + Elems(rest);
        [s[0]] + rest
  }
}

=== FILE: text.dfy ===
/** String primitives the scripts rely on: Python's str.split, str.join,
    str.strip, substring tests, str() of an int, and the subset of int() and
    float() conversion that the parsed tool output can reach. Characters are
    ASCII-only here (see README, "Left out"). */
module Text {
  import opened Wrappers

  /** The ASCII characters Python's str.strip() and the regex class \s treat
      as whitespace: space and TAB, LF, VT, FF, CR. */
  predicate IsSpace(c: char) {
    c == ' ' || ('\t' <= c <= '\r')
  }

  predicate IsDigit(c: char) {
    '0' <= c <= '9'
  }

  predicate AllDigits(s: string) {
    forall i :: 0 <= i < |s| ==> IsDigit(s[i])
  }

  // ---------------------------------------------------------------------
  // str.split(sep) and sep.join(parts)
  // ---------------------------------------------------------------------

  /** Python's `s.split(sep)` for a one-character separator: the pieces
      between separators, in order, always at least one (possibly empty). */
  function Split(s: string, sep: char): (parts: seq<string>)
    ensures |parts| >= 1
    ensures forall i :: 0 <= i < |parts| ==> sep !in parts[i]
  {
    if |s| == 0 then [""]
    else
      var rest := Split(s[1..], sep);
      if s[0] == sep then [""] + rest
      else [[s[0]] + rest[0]] + rest[1..]
  }

  /** `str.split(sep)` gives one more piece than there are separators. */
  lemma {:induction false} SplitCount(s: string, sep: char)
    ensures |Split(s, sep)| == multiset(s)[sep] + 1
  {
    if |s| > 0 {
      SplitCount(s[1..], sep);
      assert s == [s[0]] + s[1..];
    }
  }

  /** A slice holds no more of a character than the whole text. */
  lemma SliceCount(s: string, i: nat, j: nat, c: char)
    requires i <= j <= |s|
    ensures multiset(s[i..j])[c] <= multiset(s)[c]
  {
    assert s == s[..i] + s[i..j] + s[j..];
  }

  /** Python's `sep.join(parts)`. */
  function Join(parts: seq<string>, sep: char): string
  {
    if |parts| == 0 then ""
    else if |parts| == 1 then parts[0]
    else parts[0] + [sep] + Join(parts[1..], sep)
  }

  /** Splitting text whose first stretch holds no separator glues that
      stretch onto the first piece of the rest. */
  lemma {:induction false} SplitPrefix(p: string, t: string, sep: char)
    requires sep !in p
    ensures Split(p + t, sep) == [p + Split(t, sep)[0]] + Split(t, sep)[1..]
  {
    if |p| == 0 {
      assert p + t == t;
      var r := Split(t, sep);
      assert r == [r[0]] + r[1..];
      assert p + r[0] == r[0];
    } else {
      assert (p + t)[1..] == p[1..] + t;
      assert (p + t)[0] == p[0];
      SplitPrefix(p[1..], t, sep);
      assert [p[0]] + (p[1..] + Split(t, sep)[0]) == p + Split(t, sep)[0];
    }
  }

  /** Joining and then splitting gives the pieces back, as long as no piece
      holds the separator. */
  lemma {:induction false} SplitJoin(parts: seq<string>, sep: char)
    requires |parts| >= 1
    requires forall i :: 0 <= i < |parts| ==> sep !in parts[i]
    ensures Split(Join(parts, sep), sep) == parts
  {
    if |parts| == 1 {
      SplitPrefix(parts[0], "", sep);
      assert parts[0] + "" == parts[0];
    } else {
      var rest := parts[1..];
      SplitJoin(rest, sep);
      assert Join(parts, sep) == parts[0] + ([sep] + Join(rest, sep));
      SplitPrefix(parts[0], [sep] + Join(rest, sep), sep);
      var tail := [sep] + Join(rest, sep);
      assert tail[1..] == Join(rest, sep);
      assert Split(tail, sep) == [""] + rest;
      assert parts[0] + "" == parts[0];
      assert parts == [parts[0]] + rest;
    }
  }

  /** Splitting and then joining gives the text back. */
  lemma {:induction false} JoinSplit(s: string, sep: char)
    ensures Join(Split(s, sep), sep) == s
  {
    if |s| > 0 {
      var rest := Split(s[1..], sep);
      JoinSplit(s[1..], sep);
      if s[0] == sep {
        assert ([""] + rest)[1..] == rest;
      } else if |rest| == 1 {
        assert ([[s[0]] + rest[0]] + rest[1..]) == [[s[0]] + rest[0]];
      } else {
        var parts := [[s[0]] + rest[0]] + rest[1..];
        assert parts[1..] == rest[1..];
        assert Join(rest, sep) == rest[0] + [sep] + Join(rest[1..], sep);
        assert s == [s[0]] + s[1..];
      }
    }
  }

  /** `str.split(sep)` of two texts glued by `sep` is the concatenation of
      their splits. */
  lemma {:induction false} SplitAround(x: string, y: string, sep: char)
    ensures Split(x + [sep] + y, sep) == Split(x, sep) + Split(y, sep)
  {
    if |x| == 0 {
      assert x + [sep] + y == [sep] + y;
      SplitCons(sep, y, sep);
    } else {
      SplitAround(x[1..], y, sep);
      SplitAroundStep(x[0], x[1..], y, sep);
      assert x == [x[0]] + x[1..];
    }
  }

  lemma SplitAroundStep(c: char, u: string, y: string, sep: char)
    requires Split(u + [sep] + y, sep) == Split(u, sep) + Split(y, sep)
    ensures Split([c] + u + [sep] + y, sep) == Split([c] + u, sep) + Split(y, sep)
  {
    assert [c] + u + [sep] + y == [c] + (u + [sep] + y);
    if c == sep {
      SplitAroundSeparator(c, u + [sep] + y, u, Split(y, sep), sep);
    } else {
      SplitAroundOther(c, u + [sep] + y, u, Split(y, sep), sep);
    }
  }

  lemma SplitAroundSeparator(c: char, t: string, u: string, b: seq<string>, sep: char)
    requires c == sep && Split(t, sep) == Split(u, sep) + b
    ensures Split([c] + t, sep) == Split([c] + u, sep) + b
  {
    SplitCons(c, t, sep);
    SplitCons(c, u, sep);
  }

  lemma SplitAroundOther(c: char, t: string, u: string, b: seq<string>, sep: char)
    requires c != sep && Split(t, sep) == Split(u, sep) + b
    ensures Split([c] + t, sep) == Split([c] + u, sep) + b
  {
    SplitCons(c, t, sep);
    SplitCons(c, u, sep);
    FirstPieceGrows(c, Split(u, sep), b);
  }

  /** Growing the first piece of `a` commutes with appending `b`. */
  lemma FirstPieceGrows(c: char, a: seq<string>, b: seq<string>)
    requires |a| > 0
    ensures [[c] + (a + b)[0]] + (a + b)[1..] == [[c] + a[0]] + a[1..] + b
  {
    assert (a + b)[0] == a[0] && (a + b)[1..] == a[1..] + b;
  }

  /** One step of `Split`: the first character either ends the first piece
      or joins it. */
  lemma SplitCons(c: char, t: string, sep: char)
    ensures Split([c] + t, sep) ==
      if c == sep then [""] + Split(t, sep) else [[c] + Split(t, sep)[0]] + Split(t, sep)[1..]
  {
    assert ([c] + t)[1..] == t;
  }

  /** Text without the separator splits into itself alone. */
  lemma SplitNoSeparator(x: string, sep: char)
    requires sep !in x
    ensures Split(x, sep) == [x]
  {
    SplitPrefix(x, "", sep);
    assert x + "" == x;
  }

  // ---------------------------------------------------------------------
  // Substrings and str.strip()
  // ---------------------------------------------------------------------

  predicate StartsWith(s: string, prefix: string) {
    |prefix| <= |s| && s[..|prefix|] == prefix
  }

  /** Python's `sub in s`. */
  predicate Contains(s: string, sub: string)
  {
    StartsWith(s, sub) || (|s| > 0 && Contains(s[1..], sub))
  }

  /** `sub in x + y` whenever `sub in y`. */
  lemma {:induction false} ContainsSuffix(x: string, y: string, sub: string)
    requires Contains(y, sub)
    ensures Contains(x + y, sub)
    decreases |x|
  {
    if |x| > 0 {
      ContainsSuffix(x[1..], y, sub);
      assert (x + y)[1..] == x[1..] + y;
    } else {
      assert x + y == y;
    }
  }

  /** The index of the first line containing `sub`, as Python's
      `next((line for line in lines if sub in line), None)` finds it. */
  function FirstContaining(lines: seq<string>, sub: string): (k: Option<nat>)
    ensures k.Some? ==> k.value < |lines| && Contains(lines[k.value], sub)
    ensures k.Some? ==> forall j :: 0 <= j < k.value ==> !Contains(lines[j], sub)
    ensures k.None? ==> forall j :: 0 <= j < |lines| ==> !Contains(lines[j], sub)
  {
    if |lines| == 0 then None
    else if Contains(lines[0], sub) then Some(0)
    else
      match FirstContaining(lines[1..], sub)
      case None => None
      case Some(k) => Some(k + 1)
  }

  /** The first line containing `sub` is found wherever it sits, and
      nothing after it is looked at. */
  lemma FirstContainingAt(pre: seq<string>, row: string, post: seq<string>, sub: string)
    requires forall j :: 0 <= j < |pre| ==> !Contains(pre[j], sub)
    requires Contains(row, sub)
    ensures var lines := pre + [row] + post;
      FirstContaining(lines, sub) == Some(|pre|) && lines[|pre|] == row
  {
    var lines := pre + [row] + post;
    assert lines[|pre|] == row;
    assert forall j :: 0 <= j < |pre| ==> lines[j] == pre[j];
  }

  /** The scan of `re.search`: the result `m` gives at the first index in
      `p..n` where it gives one. */
  function Leftmost<T>(n: nat, m: nat -> Option<T>, p: nat): Option<T>
    decreases n - p
  {
    if p > n then None
    else
      match m(p)
      case Some(x) => Some(x)
      case None => Leftmost(n, m, p + 1)
  }

  /** Indices where nothing is found can be stepped over. */
  lemma {:induction false} LeftmostSkips<T>(n: nat, m: nat -> Option<T>, p: nat, q: nat)
    requires p <= q
    requires forall k :: p <= k < q ==> m(k).None?
    ensures Leftmost(n, m, p) == Leftmost(n, m, q)
    decreases q - p
  {
    if p < q {
      LeftmostSkips(n, m, p + 1, q);
    }
  }

  /** The index where `s.rstrip()` would cut, searching down from `j` but
      never below `i`. */
  function TrimEndIndex(s: string, i: nat, j: nat): (k: nat)
    requires i <= j <= |s|
    requires forall m :: j <= m < |s| ==> IsSpace(s[m])
    ensures i <= k <= j
    ensures forall m :: k <= m < |s| ==> IsSpace(s[m])
    ensures k == i || !IsSpace(s[k - 1])
    decreases j
  {
    if j > i && IsSpace(s[j - 1]) then TrimEndIndex(s, i, j - 1) else j
  }

  /** Python's `s.strip()`: drops the whitespace at both ends and nothing else. */
  function Strip(s: string): (r: string)
    ensures |r| == 0 || (!IsSpace(r[0]) && !IsSpace(r[|r| - 1]))
    ensures exists i, j :: 0 <= i <= j <= |s| && r == s[i..j]
                           && (forall k :: 0 <= k < i ==> IsSpace(s[k]))
                           && (forall k :: j <= k < |s| ==> IsSpace(s[k]))
  {
    var i := Span(s, 0, IsSpace);
    var j := TrimEndIndex(s, i, |s|);
    s[i..j]
  }

  /** Text with no whitespace at either end is left alone by strip(). */
  lemma StripUnchanged(s: string)
    requires |s| == 0 || (!IsSpace(s[0]) && !IsSpace(s[|s| - 1]))
    ensures Strip(s) == s
  {
    assert s[0..|s|] == s;
  }

  predicate AllSpace(s: string) {
    forall i :: 0 <= i < |s| ==> IsSpace(s[i])
  }

  /** `TrimEndIndex` stops at the end of the last non-blank character. */
  lemma {:induction false} TrimEndStopsAt(s: string, i: nat, m: nat, j: nat)
    requires i <= m <= j <= |s|
    requires forall k :: m <= k < |s| ==> IsSpace(s[k])
    requires m == i || !IsSpace(s[m - 1])
    ensures TrimEndIndex(s, i, j) == m
    decreases j
  {
    if j > m {
      TrimEndStopsAt(s, i, m, j - 1);
    }
  }

  /** strip() removes exactly the whitespace around a text that neither
      starts nor ends with whitespace. */
  lemma StripSurrounded(lead: string, x: string, trail: string)
    requires AllSpace(lead) && AllSpace(trail)
    requires |x| > 0 && !IsSpace(x[0]) && !IsSpace(x[|x| - 1])
    ensures Strip(lead + x + trail) == x
  {
    var s := lead + x + trail;
    var i, m := |lead|, |lead| + |x|;
    assert s[i] == x[0] && s[m - 1] == x[|x| - 1];
    SpanStopsAt(s, 0, i, IsSpace);
    assert forall k :: m <= k < |s| ==> IsSpace(s[k]) by {
      forall k | m <= k < |s| ensures IsSpace(s[k]) {
        assert s[k] == trail[k - m];
      }
    }
    TrimEndStopsAt(s, i, m, |s|);
    assert s[i..m] == x;
  }

  /** One blank on each side of a field is exactly what strip() removes. */
  lemma StripPadded(x: string)
    requires |x| > 0 && !IsSpace(x[0]) && !IsSpace(x[|x| - 1])
    ensures Strip(" " + x + " ") == x
  {
    var s := " " + x + " ";
    assert Span(s, 1, IsSpace) == 1;
    assert Span(s, 0, IsSpace) == 1;
    assert TrimEndIndex(s, 1, |s| - 1) == |s| - 1;
    assert TrimEndIndex(s, 1, |s|) == |s| - 1;
    assert s[1..|s| - 1] == x;
  }

  /** Python's `s.replace(c, "")`. */
  function RemoveChar(s: string, c: char): (r: string)
    ensures c !in r
    ensures forall x :: x != c ==> (x in r <==> x in s)
  {
    if |s| == 0 then ""
    else if s[0] == c then RemoveChar(s[1..], c)
    else [s[0]] + RemoveChar(s[1..], c)
  }

  /** `replace` works piece by piece. */
  lemma {:induction false} RemoveCharAppend(a: string, b: string, c: char)
    ensures RemoveChar(a + b, c) == RemoveChar(a, c) + RemoveChar(b, c)
  {
    if |a| > 0 {
      RemoveCharAppend(a[1..], b, c);
      assert (a + b)[1..] == a[1..] + b;
    } else {
      assert a + b == b;
    }
  }

  /** Removing the one occurrence of a character joins the text on
      either side of it. */
  lemma RemoveOne(a: string, b: string, c: char)
    requires c !in a && c !in b
    ensures RemoveChar(a + [c] + b, c) == a + b
  {
    assert RemoveChar(a, c) == a by {
      RemoveAbsent(a, c);
    }
    assert RemoveChar([c] + b, c) == b by {
      assert ([c] + b)[1..] == b;
      RemoveAbsent(b, c);
    }
    assert a + [c] + b == a + ([c] + b);
    RemoveCharAppend(a, [c] + b, c);
  }

  /** Removing a character that is not there changes nothing. */
  lemma {:induction false} RemoveAbsent(s: string, c: char)
    requires c !in s
    ensures RemoveChar(s, c) == s
  {
    if |s| > 0 {
      assert c !in s[1..];
      RemoveAbsent(s[1..], c);
      assert s == [s[0]] + s[1..];
    }
  }

  /** The first index at or after `i` whose character fails `p`, or `|s|`. */
  function Span(s: string, i: nat, p: char -> bool): (j: nat)
    requires i <= |s|
    ensures i <= j <= |s|
    ensures forall k :: i <= k < j ==> p(s[k])
    ensures j == |s| || !p(s[j])
    decreases |s| - i
  {
    if i < |s| && p(s[i]) then Span(s, i + 1, p) else i
  }

  /** A slice inside the front part of a concatenation. */
  lemma SliceOfFront(u: string, v: string, i: nat, j: nat)
    requires i <= j <= |u|
    ensures (u + v)[i..j] == u[i..j]
  {
  }

  /** Both parts of a concatenation, as slices. */
  lemma SliceOfBack(u: string, v: string)
    ensures (u + v)[..|u|] == u && (u + v)[|u|..] == v
    ensures (u + v)[|u|..|u| + |v|] == v
  {
  }

  /** A piece of a window onto `s` is the same piece of `s`. */
  lemma WindowSlice(s: string, n: nat, w: string, i: nat, j: nat)
    requires n + |w| <= |s| && s[n..n + |w|] == w && i <= j <= |w|
    ensures s[n + i..n + j] == w[i..j]
  {
    forall k | 0 <= k < j - i
      ensures s[n + i..n + j][k] == w[i..j][k]
    {
      assert w[i..j][k] == s[n..n + |w|][i + k];
    }
  }

  /** `Span` stops exactly at the first index whose character fails. */
  lemma SpanStopsAt(s: string, i: nat, m: nat, p: char -> bool)
    requires i <= m <= |s|
    requires forall k :: i <= k < m ==> p(s[k])
    requires m == |s| || !p(s[m])
    ensures Span(s, i, p) == m
  {
  }

  // ---------------------------------------------------------------------
  // Decimal numbers: str(n), int(s), float(s)
  // ---------------------------------------------------------------------

  function DigitValue(c: char): nat
    requires IsDigit(c)
  {
    c as int - '0' as int
  }

  function DigitChar(d: nat): (c: char)
    requires d < 10
    ensures IsDigit(c) && DigitValue(c) == d
  {
    ('0' as int + d) as char
  }

  /** The value of a string of decimal digits (0 for the empty string). */
  function DigitsValue(s: string): nat
    requires AllDigits(s)
  {
    if |s| == 0 then 0 else DigitsValue(s[..|s| - 1]) * 10 + DigitValue(s[|s| - 1])
  }

  /** The value of a digit string grows one digit at a time. */
  lemma DigitsValueSnoc(s: string, i: nat)
    requires AllDigits(s) && i < |s|
    ensures DigitsValue(s[..i + 1]) == DigitsValue(s[..i]) * 10 + DigitValue(s[i])
  {
    assert s[..i + 1][..i] == s[..i];
  }

  /** Three digits at once: the value of a longer prefix. */
  lemma DigitsValueSnoc3(s: string, k: nat)
    requires AllDigits(s) && k + 3 <= |s|
    ensures DigitsValue(s[..k + 3])
      == DigitsValue(s[..k]) * 1000 + DigitValue(s[k]) * 100 + DigitValue(s[k + 1]) * 10 + DigitValue(s[k + 2])
  {
    DigitsValueSnoc(s, k);
    DigitsValueSnoc(s, k + 1);
    DigitsValueSnoc(s, k + 2);
  }

  /** `AllDigits` checked from the front, one character at a time, which
      a concrete string unfolds into directly. */
  predicate DigitByDigit(s: string) {
    |s| == 0 || (IsDigit(s[0]) && DigitByDigit(s[1..]))
  }

  lemma {:induction false} DigitByDigitAll(s: string)
    requires DigitByDigit(s)
    ensures AllDigits(s)
  {
    if |s| > 0 {
      DigitByDigitAll(s[1..]);
      assert forall i :: 1 <= i < |s| ==> s[i] == s[1..][i - 1];
    }
  }

  function Pow10(n: nat): (r: nat)
    ensures r >= 1
  {
    if n == 0 then 1 else 10 * Pow10(n - 1)
  }

  /** Python's `str(n)` for a non-negative int: the shortest decimal numeral. */
  function NatToString(n: nat): (s: string)
    ensures 1 <= |s| && AllDigits(s)
    ensures DigitsValue(s) == n
    ensures |s| > 1 ==> s[0] != '0'
  {
    if n < 10 then [DigitChar(n)]
    else
      var s := NatToString(n / 10) + [DigitChar(n % 10)];
      assert s[..|s| - 1] == NatToString(n / 10);
      s
  }

  /** Python's `str(n)` for any int. */
  function IntToString(n: int): (s: string)
    ensures n >= 0 ==> s == NatToString(n)
    ensures n < 0 ==> s == "-" + NatToString(-n)
  {
    if n < 0 then "-" + NatToString(-n) else NatToString(n)
  }

  /** Python's `int(s)` restricted to ASCII: surrounding whitespace, an
      optional sign, then one or more decimal digits. */
  function ParseInt(s: string): (r: Option<int>)
    ensures r.Some? && '-' !in s ==> r.value >= 0
  {
    var t := Strip(s);
    var neg := |t| > 0 && t[0] == '-';
    var body := if |t| > 0 && (t[0] == '+' || t[0] == '-') then t[1..] else t;
    if |body| > 0 && AllDigits(body) then
      Some(if neg then -(DigitsValue(body) as int) else DigitsValue(body))
    else None
  }

  /** int() accepts exactly what str() prints. */
  lemma ParseIntNatToString(n: nat)
    ensures ParseInt(NatToString(n)) == Some(n)
  {
    var s := NatToString(n);
    assert !IsSpace(s[0]) && !IsSpace(s[|s| - 1]);
    StripUnchanged(s);
  }

  /** The value of the numeral `whole.frac`. */
  function DecimalValue(whole: string, frac: string): (v: real)
    requires AllDigits(whole) && AllDigits(frac)
    ensures v >= 0.0
  {
    DigitsValue(whole) as real + DigitsValue(frac) as real / Pow10(|frac|) as real
  }

  /** float() on text with no sign and no surrounding whitespace: digits with
      at most one '.', and at least one digit in all. */
  function ParseUnsignedDecimal(t: string): (r: Option<real>)
    ensures r.Some? ==> r.value >= 0.0
    ensures |t| > 0 && AllDigits(t) ==> r == Some(DigitsValue(t) as real)
  {
    if '.' !in t then
      if |t| > 0 && AllDigits(t) then Some(DigitsValue(t) as real) else None
    else
      var parts := Split(t, '.');
      if |parts| == 2 && AllDigits(parts[0]) && AllDigits(parts[1]) && |parts[0]| + |parts[1]| > 0 then
        Some(DecimalValue(parts[0], parts[1]))
      else
        None
  }

  /** Python's `float(s)` restricted to plain decimal notation: surrounding
      whitespace, an optional sign, digits with at most one '.'. */
  function ParseDecimal(s: string): (r: Option<real>)
    ensures r.Some? && '-' !in s ==> r.value >= 0.0
  {
    var t := Strip(s);
    if |t| > 0 && (t[0] == '+' || t[0] == '-') then
      match ParseUnsignedDecimal(t[1..])
      case None => None
      case Some(v) =>
        if t[0] == '-' then
          assert '-' in s by {
            var i, j :| 0 <= i <= j <= |s| && t == s[i..j];
            assert s[i] == '-';
          }
          Some(-v)
        else Some(v)
    else
      ParseUnsignedDecimal(t)
  }

  /** float() rejects text that starts with neither a digit, a sign nor a
      '.'. */
  lemma RejectsNonNumeral(s: string)
    requires |s| > 0 && !IsSpace(s[0]) && !IsSpace(s[|s| - 1])
    requires !IsDigit(s[0]) && s[0] != '+' && s[0] != '-' && s[0] != '.'
    ensures ParseDecimal(s) == None
  {
    StripUnchanged(s);
    if '.' in s {
      assert s == [s[0]] + s[1..];
      SplitPrefix([s[0]], s[1..], '.');
      assert Split(s, '.')[0][0] == s[0];
    }
  }

  /** float() reads back what str() prints for a non-negative int. */
  lemma ParseDecimalNatToString(n: nat)
    ensures ParseDecimal(NatToString(n)) == Some(n as real)
  {
    var s := NatToString(n);
    assert !IsSpace(s[0]) && !IsSpace(s[|s| - 1]);
    StripUnchanged(s);
    assert s[0] != '+' && s[0] != '-';
  }

  /** A string of digits holds no other character. */
  lemma DigitsExclude(x: string, c: char)
    requires AllDigits(x) && !IsDigit(c)
    ensures c !in x
  {
  }

  /** `x.y` splits on the dot into its two digit strings. */
  lemma SplitFraction(x: string, y: string)
    requires AllDigits(x) && AllDigits(y)
    ensures Split(x + "." + y, '.') == [x, y]
  {
    DigitsExclude(x, '.');
    DigitsExclude(y, '.');
    assert Join([x, y], '.') == x + "." + y;
    SplitJoin([x, y], '.');
  }

  /** Text that splits on its dot into two digit strings reads as their
      value. */
  lemma UnsignedFraction(t: string, x: string, y: string)
    requires '.' in t && Split(t, '.') == [x, y]
    requires AllDigits(x) && AllDigits(y) && |x| + |y| > 0
    ensures ParseUnsignedDecimal(t) == Some(DecimalValue(x, y))
  {
  }

  /** float() reads `x.y` as x plus y tenths, hundredths, ...: the value
      the digits spell out. */
  lemma ParseDecimalFraction(x: string, y: string)
    requires |x| > 0 && AllDigits(x) && |y| > 0 && AllDigits(y)
    ensures ParseDecimal(x + "." + y) == Some(DecimalValue(x, y))
  {
    var s := x + "." + y;
    assert s[0] == x[0] && s[|s| - 1] == y[|y| - 1];
    StripUnchanged(s);
    assert s[|x|] == '.';
    SplitFraction(x, y);
    UnsignedFraction(s, x, y);
  }
}

=== FILE: topology.dfy ===
/** The CPU partition `exp_solo.py` computes at import time from sysfs:
    core 0's hardware threads are left to the GPU helper, core 1's go to
    the power monitor, core 2's two threads go one each to the memory and
    the IPS monitors, and the benchmark gets every other online CPU. */
module Topology {
  import opened Wrappers
  import opened Text
  import opened Sorting
  import opened CpuList

  /** Which sysfs cpulist file a value came from. */
  datatype CpuListFile = SiblingsOf(core: nat) | OnlineList

  datatype TopologyError =
    | Malformed(file: CpuListFile)   // ValueError out of `expand_cpu_list`
    | NoSmtOnCore2                   // the RuntimeError for core 2

  datatype Partition = Partition(
    sib0: seq<int>,       // core 0's threads: excluded from everything
    sib1: seq<int>,       // core 1's threads: the power monitor's CPUs
    sib2: seq<int>,       // core 2's threads: split between two monitors
    tMem: int,            // the memory-throughput monitor's CPU
    tIps: int,            // the IPS / LLC monitor's CPU
    allowed: seq<int>,    // the benchmark's CPUs
    allowedStr: string,   // `allowed` as handed to `taskset -c`
    sib1Str: string)      // `sib1` as handed to `taskset -c`

  /** `thread_siblings(cpu)` on the (already stripped) text of
      `cpu<N>/topology/thread_siblings_list`: the listed ids, ascending. */
  function ThreadSiblings(text: string): (r: Option<seq<int>>)
    ensures r.None? <==> Expand(text).None?
    ensures r.Some? ==> Sorted(r.value) && multiset(r.value) == multiset(Expand(text).value)
  {
    match Expand(text)
    case None => None
    case Some(ids) => Some(Sort(ids))
  }

  /** The module-level partition of `exp_solo.py`, from the stripped text
      of the online list and of cores 0, 1 and 2's sibling lists. The
      sibling files are read first, core 2 is checked, the two monitor
      threads are picked, and only then is the online list read. */
  function ComputePartition(online: string, list0: string, list1: string, list2: string)
    : (r: Result<Partition, TopologyError>)
    ensures r.Ok? ==>
      var p := r.value;
      && ThreadSiblings(list0) == Some(p.sib0)
      && ThreadSiblings(list1) == Some(p.sib1)
      && ThreadSiblings(list2) == Some(p.sib2)
      && Expand(online).Some?
      && StrictlySorted(p.allowed)
      && Elems(p.allowed) == Elems(Expand(online).value) - Elems(p.sib0) - Elems(p.sib1) - Elems(p.sib2)
      && |p.sib2| >= 2 && p.tMem == p.sib2[0] && p.tIps == p.sib2[1]
      && p.allowedStr == JoinIds(p.allowed)
      && p.sib1Str == JoinIds(p.sib1)
  {
    match ThreadSiblings(list0)
    case None => Err(Malformed(SiblingsOf(0)))
    case Some(sib0) =>
      match ThreadSiblings(list1)
      case None => Err(Malformed(SiblingsOf(1)))
      case Some(sib1) =>
        match ThreadSiblings(list2)
        case None => Err(Malformed(SiblingsOf(2)))
        case Some(sib2) =>
          if |sib2| < 2 then Err(NoSmtOnCore2)
          else
            var tMem := sib2[0];
            var tIps := sib2[1];
            match Expand(online)
            case None => Err(Malformed(OnlineList))
            case Some(cpus) =>
              var allowed := SortedSet(Without(cpus, Elems(sib0) + Elems(sib1) + Elems(sib2)));
              MinusUnion(Elems(cpus), Elems(sib0), Elems(sib1), Elems(sib2));
              Ok(Partition(sib0, sib1, sib2, tMem, tIps, allowed, JoinIds(allowed), JoinIds(sib1)))
  }

  /** Taking away a union is taking away each part in turn. */
  lemma MinusUnion(a: set<int>, b: set<int>, c: set<int>, d: set<int>)
    ensures a - (b + c + d) == a - b - c - d
  {
  }

  /** The run is refused exactly when a list is malformed or core 2 shows
      fewer than two threads, and a short core 2 is reported before the
      online list is even looked at. */
  lemma PartitionFailure(online: string, list0: string, list1: string, list2: string)
    ensures var r := ComputePartition(online, list0, list1, list2);
      r.Err? <==>
        || Expand(list0).None? || Expand(list1).None? || Expand(list2).None?
        || |Expand(list2).value| < 2
        || Expand(online).None?
    ensures Expand(list0).Some? && Expand(list1).Some? && Expand(list2).Some?
              && |Expand(list2).value| < 2
            ==> ComputePartition(online, list0, list1, list2) == Err(NoSmtOnCore2)
  {
    var r := ComputePartition(online, list0, list1, list2);
    if Expand(list2).Some? {
      var s2 := ThreadSiblings(list2).value;
      assert |s2| == |Expand(list2).value| by {
        assert |multiset(s2)| == |multiset(Expand(list2).value)|;
      }
    }
  }

  /** The two monitor threads are taken in ascending order, and are two
      different CPUs unless core 2's list names a CPU twice. */
  lemma MonitorThreadsOrdered(online: string, list0: string, list1: string, list2: string)
    requires ComputePartition(online, list0, list1, list2).Ok?
    ensures var p := ComputePartition(online, list0, list1, list2).value;
      && p.tMem <= p.tIps
      && p.tMem in Expand(list2).value && p.tIps in Expand(list2).value
      && (p.tMem == p.tIps ==> multiset(Expand(list2).value)[p.tMem] >= 2)
  {
    var p := ComputePartition(online, list0, list1, list2).value;
    var ids := Expand(list2).value;
    FirstTwo(p.sib2);
    assert multiset(p.sib2) == multiset(ids);
  }

  lemma FirstTwo(s: seq<int>)
    requires |s| >= 2
    ensures s[0] in multiset(s) && s[1] in multiset(s)
    ensures s[0] == s[1] ==> multiset(s)[s[0]] >= 2
  {
    assert s == [s[0], s[1]] + s[2..];
    assert multiset(s) == multiset{s[0], s[1]} + multiset(s[2..]);
  }

  /** No CPU of the benchmark is shared with a monitor or the helper core:
      the power monitor's `sib1`, the memory monitor's `tMem`, the IPS
      monitor's `tIps` and core 0's threads all lie outside `allowed`, which
      itself lies inside the online list. */
  lemma AllowedIsolated(online: string, list0: string, list1: string, list2: string)
    requires ComputePartition(online, list0, list1, list2).Ok?
    ensures var p := ComputePartition(online, list0, list1, list2).value;
      && (forall x :: x in p.allowed ==> x in Expand(online).value)
      && (forall x :: x in p.allowed ==> x !in p.sib0 && x !in p.sib1 && x !in p.sib2)
      && p.tMem !in p.allowed && p.tIps !in p.allowed
  {
    var p := ComputePartition(online, list0, list1, list2).value;
    assert p.tMem in Elems(p.sib2) && p.tIps in Elems(p.sib2);
    forall x | x in p.allowed
      ensures x in Expand(online).value && x !in p.sib0 && x !in p.sib1 && x !in p.sib2
    {
      assert x in Elems(p.allowed);
    }
  }

  /** `allowed` is `sorted(set(online) - set(sib0) - set(sib1) - set(sib2))`:
      any ascending repetition-free listing of that set is `allowed`. */
  lemma AllowedIsSortedSet(online: string, list0: string, list1: string, list2: string, other: seq<int>)
    requires ComputePartition(online, list0, list1, list2).Ok?
    requires var p := ComputePartition(online, list0, list1, list2).value;
      && StrictlySorted(other)
      && Elems(other) == Elems(Expand(online).value) - Elems(p.sib0) - Elems(p.sib1) - Elems(p.sib2)
    ensures other == ComputePartition(online, list0, list1, list2).value.allowed
  {
    var p := ComputePartition(online, list0, list1, list2).value;
    StrictlySortedUnique(other, p.allowed);
  }

  /** Every CPU the partition names is a CPU number, never negative. */
  lemma PartitionNonNegative(online: string, list0: string, list1: string, list2: string)
    requires ComputePartition(online, list0, list1, list2).Ok?
    ensures var p := ComputePartition(online, list0, list1, list2).value;
      && (forall i :: 0 <= i < |p.allowed| ==> p.allowed[i] >= 0)
      && (forall i :: 0 <= i < |p.sib1| ==> p.sib1[i] >= 0)
  {
    var p := ComputePartition(online, list0, list1, list2).value;
    forall i | 0 <= i < |p.allowed|
      ensures p.allowed[i] >= 0
    {
      assert p.allowed[i] in Elems(p.allowed);
      var cpus := Expand(online).value;
      assert p.allowed[i] in Elems(cpus);
    }
    forall i | 0 <= i < |p.sib1|
      ensures p.sib1[i] >= 0
    {
      var ids := Expand(list1).value;
      assert p.sib1[i] in multiset(ids);
    }
  }

  /** The CPU lists handed to `taskset -c` name exactly the chosen CPUs
      again, whenever they are not empty. */
  lemma TasksetListsRoundTrip(online: string, list0: string, list1: string, list2: string)
    requires ComputePartition(online, list0, list1, list2).Ok?
    ensures var p := ComputePartition(online, list0, list1, list2).value;
      && (|p.allowed| > 0 ==> Expand(p.allowedStr) == Some(p.allowed))
      && (|p.sib1| > 0 ==> Expand(p.sib1Str) == Some(p.sib1))
  {
    var p := ComputePartition(online, list0, list1, list2).value;
    PartitionNonNegative(online, list0, list1, list2);
    if |p.allowed| > 0 {
      JoinIdsRoundTrip(p.allowed);
    }
    if |p.sib1| > 0 {
      JoinIdsRoundTrip(p.sib1);
    }
  }
}

=== FILE: wrappers.dfy ===
/** Failure-carrying values: the Python code signals failure by raising,
    the model returns one of these instead. */
module Wrappers {

  datatype Option<+T> = None | Some(value: T) {
    function GetOr(default: T): T {
      match this
      case Some(v) => v
      case None => default
    }
  }

  datatype Result<+T, +E> = Ok(value: T) | Err(error: E)
}
